=== FILE: README.md ===
# Expense tracker with fraud detection: a Dafny model of the server core

This project models the server side of an expense tracker that also runs a
fraud detector. The modelled server behaviour is:

- a ledger of **transactions** (income, expense, and the two halves of a wallet transfer), each validated by a Mongoose schema;
- a **wallet** per user, which can be topped up or used to transfer money to another user by email address;
- a **fraud rule engine** that runs after every created or updated transaction. It has four rules: high amount, category limit, frequency and unusual time. The engine stores a fraud alert per signal, flags the transaction and can mail the user;
- **alert review**, listing and summaries;
- **analytics**: the dashboard, budget analysis with recommendations, unusual transactions, and the CSV and JSON export;
- the rule-based **fallbacks of the AI helper**, used when the language model is not configured or fails.

The model is written in the system's own terms:

- **Entities.** The MongoDB collections become immutable datatypes: `Entry`, `Alert` and `Account`, kept in one `Store`.
- **Queries.** Every query becomes a pure function over the store's sequences. `find` and `countDocuments` are filters, `$group` is `GroupBy`, and `sort({ field: -1 })` is a stable descending sort.
- **Routes.** Every route is a function from the store and the request to a reply, together with the new store.
- **External outcomes.** The clock, fresh ids, e-mail delivery and the language model's answers are parameters.
- **Money and time.** Money is an exact `real`. Time is an integer number of milliseconds. An `Instant` carries the calendar fields the source reads: the UTC month for `$month`, the UTC hour for `$hour`, and the local hour for `getHours()`.

| module | file | models |
|---|---|---|
| `Wrappers`, `Http` | wrappers.dfy, http.dfy | `Option`/`Result`, HTTP replies and statuses |
| `Seqs`, `Sorting`, `Grouping`, `Paging`, `Text` | seqs.dfy, sorting.dfy, grouping.dfy, paging.dfy, text.dfy | `$match`/`$sum`/`countDocuments`, descending sorts, `$group`, `skip`/`limit` pagination, `trim` and comma replacement |
| `TransactionModel` | transaction_model.dfy | server/models/Transaction.js |
| `FraudAlertModel` | fraud_alert_model.dfy | server/models/FraudAlert.js |
| `Store` | store.dfy | the collections and fresh ids |
| `Validation` | validation.dfy | server/middleware/validation.js |
| `FraudRules`, `FraudDetection` | fraud_rules.dfy, fraud_detection.dfy | server/utils/fraudDetection.js |
| `Wallet` | wallet.dfy | server/routes/wallet.js |
| `FraudRoutes` | fraud_routes.dfy | server/routes/fraud.js |
| `AiService` | ai_service.dfy | server/utils/aiService.js |
| `TransactionRoutes` | transaction_routes.dfy | server/routes/transactions.js |
| `Analytics` | analytics.dfy | server/routes/analytics.js |

Where the model follows the code rather than the documented intent:

- **Frequency rule.** It counts the *other* transactions of the last hour (`_id: { $ne: … }`). It fires when there are at least five of them, and reports that count plus one.
- **Unusual-time rule.** Its 30-day night count includes the current transaction, which is already saved when the rule runs.
- **Alert review.** There is no guard on an alert's current status. A decided alert can be reviewed again, and its decision is overwritten.
- **Transfers.** There is no idempotency key: a repeated request is a second transfer.
- **Alert types.** The frequency and unusual-time rules emit signal types that the alert schema's enum rejects. The failing `save()` is caught by the engine's catch-all, so any such signal makes the whole run return `[]`. The stored entry is then not flagged, although alerts saved before the failing one remain. The create and update routes reply with the in-memory entry, which does carry the flags pushed before the failure, so the reply and the ledger disagree. This is modelled as written (`FrequencyOrNightAlertIsLost`, `RecheckReplyOutrunsLedger`).

## Model

| member | source | states |
|---|---|---|
| TransactionModel.ParseKindName | server/models/Transaction.js:10-14 | the four kind names parse back to their kind |
| TransactionModel.ParsePaymentMethodName | server/models/Transaction.js:42-46 | the five payment-method names parse back to their method |
| TransactionModel.FlagEnum | server/models/Transaction.js:93-97 | the fraud-flag enum admits unusual_time, frequent_transactions and unusual_location, and rejects unusual_pattern and suspicious_activity |
| TransactionModel.TrimAll | server/models/Transaction.js:59-62 | every tag is trimmed, and the tag count is unchanged |
| TransactionModel.Build | server/models/Transaction.js:4-127 | a new entry saves iff it has a non-empty trimmed description, a category, an amount ≥ 0, an enum payment method and a confidence in [0,1]. The saved entry carries the given fields, and the date defaults to now. The defaults are payment method other, currency USD, exchange rate 1, not recurring, not reviewed and no flags |
| TransactionModel.Validate | server/models/Transaction.js:15-124 | re-saving succeeds exactly for schema-valid entries and leaves them unchanged |
| FraudAlertModel.ParseStatusName | server/models/FraudAlert.js:35-39 | the four status names parse back to their status |
| FraudAlertModel.EnumsDisagree | server/models/FraudAlert.js:15-19 | only high_amount and category_limit belong to both the alert enum and the flag enum. frequent_transactions and unusual_time are not alert types |
| FraudAlertModel.NewAlert | server/models/FraudAlert.js:4-56 | an alert saves iff its type is in the alert enum and its message is non-empty. It starts pending, with emailSent false and no review fields, and keeps the given user, transaction, type, severity, message and details |
| Store.AppendEntry | server/routes/transactions.js:49 | a saved entry is appended under a fresh id, ids stay unique, and users and alerts are untouched |
| Store.AppendAlerts | server/utils/fraudDetection.js:32 | a batch of alerts is appended under consecutive fresh ids, and ids stay unique |
| Validation.Run | server/middleware/validation.js:4-13 | a validator chain reports the error of every failing rule and at most one error per rule. It reports none iff every rule passes, and names exactly the fields of failing rules |
| Validation.HandleValidationErrors | server/middleware/validation.js:4-13 | the request is refused with 400 and the error list iff the list is non-empty |
| Validation.TransferErrors | server/middleware/validation.js:65-78 | no error iff toEmail is an email, amount ≥ 0.01 and the trimmed description has 1 to 200 characters |
| Validation.TransferErrorsNameFailures | server/middleware/validation.js:65-78 | each of toEmail, amount and description is named iff its own rule fails |
| Validation.TransactionErrors | server/middleware/validation.js:46-63 | no error iff the type is one of the four kinds, amount ≥ 0.01, the trimmed description has 1 to 200 characters, and any date is ISO 8601 |
| Validation.TransactionErrorsNameFailures | server/middleware/validation.js:46-63 | each field is named iff its rule fails. Category and payment method are never named |
| Validation.RegisterErrors | server/middleware/validation.js:15-33 | no error iff both trimmed names have 2 to 50 characters, the email is valid and the password has at least 6 characters |
| Validation.RegisterPasswordRule | server/middleware/validation.js:28-31 | the password is named iff it is shorter than 6 characters. The message reported is the complexity one, the last withMessage |
| Validation.RegisterIgnoresComplexity | server/middleware/validation.js:28-31 | any password of 6 or more characters passes whatever its characters, including one with no upper-case letter and no digit |
| Validation.LoginErrors | server/middleware/validation.js:35-44 | no error iff the email is valid and the password is non-empty |
| Validation.LoginErrorsNameFailures | server/middleware/validation.js:35-44 | email and password are each named iff their own rule fails |
| FraudRules.HighAmountRule | server/utils/fraudDetection.js:64-111 | fires iff the entry is an expense, the average of the per-month expense totals before this month is > 0, and the amount exceeds 10% of it. The severity is high iff the amount exceeds 20% of that average, otherwise medium |
| FraudRules.AverageIsTotalOverMonths | server/utils/fraudDetection.js:70-95 | the monthly groups have distinct keys, every prior expense falls in one, and every group is the UTC month of some prior expense. There are no groups iff there are no prior expenses. The average is the prior expenses' total divided by the number of groups, and 0 without prior expenses |
| FraudRules.MonthsOfPriorExpenses | server/utils/fraudDetection.js:69-85 | the monthly groups' keys are exactly the UTC months of the expenses dated before the current month: each such expense has a group, and each group has such an expense |
| FraudRules.MonthlyTotals | server/utils/fraudDetection.js:70-86 | the per-month groups have distinct keys. Their totals add up to the prior expenses' total and their counts to the number of prior expenses. There are no groups without prior expenses |
| FraudRules.AverageMonthlySpending | server/utils/fraudDetection.js:70-95 | 0 without prior expenses. Otherwise the prior expenses' total divided by the number of monthly groups |
| FraudRules.HighAmountColdStart | server/utils/fraudDetection.js:95-98 | without prior-month expenses the rule never fires |
| FraudRules.CategoryLimitRule | server/utils/fraudDetection.js:113-169 | no signal for a non-expense or for a missing or zero limit. Otherwise it depends on the category's spending from the start of the month up to the entry's date: above 150% of the limit is high, above 100% medium, above 80% low, and at most 80% gives no signal |
| FraudRules.PercentageBands | server/utils/fraudDetection.js:140-154 | comparing spent/limit·100 with 150, 100 and 80 is comparing spent with 1.5, 1 and 0.8 times the limit |
| FraudRules.FrequencyRule | server/utils/fraudDetection.js:171-195 | fires iff at least 5 other entries of the user are dated within the last hour. It is high iff there are at least 10, and reports the count plus one |
| FraudRules.FrequencyExcludesCurrent | server/utils/fraudDetection.js:175-179 | adding the entry itself to the history changes neither the count nor the outcome |
| FraudRules.RecentCount | server/utils/fraudDetection.js:175-179 | the count is 0 iff no other entry of the user is dated within the last hour |
| FraudRules.UnusualTimeRule | server/utils/fraudDetection.js:197-226 | for an hour in 0..23, fires iff the local hour is < 6 and at most 2 of the user's entries in the last 30 days fall in UTC hours 0 to 5. The severity is always low, and it reports the hour |
| FraudRules.NightCount | server/utils/fraudDetection.js:201-210 | the count is 0 iff none of the user's entries of the last 30 days falls in UTC hours 0 to 5 |
| FraudRules.UnusualTimeNeverAfterSix | server/utils/fraudDetection.js:198-200 | from 06:00 on the rule is silent, and the hour > 23 branch never fires |
| FraudDetection.Signals | server/utils/fraudDetection.js:8-20 | at most four signals, in the fixed rule order. Each rule's signal appears iff that rule fired |
| FraudDetection.Process | server/utils/fraudDetection.js:22-51 | alerts are saved for the longest prefix of signals the alert schema accepts, under consecutive ids. The run completes iff every signal is accepted, and then produces one flag per signal, in order |
| FraudDetection.ProcessFlags | server/utils/fraudDetection.js:22-51 | the loop pushes one flag per leading accepted signal, in order, each with that signal's type, severity and message and the run's time |
| FraudDetection.ProcessAlert | server/utils/fraudDetection.js:23-43 | the j-th saved alert is the j-th signal's alert, marked as mailed iff the user wants fraud mail and that send succeeded |
| FraudDetection.MailedIsAlertFor | server/utils/fraudDetection.js:23-39 | an accepted signal's alert saves as pending. After the mail step it has emailSent and emailSentAt set exactly when the mail went out |
| FraudDetection.SaveEntry | server/utils/fraudDetection.js:53-55 | saving the flagged entry succeeds iff it is on file and schema-valid, and rewrites only that entry |
| FraudDetection.RunPipeline | server/utils/fraudDetection.js:6-62 | users are untouched and the number of entries is unchanged. The run returns either all signals or [], and the saved alerts are kept even when the run fails |
| FraudDetection.InMemoryFlags | server/utils/fraudDetection.js:45-50 | the in-memory entry keeps its fields and old flags and gains exactly the flags of the leading accepted signals, even when the run then fails |
| FraudDetection.PipelineStoresInMemory | server/utils/fraudDetection.js:53-61 | with unique ids, the stored entry equals the in-memory one iff the run returned its signals or pushed no flag |
| FraudDetection.InMemoryFlagsOutliveSwallowedRun | server/utils/fraudDetection.js:45-61 | when the first signal is accepted and a later one refused, nothing is returned or stored, yet the in-memory entry has gained between 1 and i flags |
| FraudDetection.AcceptedFlagsStamped | server/utils/fraudDetection.js:45-50 | every pushed flag has an alert-enum type and the run's time |
| FraudDetection.CheckFraudRules | server/utils/fraudDetection.js:6-62 | the pipeline applied to the four rules' signals returns either those signals or [] |
| FraudDetection.QuietPipeline | server/utils/fraudDetection.js:53-57 | with no signal nothing is saved and [] is returned |
| FraudDetection.PipelineRecordsEverySignal | server/utils/fraudDetection.js:22-57 | when every signal is accepted and the entry is on file and valid, all signals are returned and the entry gains exactly one flag per signal, in order |
| FraudDetection.PipelineAlertsPerSignal | server/utils/fraudDetection.js:22-43 | the stored alerts are the old ones followed by one alert per accepted leading signal, each with its own mail outcome |
| FraudDetection.FlaggedEntryValid | server/models/Transaction.js:93-107 | flags from rule signals keep an entry schema-valid |
| FraudDetection.PipelineSwallowsRefusedAlert | server/utils/fraudDetection.js:58-61 | a signal outside the alert enum makes the run return [] and leave every entry unflagged. Only the alerts before it are kept |
| FraudDetection.FrequencyOrNightAlertIsLost | server/utils/fraudDetection.js:183-184 | whenever the frequency or unusual-time rule fires, the run returns [] and no entry changes |
| FraudDetection.RefusedSignalReported | server/utils/fraudDetection.js:16-20 | a frequency or night-time signal stops the alert loop before the end of the batch |
| FraudDetection.CollectStopsOnRefused | server/utils/fraudDetection.js:10-20 | whatever the first two rules answered, a frequency or night-time answer leaves the loop a signal it cannot save |
| FraudDetection.StopsAtRefused | server/utils/fraudDetection.js:22-32 | a signal outside the alert enum stops the loop at or before it |
| FraudDetection.StaysStopped | server/utils/fraudDetection.js:22-32 | once the loop has stopped, signals appended later change nothing |
| FraudDetection.AmountSignalAccepted | server/utils/fraudDetection.js:10-14 | a high-amount or category-limit signal heads the batch and is saved |
| FraudDetection.CollectStartsAccepted | server/utils/fraudDetection.js:10-14 | when either of the first two rules answered, the batch starts with a signal the alert schema accepts |
| FraudDetection.PipelineKeepsIdsValid | server/utils/fraudDetection.js:22-55 | the run keeps entry and alert ids fresh and unique |
| FraudDetection.RiskScore | server/utils/fraudDetection.js:228-256 | the score is the sum of 30/20/10 per high/medium/low signal, plus 15 for an amount over 1000, plus 5 for a missing or blank merchant, capped at 100. It lies in [0, 100] |
| FraudDetection.WeightsBounds | server/utils/fraudDetection.js:233-245 | the signal weights lie between 10 and 30 per signal |
| FraudDetection.CalculateRiskScore | server/utils/fraudDetection.js:228-256 | the score is the risk score of exactly the signals the pipeline returned, hence in [0,100], and the store is the one the pipeline leaves |
| FraudDetection.SwallowedPipelineScoresLow | server/utils/fraudDetection.js:228-256 | when a frequency or night signal empties the pipeline's result, the score is at most 20 |
| FraudDetection.RiskScoreLowerBound | server/utils/fraudDetection.js:233-255 | the score is at least 10 per returned signal, up to 100 |
| FraudDetection.QuietRunScoresEverySignal | server/utils/fraudDetection.js:228-256 | with no frequency or night-time signal and the entry on file and valid, every signal is returned and the score is at least 10 per signal |
| FraudDetection.CollectAcceptedWhenQuiet | server/utils/fraudDetection.js:10-20 | without frequency or night-time answers the batch has at most two signals, all accepted by the alert schema |
| FraudDetection.SeverityCountsPartition | server/utils/fraudDetection.js:264-268 | the high, medium and low counts add up to the alert count |
| FraudDetection.StatusCountsBound | server/utils/fraudDetection.js:269-270 | the confirmed and dismissed counts add up to at most the alert count |
| FraudDetection.GenerateFraudReport | server/utils/fraudDetection.js:258-296 | totalAlerts is the number of the caller's alerts created inside the inclusive window, with one row each. Every row is the row of such an alert, and confirmed plus dismissed never exceeds the total |
| FraudDetection.FlaggedSumSkipsMissing | server/utils/fraudDetection.js:278-280 | the flagged total counts only alerts whose transaction still exists |
| FraudDetection.ReportIsConsistent | server/utils/fraudDetection.js:258-296 | in the report the severity counts add up to totalAlerts, and the byType counts have distinct keys and add up to totalAlerts. There is one row per alert, and totalFlaggedAmount sums the existing transactions' amounts |
| FraudRoutes.AlertsMatching | server/routes/fraud.js:24-26 | exactly the stored alerts matching the owner, status and severity filters, each as often as it is stored, newest first |
| FraudRoutes.ListAlerts | server/routes/fraud.js:9-46 | the page is the skip/limit window of the sorted matches: only matching alerts, newest first, none more often than it matches. total is their full count, and a negative skip is a server error |
| FraudRoutes.ListAlertsFirstPageIsAll | server/routes/fraud.js:9-46 | a first page longer than the match count is every match, newest first |
| FraudRoutes.ListAlertsHoldsEveryMatch | server/routes/fraud.js:9-46 | every matching alert appears on a first page longer than the match count |
| FraudRoutes.StatusFiltersPartition | server/routes/fraud.js:17-31 | the four status-filtered counts of a user add up to the unfiltered count |
| FraudRoutes.GetAlert | server/routes/fraud.js:48-66 | found iff an alert with that id belongs to the caller, otherwise 404 |
| FraudRoutes.ReviewTarget | server/routes/fraud.js:72-74 | only reviewed, dismissed and confirmed are accepted targets. pending never is |
| FraudRoutes.PushFlag | server/routes/fraud.js:93-102 | $push appends one flag to the referenced entry and to no other. A missing entry changes nothing |
| FraudRoutes.Review | server/routes/fraud.js:68-113 | an invalid status gives 400 and an alert the caller does not own gives 404. It succeeds iff both checks pass and the alert saves. On success the alert has the requested status, which is never pending, the caller as reviewer, the current time and the given notes trimmed |
| FraudRoutes.ReviewChangesOnlyReviewFields | server/routes/fraud.js:85-90 | only status, notes, reviewedBy and reviewedAt change, and only on that alert. The notes are stored trimmed |
| FraudRoutes.AfterReview | server/models/FraudAlert.js:44-53 | the review sets the status, reviewer and time, keeps notes present iff given and stores them trimmed, and leaves every other field as it was |
| FraudRoutes.ReviewFlagsOnlyOnConfirm | server/routes/fraud.js:92-103 | confirmed appends exactly one flag, with the alert's type and severity and "Confirmed by user review", to the alert's entry. Other outcomes leave the entries untouched |
| FraudRoutes.ReviewOverwritesDecision | server/routes/fraud.js:76-90 | a confirmed alert can be dismissed afterwards |
| FraudRoutes.ReviewNeverReopens | server/routes/fraud.js:72-74 | asking for pending is always a 400 |
| FraudRoutes.AlertSummaryOf | server/routes/fraud.js:127-130 | the recent list holds min(5, n) of the caller's n alerts, newest first. Any of the caller's alerts left out means the list is full and that alert is no newer than the fifth. No alert is listed more often than it is stored |
| Sorting.Newest | server/routes/fraud.js:129-130 | min(n, length) elements taken from the input without repeating any, sorted descending, and nothing left out is newer than the last kept |
| FraudRoutes.SummaryCountsAddUp | server/routes/fraud.js:117-150 | each of the three groupings has distinct keys and counts adding up to the caller's alert count. A status's count is the number of the caller's alerts in it |
| Paging.Ceil | server/routes/fraud.js:39 | Math.ceil: the least integer not below the quotient |
| Paging.PageCountBounds | server/routes/fraud.js:39 | pages·limit covers total, and one page fewer does not. There are zero pages iff there are no items |
| Paging.Window | server/routes/fraud.js:25-29 | skip then limit: the items from position skip on, at most limit of them, none repeated |
| Paging.WindowAll | server/routes/fraud.js:27-29 | a first window longer than the sequence is the whole sequence |
| Paging.WindowSorted | server/routes/fraud.js:26-29 | a window of a descending sequence is descending |
| Paging.Paginate | server/routes/transactions.js:67-69 | page and limit default to 1 and the route's limit when absent or 0. It reports total and ceil(total/limit) pages, and a negative skip is a server error |
| Paging.PaginateWellFormed | server/routes/wallet.js:214-216 | a positive page and limit always succeed and return at most limit items |
| Paging.DefaultFirstPage | server/routes/wallet.js:214-216 | without a query the reply is the first page of the default size |
| Wallet.GetBalance | server/routes/wallet.js:12-38 | the stored balance, or 404 "User not found" |
| Wallet.Credit | server/routes/wallet.js:82-86 | $inc changes one balance by the amount and the total by the same amount |
| Wallet.AddFunds | server/routes/wallet.js:40-122 | a missing or non-positive amount is refused with the first message, and an amount over 10000 with the second. Other failures are 500 |
| Wallet.AddFundsEffect | server/routes/wallet.js:82-111 | the balance rises by the amount and no other account changes. One income entry is appended, with category other and payment method wallet. The reply reports the new balance |
| Wallet.DepositThenBalance | server/routes/wallet.js:12-111 | a deposit then a balance query returns the old balance plus the deposit |
| Wallet.Transfer | server/routes/wallet.js:124-210 | succeeds iff the recipient is another user on file and the sender can cover the amount. The errors are self-transfer 400, unknown recipient 404 and insufficient balance 400 |
| Wallet.TransferConservesMoney | server/routes/wallet.js:148-158 | the total of all balances is unchanged |
| Wallet.TransferKeepsIdsValid | server/routes/wallet.js:188-189 | the two new entries take two fresh ids, and ids stay unique |
| Wallet.TransferKeepsBalancesNonNegative | server/routes/wallet.js:139-152 | in sequential execution no balance goes below zero |
| Wallet.TransferMovesAmount | server/routes/wallet.js:148-202 | the sender loses the amount, the recipient gains it and nobody else changes. The reply reports the sender's new balance |
| Wallet.TransferRecordsBothSides | server/routes/wallet.js:143-189 | exactly two entries are appended, transfer_out for the sender and transfer_in for the recipient. They share the amount, category transfer, payment method wallet and the same transfer record |
| Wallet.TransferRoute | server/routes/wallet.js:124 | validation errors give 400 with the list. Otherwise it succeeds iff the transfer is allowed, and echoes the transfer id |
| Wallet.TransferRouteRefusesDust | server/middleware/validation.js:70-72 | an amount below 0.01 is refused before any account is read, naming the amount field |
| Wallet.TransfersOf | server/routes/wallet.js:220-224 | exactly the caller's transfer_in and transfer_out entries, newest first |
| Wallet.History | server/routes/wallet.js:212-250 | the page holds only the caller's transfers, newest first, and total is their count |
| Wallet.HistoryHoldsEveryTransfer | server/routes/wallet.js:212-243 | a page large enough holds every transfer |
| Wallet.AddContact | server/routes/wallet.js:270-290 | the counterpart of a transfer is added once, by email, the first time it is seen |
| Wallet.CollectContacts | server/routes/wallet.js:268-290 | the fold keeps the contacts already collected, in place, and adds at most one per scanned transfer |
| Wallet.CollectDistinct | server/routes/wallet.js:268-290 | the contact map never holds an email twice |
| Wallet.CollectCovers | server/routes/wallet.js:270-290 | every counterpart of a scanned transfer is in the map |
| Wallet.CollectFirstSeen | server/routes/wallet.js:273-287 | each contact is built from the first transfer that named it |
| Wallet.CollectSorted | server/routes/wallet.js:264-293 | scanning newest first yields contacts ordered by last transfer, descending |
| Wallet.Contacts | server/routes/wallet.js:252-303 | at most 10 contacts with distinct emails, ordered by last transfer, descending. They are the first 10 of the collected list |
| Wallet.ContactsAreLatest | server/routes/wallet.js:273-287 | no transfer between the caller and a contact is more recent than that contact's lastTransfer |
| Wallet.ContactsCoverCounterparts | server/routes/wallet.js:292-294 | every counterpart is listed, unless ten more recent contacts fill the list |
| TransactionRoutes.ChooseCategory | server/routes/transactions.js:15-30 | the AI hint is consulted only for category other and applied iff it passes the 0.6 gate and its confidence is > 0.7. Otherwise the category stands, with aiCategorized false and confidence 0 |
| TransactionRoutes.ConfidenceBetweenGates | server/routes/transactions.js:22 | a suggestion with confidence in [0.6, 0.7] passes the categorizer but is not applied |
| TransactionRoutes.Recheck | server/routes/transactions.js:51-58 | the reply is the entry with only its flags changed. The stored copy is the entry untouched or exactly the reply, and it is untouched or flagged once per signal. No other entry changes and earlier alerts are kept |
| TransactionRoutes.RecheckFlags | server/utils/fraudDetection.js:45-50 | the reply's flags are the old flags followed by one flag per leading accepted signal |
| TransactionRoutes.RecheckStampsFlags | server/utils/fraudDetection.js:45-50 | every flag added to the reply has an alert-enum type and the check's time |
| TransactionRoutes.RecheckStoresReply | server/routes/transactions.js:51-58 | with unique ids the ledger holds the reply iff the run returned its signals or saved no alert |
| TransactionRoutes.RecheckReplyOutrunsLedger | server/routes/transactions.js:51-58 | an amount or category-limit signal together with a frequency or night-time one leaves the ledger entry untouched, while the reply has gained a flag |
| TransactionRoutes.Create | server/routes/transactions.js:11-63 | validation errors give 400. Otherwise it succeeds iff the entry can be saved, and appends exactly one entry. The stored copy is the reply or the reply without its flags |
| TransactionRoutes.CreateRecordsEntry | server/routes/transactions.js:32-47 | the new entry takes the fresh id and the caller. It has the validated type and amount, the trimmed description, and the chosen category with its AI mark and confidence. Its date is the given date or now, and it has no transfer link and is not reviewed |
| TransactionRoutes.CreateKeepsEarlierEntries | server/routes/transactions.js:49-51 | earlier entries are untouched |
| TransactionRoutes.CreateKeepsIdsValid | server/routes/transactions.js:49-51 | ids stay fresh and unique, and earlier alerts are kept |
| TransactionRoutes.Matching | server/routes/transactions.js:71-106 | exactly the caller's entries passing the type, category, date-range and amount filters, newest first |
| TransactionRoutes.List | server/routes/transactions.js:65-123 | the page holds only matching entries, newest first, and total is the match count |
| TransactionRoutes.ListHoldsEveryMatch | server/routes/transactions.js:102-108 | a page large enough holds every match |
| TransactionRoutes.OneSidedRangeIgnored | server/routes/transactions.js:81-86 | a start date without an end date, or the reverse, filters nothing |
| TransactionRoutes.GetTransaction | server/routes/transactions.js:125-141 | found iff an entry with that id belongs to the caller, otherwise 404 |
| TransactionRoutes.Revise | server/routes/transactions.js:156-168 | the update overwrites the listed fields and keeps the old date when none is given. Flags, review state, AI mark and transfer link are untouched. A valid entry with an accepted body always saves, and a saved result passes the schema |
| TransactionRoutes.Update | server/routes/transactions.js:143-180 | validation errors give 400 and an entry the caller does not own gives 404. Otherwise the entry keeps its id and owner |
| TransactionRoutes.UpdateStoresReply | server/routes/transactions.js:143-173 | the reply is the in-memory document, except that an absent payment method shows as `other` (see "## Left out"); the stored copy differs from it at most in the flags, and is either the reply or the revised entry with the flags it had before |
| TransactionRoutes.UpdateKeepsUntouchedFields | server/routes/transactions.js:156-166 | the old date is kept when none is given, and category and amount come from the body. The AI mark, confidence, review state and transfer link survive |
| TransactionRoutes.UpdateTouchesOnlyTarget | server/routes/transactions.js:147-170 | no other entry changes |
| TransactionRoutes.Delete | server/routes/transactions.js:182-198 | succeeds iff an entry with that id belongs to the caller, otherwise 404. Exactly one entry goes |
| TransactionRoutes.DeleteRemovesExactly | server/routes/transactions.js:184-187 | the remaining entries are exactly those with other ids, in order |
| TransactionRoutes.DeleteKeepsIdsValid | server/routes/transactions.js:184-187 | ids stay unique |
| Grouping.ReorderedGroups | server/routes/transactions.js:221-227 | whatever order `$group` emits its rows in, there is one row per key, every element's key has a row, and each row holds its key's sum and count |
| TransactionRoutes.CategorySpending | server/routes/transactions.js:200-238 | one group per category of the caller's expenses in the range, no category twice. Each holds its category's total and count, and the groups are ordered by total, descending |
| AiService.Categorize | server/utils/aiService.js:8-69 | a suggestion is passed on iff the model answered with a category and a confidence ≥ 0.6. Otherwise the result is null, including when the model is unconfigured or fails |
| AiService.Round | server/utils/aiService.js:197 | Math.round is within one half of its argument |
| AiService.CategoryTip | server/utils/aiService.js:193-213 | a tip exists iff the category is food, transport or entertainment. Its savings are round(0.3, 0.25 or 0.4 × amount) |
| AiService.DefaultSavingsTips | server/utils/aiService.js:188-228 | 2 or 3 tips, ending with Track Small Purchases (50) and Review Subscriptions (75) |
| AiService.DefaultTipFollowsTopCategory | server/utils/aiService.js:191-213 | with a unique top-spending category, the list has 3 tips iff that category has one, and then leads with it |
| AiService.SavingsTips | server/utils/aiService.js:72-126 | the model's tips when it answered with them, the fallback otherwise |
| AiService.LargestExpense | server/utils/aiService.js:243-245 | none iff there is no expense, otherwise an expense no other expense exceeds |
| AiService.DefaultBudgetInsights | server/utils/aiService.js:231-257 | at most two insights |
| AiService.BudgetWarningCase | server/utils/aiService.js:233-241 | Budget Exceeded appears iff the limit is non-zero and expenses exceed it. It comes first and reports the overage |
| AiService.LargestExpenseCase | server/utils/aiService.js:243-254 | Largest Expense appears iff there is an expense. It comes last and reports a maximal expense's amount and category |
| AiService.BudgetInsights | server/utils/aiService.js:128-186 | the model's insights when it answered with them. Otherwise the fallback, whose warning appears iff the budget is exceeded |
| Analytics.WindowsTile | server/routes/analytics.js:12-30 | the corrected last-month window and the current month together cover everything since the start of last month |
| Analytics.DirectionsPartition | server/routes/analytics.js:72-78 | income (income, transfer_in) plus outgoing (expense, transfer_out) is the total of all amounts |
| Analytics.Change | server/routes/analytics.js:88-89 | 0 when last month's value is 0. Otherwise prev + prev·change/100 = cur, and for a positive prev the change is positive iff cur > prev and negative iff cur < prev |
| Analytics.SummaryOf | server/routes/analytics.js:72-101 | income and expenses are the two directional totals, balance = income − expenses, and the changes are measured against last month's totals |
| Analytics.DashboardFrom | server/routes/analytics.js:34-50 | the category spending groups are ordered by total, descending, no category appears twice, and each holds its category's total and a positive count |
| Analytics.DashboardWith | server/routes/analytics.js:9-110 | a missing user is a 500 with "Server error fetching dashboard data". Otherwise the dashboard is built from the three filtered queries |
| Analytics.DashboardAsWritten | server/routes/analytics.js:13-30 | the dashboard with last month ending at midnight at the start of its last day (Findings) |
| Analytics.DashboardView | server/routes/analytics.js:9-110 | the dashboard over the corrected window: income and expenses are the current month's directional totals, adding up to its full total. The changes are measured against the whole of last month |
| Analytics.LastDayDropped | server/routes/analytics.js:14 | an income at noon on the last day of last month is missing from the as-written change and present in the corrected one |
| Analytics.DashboardIgnoresOthers | server/routes/analytics.js:23-39 | another user's entry never changes the dashboard |
| Analytics.DashboardCountsNewIncome | server/routes/analytics.js:72-78 | a new income this month raises income by its amount and leaves expenses alone |
| Analytics.RowFor | server/routes/analytics.js:198-210 | limit is categoryLimits[cat] or 0, and remaining = max(0, limit − spent). For a positive limit, percentage·limit = spent·100, otherwise the percentage is 0 |
| Analytics.StatusClassification | server/routes/analytics.js:208 | over iff a positive limit is exceeded, warning iff spent is in (0.8·limit, limit], good otherwise |
| Analytics.Rows | server/routes/analytics.js:198 | one row per spending group, in order |
| Analytics.OverallFor | server/routes/analytics.js:213-218 | remaining = max(0, monthlyLimit − totalSpent). The percentage follows the ratio for a positive limit and is 0 otherwise |
| Analytics.SavingsGoalsFor | server/routes/analytics.js:280-288 | actualSavings + spending = income, and the rate is (income − spending)/income·100 for a positive income, otherwise 0. The recommended rate is 20 and potentialSavings is 0.2·income |
| Analytics.RecommendedRateMeansPotential | server/routes/analytics.js:281-287 | with a positive income, the current rate reaches the recommended 20 iff actualSavings reaches potentialSavings |
| Analytics.AlertFor | server/routes/analytics.js:301-307 | an alert iff some row is over. It lists exactly the over rows' categories |
| Analytics.TipFor | server/routes/analytics.js:309-318 | a tip iff some row's percentage is in (80, 100]. It names such a row with the highest percentage |
| Analytics.Assemble | server/routes/analytics.js:291-321 | warning, alert and tip appear in that order. The warning appears iff asked for, and the alert and tip iff present |
| Analytics.Recommendations | server/routes/analytics.js:291-321 | the warning iff the overall percentage is > 90, then the over-budget alert, then the watch-spending tip |
| Analytics.BudgetRows | server/routes/analytics.js:179-211 | one row per category spent on this month, no category twice, carrying that category's total and count, and every month expense is covered |
| Analytics.TotalSpent | server/routes/analytics.js:196 | the sum of the groups' spent is the sum of the month's expenses |
| Analytics.BudgetFor | server/routes/analytics.js:196-226 | rows, overall status, savings goals and recommendations are computed from the same month's expenses and income |
| Analytics.BudgetAnalysisRoute | server/routes/analytics.js:170-232 | a missing user is a 500. totalSpent is the month's expense total, the rows cover every month expense with no category twice, and savings use the month's income |
| Analytics.UnusualAgrees | server/routes/analytics.js:385-395 | the grouped average test agrees with the direct one: the category has prior expenses and the amount exceeds twice their mean |
| Analytics.UnusualTransactions | server/routes/analytics.js:368-397 | exactly the caller's current-month expenses whose category has prior expenses and whose amount exceeds twice the prior average |
| Analytics.RowCommas | server/routes/analytics.js:468 | a row has 6 separating commas plus those inside the date, amount and category fields |
| Analytics.QuotedCommaFree | server/routes/analytics.js:464-466 | a quoted field holds no comma |
| Analytics.CsvRowAsWritten | server/routes/analytics.js:459-468 | as written, a row has 6 commas plus one for every comma in the category (Findings) |
| Analytics.CommaInCategory | server/routes/analytics.js:463-468 | the category "food,drinks" gives a row 7 commas |
| Analytics.CsvRow | server/routes/analytics.js:459-468 | with the category escaped, every row has exactly 6 commas (Findings) |
| Analytics.CsvRows | server/routes/analytics.js:459-469 | one row per exported entry, in order, each built as written |
| Analytics.CsvText | server/routes/analytics.js:458-471 | the file as written starts with the fixed header |
| Analytics.CsvCommaCount | server/routes/analytics.js:458-471 | the file as written has the header's commas, 6 per entry, and one more per comma inside a category |
| Analytics.RowsCommas | server/routes/analytics.js:459-469 | the rows as written hold 6 commas each plus the categories' own |
| Analytics.CategoryCommasZero | server/routes/analytics.js:463 | the categories hold no comma in total iff none holds one |
| Analytics.CsvColumnsIffPlainCategories | server/routes/analytics.js:458-471 | the file as written has exactly 6 commas per entry iff no exported category holds a comma |
| Analytics.CsvRowsEscaped | server/routes/analytics.js:459-469 | one escaped row per exported entry, in order (Findings) |
| Analytics.CsvTextEscaped | server/routes/analytics.js:458-471 | the escaped file starts with the fixed header (Findings) |
| Analytics.CsvEscapedCommaCount | server/routes/analytics.js:458-471 | the escaped file has the header's commas plus exactly 6 per entry (Findings) |
| Analytics.EscapingKeepsPlainFiles | server/routes/analytics.js:463-468 | when no category holds a comma, the escaped file is the file as written |
| Analytics.ParseTimeRange | server/routes/analytics.js:432-448 | week, quarter and year select their ranges, and anything else selects the month |
| Analytics.ExportEntries | server/routes/analytics.js:451-454 | exactly the caller's entries dated from the range start, newest first |
| Analytics.ExportRoute | server/routes/analytics.js:422-497 | format csv, the default, gives the CSV of the exported entries. Any other format gives JSON echoing the time range, with transactionCount equal to the number of entries |

## Left out

- MongoDB plumbing: `populate`, projections, indexes, sessions and `withTransaction` are not modelled. Each session block is one atomic update of the store.
- Concurrency: the balance check in `server/routes/wallet.js:139` runs outside the session opened at line 147, so two concurrent transfers can both pass it. The properties hold for sequential execution only.
- The clock, `uuidv4`, the local time zone and e-mail delivery are parameters. These are `now`, the calendar boundaries, the transfer id, the `Instant` hour fields and one delivery outcome per mail. The mail text of `server/utils/email.js` is not part of this model.
- The language model is an oracle (`AiOutcome`). The prompts, the JSON parsing of its answer, the tip descriptions and the insight messages are not modelled. Only titles, figures and categories are kept.
- Floating-point arithmetic: money is an exact `real`, so the rounding of JavaScript's binary doubles is absent. `Math.round` is modelled where a tip's savings depend on it, but the rounded percentage inside the tip message of `generateBudgetRecommendations` is not.
- Text formatting: `toFixed(2)`, `toISOString()` and the template messages are not modelled. The CSV date and amount columns are given as a parameter (`Analytics.Formatted`), and the properties hold for any comma-free formatting.
- `normalizeEmail()` is not modelled. `isEmail()` is approximated by a structural check (one `@` with a non-empty local part, a dotted domain, no spaces), and `isISO8601()` by whether the date string parsed.
- String-to-number coercion: add-funds and transfer amounts are numbers already parsed (`parseFloat` of a non-numeric string is the absent amount), and `parseInt` of the page query is an optional integer. Invalid-date query text is not modelled.
- The `search` filter of `GET /api/transactions` (`server/routes/transactions.js:94-100`, regular expressions over description, merchant and tags) is left out, because regular-expression matching is outside this model.
- `/api/analytics/dashboard`: `monthlyTrends` and `recentTransactions` are left out. `monthlyTrends` is a `$group` of the last six months' entries by year, month and type, summing amounts, then a sort; it has no decision logic. `recentTransactions` is a sort and a limit.
- `/api/analytics/spending-trends` (`server/routes/analytics.js:112-168`) is left out, because it is a date-bucketed `$group` with no decision logic.
- In `/api/analytics/insights`, `getMonthlyComparison`, `getTopExpenses`, `getSpendingPatterns` and `generateInsights` are left out. They are grouping queries and message texts. `getMonthlyComparison` shares the last-month window of the dashboard finding.
- `/api/fraud/admin/statistics` and its top-users `$lookup` are left out, because they are reporting queries. The admin alert list is `FraudRoutes.ListAlerts` with no owner.
- `$group` output order is unspecified in MongoDB; the model lists groups in order of first appearance. Lemma `Grouping.ReorderedGroups` shows that totals and counts do not depend on it.
- Analytics.ExportRoute: the JSON export returns whole entries rather than the seven projected fields, and `exportDate` and the download file name are not modelled.
- Analytics.CsvCommaCount: the header's own comma count is stated through `CountChar(CsvHeader, ',')` rather than as the literal 6.
- Analytics.ExportRoute: the CSV it returns is the file as written, with the category unescaped. The escaped file of the Findings is a separate function (`Analytics.CsvTextEscaped`) and no route returns it.
- AiService.CategoryTip: the source looks the category up in a plain object literal, so a category named after an inherited member such as `constructor` or `toString` finds a function there and pushes it as a tip. The model gives no tip for those names. `generateSavingsTips` has no caller among the modelled routes.
- TransactionRoutes.Revise: when the update body has no `paymentMethod`, the model's entry carries the schema default `other`. The source assigns `undefined` to an existing document and Mongoose does not reapply the default there, so its reply omits the field. The stored value reads back as `other` on a later fetch, which is what the model keeps. The same applies to the reply of `TransactionRoutes.UpdateStoresReply` and `TransactionRoutes.Update`.
- TransactionRoutes.Update: the contract does not restate how the stored copy relates to the reply. That relation is stated by the lemma `TransactionRoutes.UpdateStoresReply` and, for both routes, by `TransactionRoutes.Recheck`.
- `server/routes/users.js`, `server/index.js`, the authentication middleware and every client file are not part of this model. The caller's account is an input (`me`).

## Findings

| source | as written | input that shows it | evidently intended | confidence | as-written member | corrected member |
|---|---|---|---|---|---|---|
| server/routes/analytics.js:14 | `endOfLastMonth = new Date(y, m, 0)` is midnight at the start of last month's last day, and the query uses `$lte`, so that day's entries after 00:00 are missing from lastMonthIncome, lastMonthExpenses and both changes | an income of 100 at noon on the last day of a 30-day month, and nothing else: the as-written incomeChange is 0 instead of -100 | last month is every instant from its first day up to, but excluding, the start of this month | not executed | Analytics.DashboardAsWritten, Analytics.LastDayDropped | Analytics.DashboardView, Analytics.WindowsTile |
| server/routes/analytics.js:463-468 | the category column is written unquoted and unescaped, while description and merchant have commas replaced | an expense in category "food,drinks": its row has 7 commas, and every later column shifts right by one | the category escaped like the other free-text columns, so every row has 6 separators | not executed | Analytics.CsvRowAsWritten, Analytics.CommaInCategory, Analytics.CsvCommaCount, Analytics.ExportRoute | Analytics.CsvRow, Analytics.CsvTextEscaped, Analytics.CsvEscapedCommaCount |

=== FILE: ai_service.dfy ===
/** `server/utils/aiService.js`: the gate on an AI category suggestion and the
    rule-based fallbacks used when the language model is not configured or
    fails. The model call itself is an oracle: its outcome is a parameter. */
module AiService {
  import opened Wrappers
  import opened Seqs
  import opened Sorting
  import opened TransactionModel
  import opened FraudRules

  /** What a call to the language model produced: no API key, a thrown error
      (network, bad JSON), or a parsed answer. */
  datatype AiOutcome<T> = Unconfigured | Failed | Answered(value: T)

  // ------------------------------------------------------------ categorization

  /** The parsed JSON of a categorization answer; absent keys are `None`. */
  datatype Suggestion = Suggestion(category: Option<string>, confidence: Option<real>)

  /** The least confidence `categorizeTransactionAI` passes on. */
  const MinConfidence: real := 0.6

  /** `categorizeTransactionAI`: the answer is passed on unchanged when it names
      a (non-empty) category with confidence at least 0.6, and `null` otherwise,
      including when the model is not configured or the call fails. */
  function Categorize(o: AiOutcome<Suggestion>): (r: Option<Suggestion>)
    ensures r.Some? <==> (o.Answered? && o.value.category.Some? && o.value.category.value != ""
                          && o.value.confidence.Some? && o.value.confidence.value >= MinConfidence)
    ensures r.Some? ==> r.value == o.value
    ensures o.Unconfigured? || o.Failed? ==> r.None?
  {
    match o
    case Answered(sug) =>
      if sug.category.Some? && |sug.category.value| > 0 && sug.confidence.Some? && sug.confidence.value >= MinConfidence
      then Some(sug) else None
    case _ => None
  }

  // ------------------------------------------------------------- savings tips

  /** One row of the spending breakdown the tips are computed from. */
  datatype CategorySpend = CategorySpend(category: string, amount: real, transactions: nat)

  /** A savings tip; the description text is not modelled. */
  datatype Tip = Tip(title: string, potentialSavings: int)

  function SpendAmount(c: CategorySpend): real { c.amount }

  /** `Math.round`: halves round up. */
  function Round(x: real): (r: int)
    ensures x - 0.5 < r as real <= x + 0.5
  {
    (x + 0.5).Floor
  }

  const TrackSmallPurchases: Tip := Tip("Track Small Purchases", 50)
  const ReviewSubscriptions: Tip := Tip("Review Subscriptions", 75)

  /** The share of a category's spending each category-specific tip promises. */
  function SavingsRate(category: string): Option<real>
  {
    if category == "food" then Some(0.3)
    else if category == "transport" then Some(0.25)
    else if category == "entertainment" then Some(0.4)
    else None
  }

  /** The tip for the top spending category, when it is one of the three the
      fallback knows. */
  function CategoryTip(top: CategorySpend): (r: Option<Tip>)
    ensures r.Some? <==> SavingsRate(top.category).Some?
    ensures r.Some? ==> r.value.potentialSavings == Round(top.amount * SavingsRate(top.category).value)
    ensures r.Some? && top.amount >= 0.0 ==> r.value.potentialSavings >= 0
  {
    if top.category == "food" then Some(Tip("Cook More at Home", Round(top.amount * 0.3)))
    else if top.category == "transport" then Some(Tip("Use Public Transport", Round(top.amount * 0.25)))
    else if top.category == "entertainment" then Some(Tip("Find Free Activities", Round(top.amount * 0.4)))
    else None
  }

  /** `getDefaultSavingsTips`: sorts by amount, descending, and leads with the
      top category's tip if it has one; the two generic tips always follow. */
  function DefaultSavingsTips(spending: seq<CategorySpend>): (r: seq<Tip>)
    ensures 2 <= |r| <= 3
    ensures r[|r| - 2] == TrackSmallPurchases && r[|r| - 1] == ReviewSubscriptions
    ensures |spending| == 0 ==> |r| == 2
  {
    var sorted := SortDesc(spending, SpendAmount);
    var lead := if |sorted| > 0 then CategoryTip(sorted[0]) else None;
    (if lead.Some? then [lead.value] else []) + [TrackSmallPurchases, ReviewSubscriptions]
  }

  /** When one category outspends every other, the fallback leads with that
      category's tip exactly when it has one. Among tied top categories the
      one listed first wins, because `SortDesc` is stable. */
  lemma DefaultTipFollowsTopCategory(spending: seq<CategorySpend>, i: nat)
    requires i < |spending|
    requires forall j :: 0 <= j < |spending| && j != i ==> spending[j].amount < spending[i].amount
    ensures var r := DefaultSavingsTips(spending);
      && (|r| == 3 <==> SavingsRate(spending[i].category).Some?)
      && (|r| == 3 ==> r[0] == CategoryTip(spending[i]).value)
  {
    var sorted := SortDesc(spending, SpendAmount);
    assert spending[i] in multiset(sorted);
    var k :| 0 <= k < |sorted| && sorted[k] == spending[i];
    HeadIsMax(sorted, SpendAmount);
    assert sorted[0] in multiset(spending);
    var j :| 0 <= j < |spending| && spending[j] == sorted[0];
    assert sorted[0] == spending[i];
  }

  /** `generateSavingsTips`: the model's `tips` whenever it answered with a
      `tips` key (even an empty list), the fallback otherwise. */
  function SavingsTips(o: AiOutcome<Option<seq<Tip>>>, spending: seq<CategorySpend>): (r: seq<Tip>)
    ensures o.Answered? && o.value.Some? ==> r == o.value.value
    ensures !(o.Answered? && o.value.Some?) ==> 2 <= |r| <= 3 && r[|r| - 1] == ReviewSubscriptions
  {
    if o.Answered? && o.value.Some? then o.value.value else DefaultSavingsTips(spending)
  }

  // ---------------------------------------------------------- budget insights

  datatype InsightKind = WarningInsight | TipInsight | Achievement

  /** A budget insight: the message text is not modelled, only the figure it
      reports (the overage, or the largest expense's amount). */
  datatype Insight = Insight(kind: InsightKind, title: string, figure: real, category: Option<string>)

  function IsExpenseEntry(e: Entry): bool { e.kind == Expense }

  /** Total of the expense entries among `ts`. */
  function ExpenseTotal(ts: seq<Entry>): real
  {
    Sum(Filter(ts, IsExpenseEntry), Amount)
  }

  /** `budget.monthlyLimit && total > limit`: a zero limit means no budget. */
  predicate OverBudget(ts: seq<Entry>, monthlyLimit: real)
  {
    monthlyLimit != 0.0 && ExpenseTotal(ts) > monthlyLimit
  }

  /** The largest expense, first among equals; `None` without expenses. */
  function LargestExpense(ts: seq<Entry>): (r: Option<Entry>)
    ensures r.None? <==> forall i :: 0 <= i < |ts| ==> ts[i].kind != Expense
    ensures r.Some? ==> r.value in ts && r.value.kind == Expense
    ensures r.Some? ==> forall i :: 0 <= i < |ts| && ts[i].kind == Expense ==> ts[i].amount <= r.value.amount
  {
    var sorted := SortDesc(Filter(ts, IsExpenseEntry), Amount);
    if |sorted| == 0 then
      CountZero(ts, IsExpenseEntry);
      None
    else
      HeadIsMax(sorted, Amount);
      assert sorted[0] in multiset(Filter(ts, IsExpenseEntry));
      assert forall i :: 0 <= i < |ts| && ts[i].kind == Expense ==> ts[i] in multiset(sorted);
      Some(sorted[0])
  }

  /** `getDefaultBudgetInsights`: a `Budget Exceeded` warning, then a `Largest
      Expense` tip, each when it applies. */
  function DefaultBudgetInsights(ts: seq<Entry>, monthlyLimit: real): (r: seq<Insight>)
    ensures |r| <= 2
  {
    var warn := if OverBudget(ts, monthlyLimit)
      then [Insight(WarningInsight, "Budget Exceeded", ExpenseTotal(ts) - monthlyLimit, None)] else [];
    var largest := LargestExpense(ts);
    var tip := if largest.Some?
      then [Insight(TipInsight, "Largest Expense", largest.value.amount, Some(largest.value.category))] else [];
    warn + tip
  }

  predicate HasInsight(r: seq<Insight>, title: string)
  {
    exists i :: 0 <= i < |r| && r[i].title == title
  }

  /** The warning appears exactly when a non-zero limit is exceeded, and then
      first, reporting a positive overage. */
  lemma BudgetWarningCase(ts: seq<Entry>, monthlyLimit: real)
    ensures var r := DefaultBudgetInsights(ts, monthlyLimit);
      && (HasInsight(r, "Budget Exceeded") <==> monthlyLimit != 0.0 && ExpenseTotal(ts) > monthlyLimit)
      && (HasInsight(r, "Budget Exceeded") ==> r[0].figure == ExpenseTotal(ts) - monthlyLimit && r[0].figure > 0.0)
  {
    var r := DefaultBudgetInsights(ts, monthlyLimit);
    assert "Largest Expense"[0] != "Budget Exceeded"[0];
    if OverBudget(ts, monthlyLimit) {
      assert r[0].title == "Budget Exceeded";
    } else {
      assert forall i :: 0 <= i < |r| ==> r[i].title == "Largest Expense";
    }
  }

  /** The tip appears exactly when there is an expense, last, and reports the
      amount and category of an expense no other expense exceeds. */
  lemma LargestExpenseCase(ts: seq<Entry>, monthlyLimit: real)
    ensures var r := DefaultBudgetInsights(ts, monthlyLimit);
      && (HasInsight(r, "Largest Expense") <==> exists i :: 0 <= i < |ts| && ts[i].kind == Expense)
      && (HasInsight(r, "Largest Expense") ==>
            var t := r[|r| - 1];
            && t.kind == TipInsight
            && (forall i :: 0 <= i < |ts| && ts[i].kind == Expense ==> ts[i].amount <= t.figure)
            && exists i :: 0 <= i < |ts| && ts[i].kind == Expense && ts[i].amount == t.figure && Some(ts[i].category) == t.category)
  {
    var r := DefaultBudgetInsights(ts, monthlyLimit);
    var largest := LargestExpense(ts);
    if largest.Some? {
      var i :| 0 <= i < |ts| && ts[i] == largest.value;
      assert r[|r| - 1].title == "Largest Expense";
    } else {
      assert "Largest Expense"[0] != "Budget Exceeded"[0];
      assert forall k :: 0 <= k < |r| ==> r[k].title == "Budget Exceeded";
    }
  }

  /** `generateBudgetInsights`: the model's `insights` whenever it answered
      with that key, the fallback otherwise. */
  function BudgetInsights(o: AiOutcome<Option<seq<Insight>>>, ts: seq<Entry>, monthlyLimit: real): (r: seq<Insight>)
    ensures o.Answered? && o.value.Some? ==> r == o.value.value
    ensures !(o.Answered? && o.value.Some?) ==>
      (|r| <= 2 && (HasInsight(r, "Budget Exceeded") <==> OverBudget(ts, monthlyLimit)))
  {
    if o.Answered? && o.value.Some? then o.value.value
    else
      BudgetWarningCase(ts, monthlyLimit);
      DefaultBudgetInsights(ts, monthlyLimit)
  }
}

=== FILE: analytics.dfy ===
/** `server/routes/analytics.js`: the dashboard summary, the budget analysis
    with its savings goals and recommendations, the unusual-transaction filter
    of the insights route, and the export. The routes compute their month
    boundaries from `new Date()`; here those instants are parameters. */
module Analytics {
  import opened Wrappers
  import opened Seqs
  import opened Sorting
  import opened Grouping
  import opened Text
  import opened Http
  import opened TransactionModel
  import opened Store
  import opened FraudRules
  import opened Wallet
  import opened TransactionRoutes

  // ------------------------------------------------------------------ windows

  /** The local-time instants the dashboard derives from `now`: the first
      instant of this month and of last month, and `new Date(y, m, 0)`, which
      is midnight at the START of last month's final day. */
  datatype Calendar = Calendar(startOfMonth: int, startOfLastMonth: int, startOfLastDay: int)

  /** `date: { $gte: startOfMonth }` over the caller's entries. */
  function InCurrentMonth(user: UserId, startOfMonth: int): Entry -> bool
  {
    (e: Entry) => e.user == user && e.date.ms >= startOfMonth
  }

  /** Last month as the route queries it: `$gte: startOfLastMonth, $lte:
      endOfLastMonth`, which stops at the first instant of the final day. */
  function InLastMonthAsWritten(user: UserId, cal: Calendar): Entry -> bool
  {
    (e: Entry) => e.user == user && cal.startOfLastMonth <= e.date.ms <= cal.startOfLastDay
  }

  /** Last month as intended: up to, not including, the start of this month. */
  function InLastMonth(user: UserId, cal: Calendar): Entry -> bool
  {
    (e: Entry) => e.user == user && cal.startOfLastMonth <= e.date.ms < cal.startOfMonth
  }

  /** The caller's entries since the start of last month. */
  function SinceLastMonth(user: UserId, cal: Calendar): Entry -> bool
  {
    (e: Entry) => e.user == user && e.date.ms >= cal.startOfLastMonth
  }

  /** The caller's expenses this month (the `$match` of the category stages). */
  function IsMonthExpense(user: UserId, startOfMonth: int): Entry -> bool
  {
    (e: Entry) => e.user == user && e.kind == Expense && e.date.ms >= startOfMonth
  }

  /** The caller's income and incoming transfers this month. */
  function IsMonthIncome(user: UserId, startOfMonth: int): Entry -> bool
  {
    (e: Entry) => e.user == user && (e.kind == Income || e.kind == TransferIn) && e.date.ms >= startOfMonth
  }

  /** With the corrected window, last month and this month tile the time since
      the start of last month: every amount is counted exactly once. */
  lemma WindowsTile(es: seq<Entry>, user: UserId, cal: Calendar)
    requires cal.startOfLastMonth <= cal.startOfMonth
    ensures Sum(Filter(es, SinceLastMonth(user, cal)), Amount)
         == Sum(Filter(es, InLastMonth(user, cal)), Amount) + Sum(Filter(es, InCurrentMonth(user, cal.startOfMonth)), Amount)
  {
    SumSplit(es, SinceLastMonth(user, cal), InLastMonth(user, cal), InCurrentMonth(user, cal.startOfMonth), Amount);
  }

  // ---------------------------------------------------------------- dashboard

  function IsIncoming(e: Entry): bool { e.kind == Income || e.kind == TransferIn }

  function IsOutgoing(e: Entry): bool { e.kind == Expense || e.kind == TransferOut }

  function Anything(e: Entry): bool { true }

  /** Σ `income` + `transfer_in`. */
  function IncomeTotal(es: seq<Entry>): real { Sum(Filter(es, IsIncoming), Amount) }

  /** Σ `expense` + `transfer_out`. */
  function OutgoingTotal(es: seq<Entry>): real { Sum(Filter(es, IsOutgoing), Amount) }

  /** Every entry is incoming or outgoing and not both, so the two totals add
      up to the sum of all amounts. */
  lemma DirectionsPartition(es: seq<Entry>)
    ensures IncomeTotal(es) + OutgoingTotal(es) == Sum(es, Amount)
  {
    SumSplit(es, Anything, IsIncoming, IsOutgoing, Amount);
    FilterKeepsAll(es, Anything);
  }

  /** `prev ? ((cur - prev) / prev) * 100 : 0`. */
  function Change(cur: real, prev: real): (r: real)
    ensures prev == 0.0 ==> r == 0.0
    ensures prev != 0.0 ==> prev + prev * r / 100.0 == cur
    ensures prev > 0.0 ==> (r > 0.0 <==> cur > prev) && (r < 0.0 <==> cur < prev)
  {
    if prev == 0.0 then 0.0 else (cur - prev) / prev * 100.0
  }

  datatype Summary = Summary(
    currentMonthIncome: real,
    currentMonthExpenses: real,
    balance: real,
    walletBalance: real,
    incomeChange: real,
    expenseChange: real)

  /** The `summary` object from this month's and last month's entries. */
  function SummaryOf(current: seq<Entry>, last: seq<Entry>, walletBalance: real): (r: Summary)
    ensures r.currentMonthIncome == IncomeTotal(current) && r.currentMonthExpenses == OutgoingTotal(current)
    ensures r.currentMonthIncome + r.currentMonthExpenses == Sum(current, Amount)
    ensures r.balance + r.currentMonthExpenses == r.currentMonthIncome
    ensures r.walletBalance == walletBalance
    ensures r.incomeChange == Change(r.currentMonthIncome, IncomeTotal(last))
    ensures r.expenseChange == Change(r.currentMonthExpenses, OutgoingTotal(last))
  {
    DirectionsPartition(current);
    var income := IncomeTotal(current);
    var expenses := OutgoingTotal(current);
    Summary(income, expenses, income - expenses, walletBalance,
            Change(income, IncomeTotal(last)), Change(expenses, OutgoingTotal(last)))
  }

  datatype Dashboard = Dashboard(summary: Summary, categorySpending: seq<Group<string>>)

  /** The dashboard from the three queries' results and the wallet balance:
      the summary, and this month's expense groups with the largest total
      first, one per category, each holding exactly its category's total and
      count. */
  function DashboardFrom(current: seq<Entry>, last: seq<Entry>, monthExpenses: seq<Entry>, walletBalance: real): (r: Dashboard)
    ensures r.summary == SummaryOf(current, last, walletBalance)
    ensures SortedDesc(r.categorySpending, GroupTotal)
    ensures DistinctKeys(r.categorySpending)
    ensures forall i :: 0 <= i < |r.categorySpending| ==>
      var g := r.categorySpending[i];
      g.total == SumForKey(monthExpenses, CategoryOf, Amount, g.key) && g.count == CountForKey(monthExpenses, CategoryOf, g.key) && g.count > 0
  {
    var spending := SortDesc(GroupBy(monthExpenses, CategoryOf, Amount), GroupTotal);
    ReorderedGroups(monthExpenses, CategoryOf, Amount, spending);
    Dashboard(SummaryOf(current, last, walletBalance), spending)
  }

  /** The dashboard with last month selected by `lastMonth`; a 500 when the
      caller's account is gone (`user.wallet` of `null` throws). */
  function DashboardWith(s: Store, user: UserId, startOfMonth: int, lastMonth: Entry -> bool): (r: Reply<Dashboard>)
    ensures r.Err? <==> FindUser(s.users, user).None?
    ensures r.Err? ==> r.error == Fail(ServerError, "Server error fetching dashboard data")
    ensures r.Ok? ==> r.value == DashboardFrom(Filter(s.entries, InCurrentMonth(user, startOfMonth)), Filter(s.entries, lastMonth),
                                               Filter(s.entries, IsMonthExpense(user, startOfMonth)),
                                               s.users[FindUser(s.users, user).value].balance)
  {
    match FindUser(s.users, user)
    case None => Err(Fail(ServerError, "Server error fetching dashboard data"))
    case Some(u) =>
      Ok(DashboardFrom(Filter(s.entries, InCurrentMonth(user, startOfMonth)), Filter(s.entries, lastMonth),
                       Filter(s.entries, IsMonthExpense(user, startOfMonth)), s.users[u].balance))
  }

  /** `GET /dashboard` as written: last month ends at the start of its final day. */
  function DashboardAsWritten(s: Store, user: UserId, cal: Calendar): (r: Reply<Dashboard>)
    ensures r.Err? <==> FindUser(s.users, user).None?
    ensures r.Ok? ==> var last := Filter(s.entries, InLastMonthAsWritten(user, cal));
      && r.value.summary.incomeChange == Change(r.value.summary.currentMonthIncome, IncomeTotal(last))
      && r.value.summary.expenseChange == Change(r.value.summary.currentMonthExpenses, OutgoingTotal(last))
  {
    DashboardWith(s, user, cal.startOfMonth, InLastMonthAsWritten(user, cal))
  }

  /** `GET /dashboard` with last month running up to the start of this month.
      This month's income and expenses split this month's total, and each
      change is the percentage that takes last month's figure to this one's. */
  function DashboardView(s: Store, user: UserId, cal: Calendar): (r: Reply<Dashboard>)
    ensures r.Err? <==> FindUser(s.users, user).None?
    ensures r.Err? ==> r.error == Fail(ServerError, "Server error fetching dashboard data")
    ensures r.Ok? ==> var sm := r.value.summary; var current := Filter(s.entries, InCurrentMonth(user, cal.startOfMonth));
      && sm.currentMonthIncome == IncomeTotal(current) && sm.currentMonthExpenses == OutgoingTotal(current)
      && sm.currentMonthIncome + sm.currentMonthExpenses == Sum(current, Amount)
      && sm.balance == sm.currentMonthIncome - sm.currentMonthExpenses
      && sm.walletBalance == s.users[FindUser(s.users, user).value].balance
    ensures r.Ok? ==> var last := Filter(s.entries, InLastMonth(user, cal));
      && r.value.summary.incomeChange == Change(r.value.summary.currentMonthIncome, IncomeTotal(last))
      && r.value.summary.expenseChange == Change(r.value.summary.currentMonthExpenses, OutgoingTotal(last))
  {
    DashboardWith(s, user, cal.startOfMonth, InLastMonth(user, cal))
  }

  /** A calendar whose last month has 30 days, starting at instant 0. */
  const DayMs: int := 86400000
  const SampleCalendar: Calendar := Calendar(30 * DayMs, 0, 29 * DayMs)

  /** An income of 100 at noon on the last day of last month. */
  function LastDayIncome(user: UserId): Entry
  {
    Entry(0, user, Income, 100.0, "salary", "salary", None, Instant(29 * DayMs + DayMs / 2, 0, 12, 12),
          None, Cash, None, "USD", 1.0, [], false, None, None, [], false, None, false, None)
  }

  function SampleStore(user: UserId): Store
  {
    Store([Account(user, "a@b.c", "A", "B", 0.0, Preferences(true, true, 0.0, map[]))], [LastDayIncome(user)], [], 1)
  }

  /** As written, an income on the last day of last month is in neither
      window: with no income this month the dashboard reports no change,
      where the corrected window reports the drop of 100%. */
  lemma LastDayDropped(user: UserId)
    ensures InLastMonth(user, SampleCalendar)(LastDayIncome(user))
    ensures !InLastMonthAsWritten(user, SampleCalendar)(LastDayIncome(user))
    ensures !InCurrentMonth(user, SampleCalendar.startOfMonth)(LastDayIncome(user))
    ensures DashboardAsWritten(SampleStore(user), user, SampleCalendar).Ok?
    ensures DashboardAsWritten(SampleStore(user), user, SampleCalendar).value.summary.incomeChange == 0.0
    ensures DashboardView(SampleStore(user), user, SampleCalendar).value.summary.incomeChange == -100.0
  {
    var s, cal, e := SampleStore(user), SampleCalendar, LastDayIncome(user);
    assert FindUser(s.users, user) == Some(0);
    assert s.entries == [e];
    var current := Filter([e], InCurrentMonth(user, cal.startOfMonth));
    assert current == [];
    assert IncomeTotal(current) == 0.0;
    assert IncomeTotal(Filter([e], InLastMonthAsWritten(user, cal))) == 0.0 by {
      assert Filter([e], InLastMonthAsWritten(user, cal)) == [];
    }
    assert IncomeTotal(Filter([e], InLastMonth(user, cal))) == 100.0 by {
      var last := Filter([e], InLastMonth(user, cal));
      assert last == [e];
      assert Filter(last, IsIncoming) == [e];
      assert e.amount == 100.0;
      assert [e][1..] == [];
    }
  }

  /** Another user's entry changes nothing on the caller's dashboard. */
  lemma DashboardIgnoresOthers(s: Store, user: UserId, cal: Calendar, e: Entry)
    requires e.user != user
    ensures DashboardView(s.(entries := s.entries + [e]), user, cal) == DashboardView(s, user, cal)
  {
    var t := s.(entries := s.entries + [e]);
    var cur, last, exp := InCurrentMonth(user, cal.startOfMonth), InLastMonth(user, cal), IsMonthExpense(user, cal.startOfMonth);
    assert Filter(t.entries, cur) == Filter(s.entries, cur) by {
      FilterConcat(s.entries, [e], cur);
      assert Filter([e], cur) == [];
    }
    assert Filter(t.entries, last) == Filter(s.entries, last) by {
      FilterConcat(s.entries, [e], last);
      assert Filter([e], last) == [];
    }
    assert Filter(t.entries, exp) == Filter(s.entries, exp) by {
      FilterConcat(s.entries, [e], exp);
      assert Filter([e], exp) == [];
    }
  }

  /** A new income of the caller this month raises this month's income by its
      amount and leaves this month's expenses as they were. */
  lemma DashboardCountsNewIncome(s: Store, user: UserId, cal: Calendar, e: Entry)
    requires e.user == user && e.kind == Income && e.date.ms >= cal.startOfMonth
    requires FindUser(s.users, user).Some?
    ensures var before := DashboardView(s, user, cal).value.summary;
      var after := DashboardView(s.(entries := s.entries + [e]), user, cal).value.summary;
      && after.currentMonthIncome == before.currentMonthIncome + e.amount
      && after.currentMonthExpenses == before.currentMonthExpenses
  {
    var p := InCurrentMonth(user, cal.startOfMonth);
    var cur := Filter(s.entries, p);
    var t := s.(entries := s.entries + [e]);
    assert t.users == s.users && t.entries == s.entries + [e];
    var cur' := Filter(t.entries, p);
    assert cur' == cur + [e] by {
      FilterConcat(s.entries, [e], p);
      assert Filter([e], p) == [e];
    }
    assert IncomeTotal(cur') == IncomeTotal(cur) + e.amount by {
      FilterConcat(cur, [e], IsIncoming);
      assert Filter([e], IsIncoming) == [e];
      SumSnoc(Filter(cur, IsIncoming), e, Amount);
    }

    assert OutgoingTotal(cur') == OutgoingTotal(cur) by {
      FilterConcat(cur, [e], IsOutgoing);
      assert Filter([e], IsOutgoing) == [];
      assert Filter(cur, IsOutgoing) + [] == Filter(cur, IsOutgoing);
    }
  }

  // ---------------------------------------------------------- budget analysis

  datatype BudgetStatus = Good | Warning | Over

  /** One element of `budgetStatus`. */
  datatype BudgetRow = BudgetRow(
    category: string,
    spent: real,
    limit: real,
    remaining: real,
    percentage: real,
    status: BudgetStatus,
    transactions: nat)

  function Max0(x: real): real { if x > 0.0 then x else 0.0 }

  /** The row of one spending group: `limit` is the category's limit (0 when
      unset), `percentage` is 0 without a positive limit, `remaining` never
      drops below 0, and the status is read off the percentage. */
  function RowFor(g: Group<string>, prefs: Preferences): (r: BudgetRow)
    ensures r.category == g.key && r.spent == g.total && r.transactions == g.count
    ensures r.limit == LimitFor(prefs, g.key)
    ensures r.remaining >= 0.0 && r.remaining >= r.limit - r.spent
    ensures r.remaining == 0.0 || r.remaining == r.limit - r.spent
    ensures r.limit > 0.0 ==> r.percentage * r.limit == r.spent * 100.0
    ensures r.limit <= 0.0 ==> r.percentage == 0.0
  {
    var limit := LimitFor(prefs, g.key);
    var percentage := if limit > 0.0 then g.total / limit * 100.0 else 0.0;
    var status := if percentage > 100.0 then Over else if percentage > 80.0 then Warning else Good;
    BudgetRow(g.key, g.total, limit, Max0(limit - g.total), percentage, status, g.count)
  }

  /** The status in terms of spending and limit alone: `over` exactly when a
      positive limit is exceeded, `warning` when more than 80% of it is spent
      without exceeding it, `good` otherwise (always, without a limit). */
  lemma StatusClassification(g: Group<string>, prefs: Preferences)
    ensures var r := RowFor(g, prefs);
      && (r.status == Over <==> r.limit > 0.0 && r.spent > r.limit)
      && (r.status == Warning <==> r.limit > 0.0 && r.limit * 0.8 < r.spent <= r.limit)
      && (r.status == Good <==> r.limit <= 0.0 || r.spent <= r.limit * 0.8)
  {
    var r := RowFor(g, prefs);
    if r.limit > 0.0 {
      assert r.percentage == r.spent / r.limit * 100.0;
      assert r.percentage > 100.0 <==> r.spent > r.limit by {
        assert r.percentage - 100.0 == (r.spent - r.limit) * (100.0 / r.limit);
      }
      assert r.percentage > 80.0 <==> r.spent > r.limit * 0.8 by {
        assert r.percentage - 80.0 == (r.spent - r.limit * 0.8) * (100.0 / r.limit);
      }
    }
  }

  /** `currentSpending.map(...)`. */
  function Rows(gs: seq<Group<string>>, prefs: Preferences): (r: seq<BudgetRow>)
    ensures |r| == |gs|
    ensures forall i :: 0 <= i < |r| ==> r[i] == RowFor(gs[i], prefs)
  {
    if |gs| == 0 then [] else [RowFor(gs[0], prefs)] + Rows(gs[1..], prefs)
  }

  function RowSpent(r: BudgetRow): real { r.spent }

  /** `overallBudgetStatus`. */
  datatype Overall = Overall(totalSpent: real, monthlyLimit: real, remaining: real, percentage: real)

  /** The overall status against the monthly limit, with the same clamping
      and zero-limit rule as the rows. */
  function OverallFor(totalSpent: real, monthlyLimit: real): (r: Overall)
    ensures r.totalSpent == totalSpent && r.monthlyLimit == monthlyLimit
    ensures r.remaining >= 0.0 && r.remaining >= monthlyLimit - totalSpent
    ensures r.remaining == 0.0 || r.remaining == monthlyLimit - totalSpent
    ensures monthlyLimit > 0.0 ==> r.percentage * monthlyLimit == totalSpent * 100.0
    ensures monthlyLimit <= 0.0 ==> r.percentage == 0.0
  {
    Overall(totalSpent, monthlyLimit, Max0(monthlyLimit - totalSpent),
            if monthlyLimit > 0.0 then totalSpent / monthlyLimit * 100.0 else 0.0)
  }

  // ------------------------------------------------------------ savings goals

  datatype SavingsGoals = SavingsGoals(
    currentSavingsRate: real,
    recommendedSavingsRate: real,
    potentialSavings: real,
    actualSavings: real)

  const RecommendedSavingsRate: real := 20.0

  /** `calculateSavingsGoals`: what is left of the month's income after the
      month's spending, as an amount and, with a positive income, as a
      percentage of that income; the potential is a fifth of the income. */
  function SavingsGoalsFor(income: real, spending: real): (r: SavingsGoals)
    ensures r.actualSavings + spending == income
    ensures income > 0.0 ==> r.currentSavingsRate * income == r.actualSavings * 100.0
    ensures income <= 0.0 ==> r.currentSavingsRate == 0.0
    ensures r.recommendedSavingsRate == RecommendedSavingsRate
    ensures r.potentialSavings * 5.0 == income
  {
    SavingsGoals(if income > 0.0 then (income - spending) / income * 100.0 else 0.0,
                 RecommendedSavingsRate, income * 0.2, income - spending)
  }

  /** With a positive income, the savings rate meets the recommended 20%
      exactly when the actual savings reach the potential savings. */
  lemma RecommendedRateMeansPotential(income: real, spending: real)
    requires income > 0.0
    ensures var r := SavingsGoalsFor(income, spending);
      r.currentSavingsRate >= r.recommendedSavingsRate <==> r.actualSavings >= r.potentialSavings
  {
    var r := SavingsGoalsFor(income, spending);
    assert r.currentSavingsRate - 20.0 == (r.actualSavings - r.potentialSavings) * (100.0 / income);
  }

  // ---------------------------------------------------------- recommendations

  datatype Recommendation =
    | BudgetWarning
    | OverBudgetAlert(categories: seq<string>)
    | WatchSpendingTip(category: string, percentage: real)

  predicate IsOverRow(r: BudgetRow) { r.status == Over }

  /** Between 80% (excluded) and 100% (included) of the limit. */
  predicate IsHighRow(r: BudgetRow) { 80.0 < r.percentage <= 100.0 }

  function RowPercentage(r: BudgetRow): real { r.percentage }

  function Categories(rows: seq<BudgetRow>): (r: seq<string>)
    ensures |r| == |rows|
    ensures forall i :: 0 <= i < |r| ==> r[i] == rows[i].category
  {
    if |rows| == 0 then [] else [rows[0].category] + Categories(rows[1..])
  }

  /** The alert's category list, when some category is over budget. */
  function AlertFor(rows: seq<BudgetRow>): (r: Option<Recommendation>)
    ensures r.Some? <==> exists j :: 0 <= j < |rows| && rows[j].status == Over
    ensures r.Some? ==> r.value.OverBudgetAlert?
    ensures r.Some? ==> forall c :: c in r.value.categories <==> exists j :: 0 <= j < |rows| && rows[j].status == Over && rows[j].category == c
  {
    var over := Filter(rows, IsOverRow);
    if |over| == 0 then
      CountZero(rows, IsOverRow);
      None
    else
      var cs := Categories(over);
      assert forall c :: c in cs ==> exists j :: 0 <= j < |rows| && rows[j].status == Over && rows[j].category == c by {
        forall c | c in cs ensures exists j :: 0 <= j < |rows| && rows[j].status == Over && rows[j].category == c {
          var k :| 0 <= k < |cs| && cs[k] == c;
          var j :| 0 <= j < |rows| && rows[j] == over[k];
        }
      }
      assert forall j :: 0 <= j < |rows| && rows[j].status == Over ==> rows[j].category in cs by {
        forall j | 0 <= j < |rows| && rows[j].status == Over ensures rows[j].category in cs {
          var k :| 0 <= k < |over| && over[k] == rows[j];
          assert cs[k] == rows[j].category;
        }
      }
      Some(OverBudgetAlert(cs))
  }

  /** The head of the sorted matches is a match with the largest key. */
  lemma HighestMatch<T>(s: seq<T>, p: T -> bool, key: T -> real)
    requires |SortDesc(Filter(s, p), key)| > 0
    ensures var top := SortDesc(Filter(s, p), key)[0];
      && top in s && p(top)
      && forall j :: 0 <= j < |s| && p(s[j]) ==> key(s[j]) <= key(top)
  {
    var high := Filter(s, p);
    var sorted := SortDesc(high, key);
    HeadIsMax(sorted, key);
    assert sorted[0] in multiset(high);
    forall j | 0 <= j < |s| && p(s[j]) ensures key(s[j]) <= key(sorted[0]) {
      assert s[j] in multiset(sorted);
    }
  }

  /** The tip: the first row of the highest percentage among those above 80%
      and at most 100%, when there is one. */
  function TipFor(rows: seq<BudgetRow>): (r: Option<Recommendation>)
    ensures r.Some? <==> exists j :: 0 <= j < |rows| && IsHighRow(rows[j])
    ensures r.Some? ==> r.value.WatchSpendingTip?
    ensures r.Some? ==> exists j :: 0 <= j < |rows| && IsHighRow(rows[j])
                                    && rows[j].category == r.value.category && rows[j].percentage == r.value.percentage
    ensures r.Some? ==> forall j :: 0 <= j < |rows| && IsHighRow(rows[j]) ==> rows[j].percentage <= r.value.percentage
  {
    var high := Filter(rows, IsHighRow);
    var sorted := SortDesc(high, RowPercentage);
    if |sorted| == 0 then
      CountZero(rows, IsHighRow);
      None
    else
      HighestMatch(rows, IsHighRow, RowPercentage);
      Some(WatchSpendingTip(sorted[0].category, sorted[0].percentage))
  }

  function OptionList<T>(o: Option<T>): seq<T>
  {
    if o.Some? then [o.value] else []
  }

  /** The position of each kind of recommendation in the list. */
  function Rank(r: Recommendation): nat
  {
    match r
    case BudgetWarning => 0
    case OverBudgetAlert(_) => 1
    case WatchSpendingTip(_, _) => 2
  }

  /** The list of recommendations that apply, in the order the source pushes them. */
  function Assemble(warn: bool, alert: Option<Recommendation>, tip: Option<Recommendation>): (r: seq<Recommendation>)
    requires alert.Some? ==> alert.value.OverBudgetAlert?
    requires tip.Some? ==> tip.value.WatchSpendingTip?
    ensures forall i, j :: 0 <= i < j < |r| ==> Rank(r[i]) < Rank(r[j])
    ensures BudgetWarning in r <==> warn
    ensures alert.Some? ==> alert.value in r
    ensures tip.Some? ==> tip.value in r
    ensures forall i :: 0 <= i < |r| && r[i].OverBudgetAlert? ==> alert == Some(r[i])
    ensures forall i :: 0 <= i < |r| && r[i].WatchSpendingTip? ==> tip == Some(r[i])
  {
    match (alert, tip)
    case (None, None) => if warn then [BudgetWarning] else []
    case (Some(x), None) => if warn then [BudgetWarning, x] else [x]
    case (None, Some(y)) => if warn then [BudgetWarning, y] else [y]
    case (Some(x), Some(y)) => if warn then [BudgetWarning, x, y] else [x, y]
  }

  /** `generateBudgetRecommendations`: a warning when more than 90% of the
      monthly limit is spent, the over-budget alert, and the tip, each only
      when its condition holds, at most once, and in that order. */
  function Recommendations(rows: seq<BudgetRow>, overall: Overall): (r: seq<Recommendation>)
    ensures forall i, j :: 0 <= i < j < |r| ==> Rank(r[i]) < Rank(r[j])
    ensures BudgetWarning in r <==> overall.percentage > 90.0
    ensures AlertFor(rows).Some? ==> AlertFor(rows).value in r
    ensures TipFor(rows).Some? ==> TipFor(rows).value in r
    ensures forall i :: 0 <= i < |r| && r[i].OverBudgetAlert? ==> AlertFor(rows) == Some(r[i])
    ensures forall i :: 0 <= i < |r| && r[i].WatchSpendingTip? ==> TipFor(rows) == Some(r[i])
  {
    Assemble(overall.percentage > 90.0, AlertFor(rows), TipFor(rows))
  }

  // ------------------------------------------------------------ the route

  datatype BudgetAnalysis = BudgetAnalysis(
    budgetStatus: seq<BudgetRow>,
    overall: Overall,
    savingsGoals: SavingsGoals,
    recommendations: seq<Recommendation>)

  /** `budgetStatus`: one row per category of the month's expenses `f`,
      holding exactly that category's total and count, and the limit the
      caller set for it. */
  function BudgetRows(f: seq<Entry>, prefs: Preferences): (rows: seq<BudgetRow>)
    ensures forall i :: 0 <= i < |rows| ==>
      var row := rows[i];
      && row == RowFor(Group(row.category, row.spent, row.transactions), prefs)
      && row.limit == LimitFor(prefs, row.category)
      && row.spent == SumForKey(f, CategoryOf, Amount, row.category)
      && row.transactions == CountForKey(f, CategoryOf, row.category) && row.transactions > 0
    ensures forall i, j :: 0 <= i < j < |rows| ==> rows[i].category != rows[j].category
    ensures forall e :: e in f ==> exists i :: 0 <= i < |rows| && rows[i].category == e.category
  {
    var gs := GroupBy(f, CategoryOf, Amount);
    var rows := Rows(gs, prefs);
    ReorderedGroups(f, CategoryOf, Amount, gs);
    assert forall e :: e in f ==> exists i :: 0 <= i < |rows| && rows[i].category == e.category by {
      forall e | e in f ensures exists i :: 0 <= i < |rows| && rows[i].category == e.category {
        var k :| 0 <= k < |f| && f[k] == e;
        var i :| 0 <= i < |gs| && gs[i].key == CategoryOf(f[k]);
        assert rows[i].category == e.category;
      }
    }
    rows
  }

  /** The total of the rows is the total of the month's expenses. */
  function TotalSpent(f: seq<Entry>): (total: real)
    ensures total == Sum(f, Amount)
  {
    GroupByShape(f, CategoryOf, Amount);
    Sum(GroupBy(f, CategoryOf, Amount), GroupTotal)
  }

  /** The analysis from this month's expenses, this month's income and the
      caller's preferences. */
  function BudgetFor(f: seq<Entry>, income: real, prefs: Preferences): (r: BudgetAnalysis)
    ensures r.budgetStatus == BudgetRows(f, prefs)
    ensures r.overall == OverallFor(Sum(f, Amount), prefs.monthlySpendingLimit)
    ensures r.savingsGoals == SavingsGoalsFor(income, Sum(f, Amount))
    ensures r.recommendations == Recommendations(r.budgetStatus, r.overall)
  {
    var rows := BudgetRows(f, prefs);
    var total := TotalSpent(f);
    var overall := OverallFor(total, prefs.monthlySpendingLimit);
    BudgetAnalysis(rows, overall, SavingsGoalsFor(income, total), Recommendations(rows, overall))
  }

  /** `GET /budget-analysis`: this month's expenses per category against the
      caller's limits. Each row holds exactly its category's total and count;
      every category with an expense this month has a row; the overall total
      is the sum of this month's expenses, and the savings are what this
      month's income leaves of it. A 500 when the caller's account is gone. */
  function BudgetAnalysisRoute(s: Store, user: UserId, startOfMonth: int): (r: Reply<BudgetAnalysis>)
    ensures r.Err? <==> FindUser(s.users, user).None?
    ensures r.Err? ==> r.error == Fail(ServerError, "Server error fetching budget analysis")
    ensures r.Ok? ==> var f := Filter(s.entries, IsMonthExpense(user, startOfMonth));
      && r.value.overall.totalSpent == Sum(f, Amount)
      && r.value.savingsGoals.actualSavings == Sum(Filter(s.entries, IsMonthIncome(user, startOfMonth)), Amount) - Sum(f, Amount)
      && r.value.overall.monthlyLimit == s.users[FindUser(s.users, user).value].prefs.monthlySpendingLimit
    ensures r.Ok? ==> var f := Filter(s.entries, IsMonthExpense(user, startOfMonth));
      forall i :: 0 <= i < |r.value.budgetStatus| ==>
        var row := r.value.budgetStatus[i];
        && row.spent == SumForKey(f, CategoryOf, Amount, row.category)
        && row.transactions == CountForKey(f, CategoryOf, row.category) && row.transactions > 0
        && row.limit == LimitFor(s.users[FindUser(s.users, user).value].prefs, row.category)
    ensures r.Ok? ==> forall i, j :: 0 <= i < j < |r.value.budgetStatus| ==>
      r.value.budgetStatus[i].category != r.value.budgetStatus[j].category
    ensures r.Ok? ==> forall k :: 0 <= k < |s.entries| && IsMonthExpense(user, startOfMonth)(s.entries[k]) ==>
      exists i :: 0 <= i < |r.value.budgetStatus| && r.value.budgetStatus[i].category == s.entries[k].category
  {
    match FindUser(s.users, user)
    case None => Err(Fail(ServerError, "Server error fetching budget analysis"))
    case Some(u) =>
      var f := Filter(s.entries, IsMonthExpense(user, startOfMonth));
      var income := Sum(Filter(s.entries, IsMonthIncome(user, startOfMonth)), Amount);
      var b := BudgetFor(f, income, s.users[u].prefs);
      Ok(b)
  }

  // ---------------------------------------------------- unusual transactions

  /** `avgMap.get(category)`: the average of the group keyed `c`, if any. */
  function AverageIn(gs: seq<Group<string>>, c: string): Option<real>
  {
    var n := CountOf(gs, c);
    if n == 0 then None else Some(TotalOf(gs, c) / n as real)
  }

  /** `categoryAvg && transaction.amount > categoryAvg * 2`: an average of 0,
      like a missing one, flags nothing. */
  function IsUnusual(avgs: seq<Group<string>>): Entry -> bool
  {
    (e: Entry) => var a := AverageIn(avgs, e.category); a.Some? && a.value != 0.0 && e.amount > a.value * 2.0
  }

  /** More than twice the non-zero average amount of the earlier expenses
      `prior` in the entry's category, stated without the grouping. */
  predicate AboveTwiceAverage(prior: seq<Entry>, e: Entry)
  {
    var n := CountForKey(prior, CategoryOf, e.category);
    n > 0 && var avg := SumForKey(prior, CategoryOf, Amount, e.category) / n as real;
    avg != 0.0 && e.amount > avg * 2.0
  }

  /** Looking an average up in the grouping agrees with the reference. */
  lemma UnusualAgrees(prior: seq<Entry>, e: Entry)
    ensures IsUnusual(GroupBy(prior, CategoryOf, Amount))(e) == AboveTwiceAverage(prior, e)
  {
    GroupByLookup(prior, CategoryOf, Amount, e.category);
  }

  /** `getUnusualTransactions`: exactly the caller's expenses this month that
      are more than twice the average of the caller's earlier expenses in the
      same category. */
  function UnusualTransactions(s: Store, user: UserId, startOfMonth: int): (r: seq<Entry>)
    ensures forall e :: e in r <==>
      (e in s.entries && IsMonthExpense(user, startOfMonth)(e)
       && AboveTwiceAverage(Filter(s.entries, IsPriorExpense(user, startOfMonth)), e))
  {
    var prior := Filter(s.entries, IsPriorExpense(user, startOfMonth));
    var avgs := GroupBy(prior, CategoryOf, Amount);
    var current := Filter(s.entries, IsMonthExpense(user, startOfMonth));
    var r := Filter(current, IsUnusual(avgs));
    assert forall e :: e in r <==> (e in current && AboveTwiceAverage(prior, e)) by {
      forall e ensures e in r <==> (e in current && AboveTwiceAverage(prior, e)) {
        UnusualAgrees(prior, e);
        if e in r {
          var i :| 0 <= i < |r| && r[i] == e;
        }
        if e in current && IsUnusual(avgs)(e) {
          var i :| 0 <= i < |current| && current[i] == e;
        }
      }
    }
    assert forall e :: e in current <==> (e in s.entries && IsMonthExpense(user, startOfMonth)(e)) by {
      forall e ensures e in current <==> (e in s.entries && IsMonthExpense(user, startOfMonth)(e)) {
        if e in current {
          var i :| 0 <= i < |current| && current[i] == e;
        }
        if e in s.entries {
          var i :| 0 <= i < |s.entries| && s.entries[i] == e;
        }
      }
    }
    r
  }

  // ------------------------------------------------------------------- export

  /** The column names of the CSV header. */
  const HeaderFields: seq<string> := ["Date", "Type", "Amount", "Category", "Description", "Payment Method", "Merchant"]

  /** `Date,Type,Amount,Category,Description,Payment Method,Merchant` and a line break. */
  const CsvHeader: string := Join(HeaderFields, ",") + "\n"

  /** The text `toISOString().split('T')[0]` and `toFixed(2)` produce for an
      entry; the formatting itself is not modelled. */
  datatype Formatted = Formatted(date: string, amount: string)

  /** An ISO date and a fixed-point amount never contain a comma. */
  predicate CommaFree(f: Formatted) { ',' !in f.date && ',' !in f.amount }

  function OrEmpty(o: Option<string>): string { if o.Some? then o.value else "" }

  /** A double-quoted field with its commas replaced by semicolons. */
  function Quoted(s: string): string { "\"" + ReplaceChar(s, ',', ';') + "\"" }

  /** One line of the CSV, with `category` as the fourth field. */
  function RowWith(e: Entry, f: Formatted, category: string): string
  {
    f.date + "," + KindName(e.kind) + "," + f.amount + "," + category + "," + Quoted(e.description) + ","
      + PaymentMethodName(e.paymentMethod) + "," + Quoted(OrEmpty(e.merchant))
  }

  /** The row as the route builds it: the category is copied unescaped, so
      each comma in it adds a column to the row. */
  function CsvRowAsWritten(e: Entry, f: Formatted): (r: string)
    ensures CommaFree(f) ==> CountChar(r, ',') == 6 + CountChar(e.category, ',')
  {
    RowCommas(e, f, e.category);
    CountCharZero(f.date, ',');
    CountCharZero(f.amount, ',');
    RowWith(e, f, e.category)
  }

  /** The row with the category's commas replaced as in the two quoted
      fields: exactly seven fields whatever the entry holds. */
  function CsvRow(e: Entry, f: Formatted): (r: string)
    ensures CommaFree(f) ==> CountChar(r, ',') == 6
  {
    RowCommas(e, f, ReplaceChar(e.category, ',', ';'));
    ReplaceRemoves(e.category, ',', ';');
    CountCharZero(f.date, ',');
    CountCharZero(f.amount, ',');
    RowWith(e, f, ReplaceChar(e.category, ',', ';'))
  }

  lemma KindNameCommaFree(k: Kind)
    ensures CountChar(KindName(k), ',') == 0
  {
    CountCharZero(KindName(k), ',');
  }

  lemma MethodNameCommaFree(m: PaymentMethod)
    ensures CountChar(PaymentMethodName(m), ',') == 0
  {
    CountCharZero(PaymentMethodName(m), ',');
  }

  lemma QuotedCommaFree(s: string)
    ensures CountChar(Quoted(s), ',') == 0
  {
    ReplaceRemoves(s, ',', ';');
    CountCharConcat("\"" + ReplaceChar(s, ',', ';'), "\"", ',');
    CountCharConcat("\"", ReplaceChar(s, ',', ';'), ',');
  }

  /** Seven fields joined by commas: the six separators plus any comma inside
      the date, the amount or the category. */
  lemma {:induction false} RowCommas(e: Entry, f: Formatted, category: string)
    ensures CountChar(RowWith(e, f, category), ',')
         == 6 + CountChar(f.date, ',') + CountChar(f.amount, ',') + CountChar(category, ',')
  {
    var q1, q2 := Quoted(e.description), Quoted(OrEmpty(e.merchant));
    var k, m := KindName(e.kind), PaymentMethodName(e.paymentMethod);
    KindNameCommaFree(e.kind);
    MethodNameCommaFree(e.paymentMethod);
    QuotedCommaFree(e.description);
    QuotedCommaFree(OrEmpty(e.merchant));
    assert CountChar(",", ',') == 1;
    var p1 := f.date + ",";
    CountCharConcat(f.date, ",", ',');
    var p2 := p1 + k;
    CountCharConcat(p1, k, ',');
    var p3 := p2 + ",";
    CountCharConcat(p2, ",", ',');
    var p4 := p3 + f.amount;
    CountCharConcat(p3, f.amount, ',');
    var p5 := p4 + ",";
    CountCharConcat(p4, ",", ',');
    var p6 := p5 + category;
    CountCharConcat(p5, category, ',');
    var p7 := p6 + ",";
    CountCharConcat(p6, ",", ',');
    var p8 := p7 + q1;
    CountCharConcat(p7, q1, ',');
    var p9 := p8 + ",";
    CountCharConcat(p8, ",", ',');
    var p10 := p9 + m;
    CountCharConcat(p9, m, ',');
    var p11 := p10 + ",";
    CountCharConcat(p10, ",", ',');
    CountCharConcat(p11, q2, ',');
    assert RowWith(e, f, category) == p11 + q2;
  }

  /** The category `food,drinks` gives a row of eight fields under a header
      of seven. */
  lemma CommaInCategory(e: Entry, f: Formatted)
    requires CommaFree(f) && e.category == "food,drinks"
    ensures CountChar(CsvRowAsWritten(e, f), ',') == 7
  {
    assert e.category == "food" + "," + "drinks";
    CountCharConcat("food" + ",", "drinks", ',');
    CountCharConcat("food", ",", ',');
    CountCharZero("food", ',');
    CountCharZero("drinks", ',');
  }

  /** The rows as the route builds them, one per entry in order. */
  function CsvRows(es: seq<Entry>, fmt: Entry -> Formatted): (r: seq<string>)
    ensures |r| == |es|
    ensures forall i :: 0 <= i < |es| ==> r[i] == CsvRowAsWritten(es[i], fmt(es[i]))
  {
    if |es| == 0 then [] else [CsvRowAsWritten(es[0], fmt(es[0]))] + CsvRows(es[1..], fmt)
  }

  /** The header line followed by the rows as the route builds them. */
  function CsvText(es: seq<Entry>, fmt: Entry -> Formatted): (r: string)
    ensures |r| >= |CsvHeader| && r[..|CsvHeader|] == CsvHeader
  {
    CsvHeader + Join(CsvRows(es, fmt), "\n")
  }

  /** The commas inside the entries' categories. */
  function CategoryCommas(es: seq<Entry>): nat
  {
    if |es| == 0 then 0 else CountChar(es[0].category, ',') + CategoryCommas(es[1..])
  }

  /** No category holds a comma iff the categories hold no comma in total. */
  lemma {:induction false} CategoryCommasZero(es: seq<Entry>)
    ensures CategoryCommas(es) == 0 <==> forall i :: 0 <= i < |es| ==> ',' !in es[i].category
  {
    if |es| > 0 {
      CategoryCommasZero(es[1..]);
      CountCharZero(es[0].category, ',');
      assert forall i :: 1 <= i < |es| ==> es[1..][i - 1] == es[i];
    }
  }

  /** As written, the rows hold six commas each plus the categories' own. */
  lemma {:induction false} RowsCommas(es: seq<Entry>, fmt: Entry -> Formatted)
    requires forall i :: 0 <= i < |es| ==> CommaFree(fmt(es[i]))
    ensures CountCharIn(CsvRows(es, fmt), ',') == 6 * |es| + CategoryCommas(es)
  {
    if |es| > 0 {
      assert forall i :: 0 <= i < |es[1..]| ==> es[1..][i] == es[i + 1];
      RowsCommas(es[1..], fmt);
      assert CsvRows(es, fmt)[1..] == CsvRows(es[1..], fmt);
    }
  }

  /** The file as written holds the header's commas, six per entry, and one
      more for every comma inside a category. */
  lemma CsvCommaCount(es: seq<Entry>, fmt: Entry -> Formatted)
    requires forall i :: 0 <= i < |es| ==> CommaFree(fmt(es[i]))
    ensures CountChar(CsvText(es, fmt), ',') == CountChar(CsvHeader, ',') + 6 * |es| + CategoryCommas(es)
  {
    var rows := CsvRows(es, fmt);
    RowsCommas(es, fmt);
    CountCharConcat(CsvHeader, Join(rows, "\n"), ',');
    assert "\n"[0] != ',';
    CountCharZero("\n", ',');
    CountCharJoinAll(rows, "\n", ',');
  }

  /** The file as written has six commas per entry exactly when no exported
      category holds a comma. */
  lemma CsvColumnsIffPlainCategories(es: seq<Entry>, fmt: Entry -> Formatted)
    requires forall i :: 0 <= i < |es| ==> CommaFree(fmt(es[i]))
    ensures CountChar(CsvText(es, fmt), ',') == CountChar(CsvHeader, ',') + 6 * |es|
        <==> forall i :: 0 <= i < |es| ==> ',' !in es[i].category
  {
    CsvCommaCount(es, fmt);
    CategoryCommasZero(es);
  }

  /** The rows with the category escaped, one per entry in order. */
  function CsvRowsEscaped(es: seq<Entry>, fmt: Entry -> Formatted): (r: seq<string>)
    ensures |r| == |es|
    ensures forall i :: 0 <= i < |es| ==> r[i] == CsvRow(es[i], fmt(es[i]))
  {
    if |es| == 0 then [] else [CsvRow(es[0], fmt(es[0]))] + CsvRowsEscaped(es[1..], fmt)
  }

  /** The header line followed by the escaped rows. */
  function CsvTextEscaped(es: seq<Entry>, fmt: Entry -> Formatted): (r: string)
    ensures |r| >= |CsvHeader| && r[..|CsvHeader|] == CsvHeader
  {
    CsvHeader + Join(CsvRowsEscaped(es, fmt), "\n")
  }

  /** With the category escaped, each row adds exactly six commas to the
      file, whatever the entries hold. */
  lemma CsvEscapedCommaCount(es: seq<Entry>, fmt: Entry -> Formatted)
    requires forall i :: 0 <= i < |es| ==> CommaFree(fmt(es[i]))
    ensures CountChar(CsvTextEscaped(es, fmt), ',') == CountChar(CsvHeader, ',') + 6 * |es|
  {
    var rows := CsvRowsEscaped(es, fmt);
    assert forall i :: 0 <= i < |rows| ==> CountChar(rows[i], ',') == 6;
    CountCharConcat(CsvHeader, Join(rows, "\n"), ',');
    assert "\n"[0] != ',';
    CountCharZero("\n", ',');
    CountCharJoin(rows, "\n", ',', 6);
  }

  /** Escaping the category changes the file only when some category holds a
      comma: without one, the two files are the same text. */
  lemma EscapingKeepsPlainFiles(es: seq<Entry>, fmt: Entry -> Formatted)
    requires forall i :: 0 <= i < |es| ==> ',' !in es[i].category
    ensures CsvTextEscaped(es, fmt) == CsvText(es, fmt)
  {
    forall i | 0 <= i < |es| ensures CsvRow(es[i], fmt(es[i])) == CsvRowAsWritten(es[i], fmt(es[i])) {
      ReplaceAbsent(es[i].category, ',', ';');
    }
    assert CsvRowsEscaped(es, fmt) == CsvRows(es, fmt);
  }

  // ------------------------------------------------------------ export route

  /** `timeRange`: anything but the four names falls back to `month`. */
  datatype TimeRange = Week | Month | Quarter | Year

  function ParseTimeRange(q: string): (r: TimeRange)
    ensures r == Week <==> q == "week"
    ensures r == Quarter <==> q == "quarter"
    ensures r == Year <==> q == "year"
  {
    if q == "week" then Week
    else if q == "quarter" then Quarter
    else if q == "year" then Year
    else Month
  }

  /** The local-time instants the export derives from `now`: seven days ago,
      and the first instant of this month, of the month two months back, and
      of the year. */
  datatype RangeStarts = RangeStarts(weekAgo: int, startOfMonth: int, startOfQuarter: int, startOfYear: int)

  function RangeStart(t: TimeRange, rs: RangeStarts): int
  {
    match t
    case Week => rs.weekAgo
    case Month => rs.startOfMonth
    case Quarter => rs.startOfQuarter
    case Year => rs.startOfYear
  }

  function IsExportedFrom(user: UserId, start: int): Entry -> bool
  {
    (e: Entry) => e.user == user && e.date.ms >= start
  }

  /** The caller's entries dated from `start` on, newest first. */
  function ExportEntries(s: Store, user: UserId, start: int): (r: seq<Entry>)
    ensures SortedDesc(r, DateKey)
    ensures |r| == Count(s.entries, IsExportedFrom(user, start))
    ensures forall e :: e in r <==> e in s.entries && IsExportedFrom(user, start)(e)
  {
    var f := Filter(s.entries, IsExportedFrom(user, start));
    var r := SortDesc(f, DateKey);
    assert forall e :: e in r <==> e in f by {
      forall e ensures e in r <==> e in f {
        assert e in r <==> e in multiset(r);
        assert e in f <==> e in multiset(f);
      }
    }
    assert forall e :: e in f <==> e in s.entries && IsExportedFrom(user, start)(e) by {
      forall e ensures e in f <==> e in s.entries && IsExportedFrom(user, start)(e) {
        if e in f {
          var i :| 0 <= i < |f| && f[i] == e;
        }
        if e in s.entries {
          var i :| 0 <= i < |s.entries| && s.entries[i] == e;
        }
      }
    }
    r
  }

  /** The response body: CSV text, or the JSON listing. */
  datatype ExportBody =
    | CsvExport(text: string)
    | JsonExport(timeRange: string, transactionCount: nat, transactions: seq<Entry>)

  /** `GET /export`: the caller's entries of the chosen range, newest first,
      as CSV when `format` is `csv` (the default) and as JSON otherwise. The
      CSV is the file as written, category unescaped. */
  function ExportRoute(s: Store, user: UserId, timeRange: Option<string>, format: Option<string>,
                       rs: RangeStarts, fmt: Entry -> Formatted): (r: ExportBody)
    ensures r.CsvExport? <==> format.GetOr("csv") == "csv"
    ensures r.CsvExport? ==> r.text == CsvText(ExportEntries(s, user, RangeStart(ParseTimeRange(timeRange.GetOr("month")), rs)), fmt)
    ensures r.JsonExport? ==> var start := RangeStart(ParseTimeRange(timeRange.GetOr("month")), rs);
      && r.timeRange == timeRange.GetOr("month")
      && r.transactionCount == |r.transactions|
      && SortedDesc(r.transactions, DateKey)
      && forall e :: e in r.transactions <==> e in s.entries && e.user == user && e.date.ms >= start
  {
    var range := timeRange.GetOr("month");
    var es := ExportEntries(s, user, RangeStart(ParseTimeRange(range), rs));
    if format.GetOr("csv") == "csv" then CsvExport(CsvText(es, fmt))
    else JsonExport(range, |es|, es)
  }
}


=== FILE: fraud_alert_model.dfy ===
/** The fraud alert record (`server/models/FraudAlert.js`): status, type and
    severity enumerations, required fields and defaults. */
module FraudAlertModel {
  import opened Wrappers
  import opened TransactionModel

  type AlertId = nat

  datatype AlertStatus = Pending | Reviewed | Dismissed | Confirmed

  function StatusName(s: AlertStatus): string
  {
    match s
    case Pending => "pending"
    case Reviewed => "reviewed"
    case Dismissed => "dismissed"
    case Confirmed => "confirmed"
  }

  function ParseStatus(s: string): (r: Option<AlertStatus>)
    ensures r.Some? ==> StatusName(r.value) == s
  {
    if s == "pending" then Some(Pending)
    else if s == "reviewed" then Some(Reviewed)
    else if s == "dismissed" then Some(Dismissed)
    else if s == "confirmed" then Some(Confirmed)
    else None
  }

  lemma ParseStatusName(s: AlertStatus)
    ensures ParseStatus(StatusName(s)) == Some(s)
  {
  }

  /** The `alertType` enum: it lacks `unusual_time`, `unusual_location` and
      `frequent_transactions`, which only the flag enum has. */
  predicate IsAlertType(t: TypeLabel)
  {
    t.HighAmount? || t.CategoryLimit? || t.UnusualPattern? || t.SuspiciousActivity?
  }

  /** The two enums share exactly `high_amount` and `category_limit`; in
      particular the labels of the frequency and night-time rules are flag
      types but not alert types. */
  lemma EnumsDisagree(t: TypeLabel)
    ensures IsAlertType(t) && IsFlagType(t) <==> t == HighAmount || t == CategoryLimit
    ensures !IsAlertType(FrequentTransactions) && !IsAlertType(UnusualTime)
  {
  }

  /** The `details` sub-document: only these four paths exist in the schema;
      any other key of the signal's details is dropped on construction. */
  datatype AlertDetails = AlertDetails(threshold: Option<real>, actualAmount: Option<real>, category: Option<string>, timeframe: Option<string>)

  datatype Alert = Alert(
    id: AlertId,
    user: UserId,
    transaction: EntryId,
    alertType: TypeLabel,
    severity: Severity,
    message: string,
    details: AlertDetails,
    status: AlertStatus,
    emailSent: bool,
    emailSentAt: Option<int>,
    reviewedBy: Option<UserId>,
    reviewedAt: Option<int>,
    notes: Option<string>,
    createdAt: int)

  /** The validators a `save()` of an alert runs. */
  predicate AlertValid(a: Alert)
  {
    IsAlertType(a.alertType) && |a.message| > 0
  }

  /** `new FraudAlert({...})` then `save()`: status defaults to `pending`,
      `emailSent` to false, the review fields are unset; the save is refused
      when the type is outside the alert enum or the message is empty. */
  function NewAlert(id: AlertId, user: UserId, transaction: EntryId, alertType: TypeLabel,
                    severity: Severity, message: string, details: AlertDetails, now: int): (r: Result<Alert, SchemaError>)
    ensures r.Ok? <==> IsAlertType(alertType) && |message| > 0
    ensures r.Ok? ==> AlertValid(r.value)
    ensures r.Ok? ==> var a := r.value;
      && a.id == id && a.user == user && a.transaction == transaction
      && a.alertType == alertType && a.severity == severity && a.message == message && a.details == details
      && a.status == Pending && !a.emailSent && a.emailSentAt.None?
      && a.reviewedBy.None? && a.reviewedAt.None? && a.notes.None? && a.createdAt == now
  {
    if !IsAlertType(alertType) then Err(SchemaError("alertType"))
    else if |message| == 0 then Err(SchemaError("message"))
    else Ok(Alert(id, user, transaction, alertType, severity, message, details, Pending, false, None, None, None, None, now))
  }
}

=== FILE: fraud_detection.dfy ===
/** The fraud pipeline of `server/utils/fraudDetection.js`: `checkFraudRules`
    (rules in a fixed order, one alert and one flag per signal, best-effort
    e-mail, swallow every failure), `calculateRiskScore` and
    `generateFraudReport`. */
module FraudDetection {
  import opened Wrappers
  import opened Seqs
  import opened Grouping
  import opened Text
  import opened TransactionModel
  import opened FraudAlertModel
  import opened Store
  import opened FraudRules

  function AsSeq(o: Option<Signal>): seq<Signal>
  {
    if o.Some? then [o.value] else []
  }

  /** Position of a rule in the pipeline. */
  function RuleRank(t: TypeLabel): nat
  {
    match t
    case HighAmount => 0
    case CategoryLimit => 1
    case FrequentTransactions => 2
    case UnusualTime => 3
    case _ => 4
  }

  /** The signals of the four rules, in the order the pipeline runs them:
      high amount, category limit, frequency, night time. */
  function Signals(e: Entry, es: seq<Entry>, u: Account, c: Clock): (r: seq<Signal>)
    ensures |r| <= 4 && InRuleOrder(r) && WellFormed(r)
    ensures Reports(HighAmountRule(e, es, u, c), HighAmount, r)
    ensures Reports(CategoryLimitRule(e, es, u, c), CategoryLimit, r)
    ensures Reports(FrequencyRule(e, es, u, c), FrequentTransactions, r)
    ensures Reports(UnusualTimeRule(e, es, u, c), UnusualTime, r)
  {
    Collect(HighAmountRule(e, es, u, c), CategoryLimitRule(e, es, u, c),
            FrequencyRule(e, es, u, c), UnusualTimeRule(e, es, u, c))
  }

  /** Each signal comes from a later rule than the one before it. */
  predicate InRuleOrder(r: seq<Signal>)
  {
    forall i :: 0 < i < |r| ==> RuleRank(r[i - 1].signalType) < RuleRank(r[i].signalType)
  }

  /** Every signal carries a flag label and a message. */
  predicate WellFormed(r: seq<Signal>)
  {
    forall i :: 0 <= i < |r| ==> IsFlagType(r[i].signalType) && |r[i].message| > 0
  }

  predicate Labelled(o: Option<Signal>, t: TypeLabel)
  {
    o.Some? ==> o.value.signalType == t && |o.value.message| > 0
  }

  /** Concatenates the four rules' answers, in rule order. */
  function Collect(h: Option<Signal>, l: Option<Signal>, f: Option<Signal>, t: Option<Signal>): (r: seq<Signal>)
    requires Labelled(h, HighAmount) && Labelled(l, CategoryLimit)
    requires Labelled(f, FrequentTransactions) && Labelled(t, UnusualTime)
    ensures |r| <= 4 && InRuleOrder(r) && WellFormed(r)
    ensures Reports(h, HighAmount, r) && Reports(l, CategoryLimit, r)
    ensures Reports(f, FrequentTransactions, r) && Reports(t, UnusualTime, r)
  {
    var r1 := Then([], h, HighAmount);
    var r2 := Then(r1, l, CategoryLimit);
    KeepsReport(r1, h, HighAmount, l, CategoryLimit);
    var r3 := Then(r2, f, FrequentTransactions);
    KeepsReport(r2, h, HighAmount, f, FrequentTransactions);
    KeepsReport(r2, l, CategoryLimit, f, FrequentTransactions);
    var r4 := Then(r3, t, UnusualTime);
    KeepsReport(r3, h, HighAmount, t, UnusualTime);
    KeepsReport(r3, l, CategoryLimit, t, UnusualTime);
    KeepsReport(r3, f, FrequentTransactions, t, UnusualTime);
    r4
  }

  /** Every signal comes from a rule ranked before `k`. */
  predicate Below(r: seq<Signal>, k: nat)
  {
    forall i :: 0 <= i < |r| ==> RuleRank(r[i].signalType) < k
  }

  /** Appends the answer of the rule of label `t`, which runs after every
      rule already in `acc`. */
  function Then(acc: seq<Signal>, o: Option<Signal>, t: TypeLabel): (r: seq<Signal>)
    requires Labelled(o, t) && IsFlagType(t)
    requires InRuleOrder(acc) && WellFormed(acc) && Below(acc, RuleRank(t))
    ensures r == acc + AsSeq(o) && |r| <= |acc| + 1
    ensures InRuleOrder(r) && WellFormed(r) && Below(r, RuleRank(t) + 1)
    ensures Reports(o, t, r)
  {
    acc + AsSeq(o)
  }

  /** A later rule's answer leaves an earlier rule's report intact. */
  lemma KeepsReport(acc: seq<Signal>, p: Option<Signal>, tp: TypeLabel, o: Option<Signal>, t: TypeLabel)
    requires Reports(p, tp, acc) && Labelled(o, t) && tp != t
    ensures Reports(p, tp, acc + AsSeq(o))
  {
  }

  /** A rule that fired has its signal in `r`; a rule that did not fire has
      no signal of its type in `r`. */
  predicate Reports(o: Option<Signal>, t: TypeLabel, r: seq<Signal>)
  {
    if o.Some? then o.value in r else forall i :: 0 <= i < |r| ==> r[i].signalType != t
  }

  /** Whether the alert built from a signal passes the alert schema. */
  predicate Accepted(sig: Signal)
  {
    IsAlertType(sig.signalType) && |sig.message| > 0
  }

  /** How many signals, from the first, pass the alert schema. */
  function LeadingAccepted(sigs: seq<Signal>): (n: nat)
    ensures n <= |sigs|
    ensures forall i :: 0 <= i < n ==> Accepted(sigs[i])
    ensures n < |sigs| ==> !Accepted(sigs[n])
  {
    if |sigs| == 0 || !Accepted(sigs[0]) then 0 else 1 + LeadingAccepted(sigs[1..])
  }

  /** The schema keeps only four of the signal's detail keys. */
  function StoredDetails(d: SignalDetails): AlertDetails
  {
    AlertDetails(d.threshold, d.actualAmount, d.category, d.timeframe)
  }

  function FlagOf(sig: Signal, now: int): FraudFlag
  {
    FraudFlag(sig.signalType, sig.severity, sig.message, now)
  }

  function FlagsOf(sigs: seq<Signal>, now: int): (r: seq<FraudFlag>)
    ensures |r| == |sigs| && forall i :: 0 <= i < |sigs| ==> r[i] == FlagOf(sigs[i], now)
  {
    if |sigs| == 0 then [] else [FlagOf(sigs[0], now)] + FlagsOf(sigs[1..], now)
  }

  /** Alerts are mailed only when both preferences are on. */
  predicate WantsEmail(u: Account)
  {
    u.prefs.fraudAlerts && u.prefs.emailNotifications
  }

  /** The notification sink's answer for the `i`-th alert (missing answers are
      failures). */
  predicate Delivered(mail: seq<bool>, i: nat)
  {
    i < |mail| && mail[i]
  }

  /** The alert as it stands after the loop body: saved once as `pending`, and
      saved again with `emailSent` set when the mail went out. */
  function AlertFor(sig: Signal, id: AlertId, u: Account, entry: EntryId, now: int, sent: bool): Alert
  {
    Alert(id, u.id, entry, sig.signalType, sig.severity, sig.message, StoredDetails(sig.details),
          Pending, sent, if sent then Some(now) else None, None, None, None, now)
  }

  /** What the loop over the signals produced: the alerts it saved, the flags
      it pushed onto the in-memory entry, and whether it reached the end. */
  datatype Progress = Progress(alerts: seq<Alert>, flags: seq<FraudFlag>, completed: bool)

  /** The loop over the signals: save an alert under the next id, maybe mail
      it, push a flag. A refused alert save throws and ends the loop; alerts
      saved before it stay saved. `k` is the index of `sigs[0]` in the whole
      batch. */
  function Process(id: AlertId, entry: EntryId, u: Account, now: int, sigs: seq<Signal>, k: nat, mail: seq<bool>): (r: Progress)
    ensures |r.alerts| == LeadingAccepted(sigs)
    ensures r.completed <==> LeadingAccepted(sigs) == |sigs|
    ensures r.completed ==> r.flags == FlagsOf(sigs, now)
    ensures forall j :: 0 <= j < |r.alerts| ==> r.alerts[j].id == id + j
    decreases |sigs|
  {
    if |sigs| == 0 then Progress([], [], true)
    else
      var sig := sigs[0];
      match NewAlert(id, u.id, entry, sig.signalType, sig.severity, sig.message, StoredDetails(sig.details), now)
      case Err(_) => Progress([], [], false)
      case Ok(a) =>
        var rest := Process(id + 1, entry, u, now, sigs[1..], k + 1, mail);
        Progress([Mailed(a, WantsEmail(u) && Delivered(mail, k), now)] + rest.alerts,
                 [FlagOf(sig, now)] + rest.flags, rest.completed)
  }

  /** The loop pushes one flag per alert it saved, for the leading accepted
      signals, in order. */
  lemma {:induction false} ProcessFlags(id: AlertId, entry: EntryId, u: Account, now: int, sigs: seq<Signal>, k: nat, mail: seq<bool>)
    ensures var p := Process(id, entry, u, now, sigs, k, mail);
      && |p.flags| == LeadingAccepted(sigs)
      && forall j :: 0 <= j < |p.flags| ==> p.flags[j] == FlagOf(sigs[j], now)
    decreases |sigs|
  {
    if |sigs| > 0 && Accepted(sigs[0]) {
      ProcessFlags(id + 1, entry, u, now, sigs[1..], k + 1, mail);
      var rest := Process(id + 1, entry, u, now, sigs[1..], k + 1, mail);
      assert forall j :: 0 < j < 1 + |rest.flags| ==> sigs[1..][j - 1] == sigs[j];
    }
  }

  /** The alert after the e-mail step: marked sent, with the send time, when
      the mail went out. */
  function Mailed(a: Alert, sent: bool, now: int): Alert
  {
    if sent then a.(emailSent := true, emailSentAt := Some(now)) else a
  }

  /** The `j`-th alert the loop saves belongs to the `j`-th signal, carries
      the `j`-th fresh id, and records whether the `j`-th mail went out. */
  lemma {:induction false} ProcessAlert(id: AlertId, entry: EntryId, u: Account, now: int, sigs: seq<Signal>, k: nat, mail: seq<bool>, j: nat)
    requires j < LeadingAccepted(sigs)
    ensures Process(id, entry, u, now, sigs, k, mail).alerts[j]
              == AlertFor(sigs[j], id + j, u, entry, now, WantsEmail(u) && Delivered(mail, k + j))
    decreases j
  {
    MailedIsAlertFor(sigs[0], id, u, entry, now, WantsEmail(u) && Delivered(mail, k));
    var a := NewAlert(id, u.id, entry, sigs[0].signalType, sigs[0].severity, sigs[0].message, StoredDetails(sigs[0].details), now).value;
    var rest := Process(id + 1, entry, u, now, sigs[1..], k + 1, mail);
    assert Process(id, entry, u, now, sigs, k, mail).alerts == [Mailed(a, WantsEmail(u) && Delivered(mail, k), now)] + rest.alerts;
    if j > 0 {
      ProcessAlert(id + 1, entry, u, now, sigs[1..], k + 1, mail, j - 1);
      assert sigs[1..][j - 1] == sigs[j];
    }
  }

  /** An accepted signal's new alert, after the e-mail step, is `AlertFor`. */
  lemma MailedIsAlertFor(sig: Signal, id: AlertId, u: Account, entry: EntryId, now: int, sent: bool)
    requires Accepted(sig)
    ensures NewAlert(id, u.id, entry, sig.signalType, sig.severity, sig.message, StoredDetails(sig.details), now).Ok?
    ensures Mailed(NewAlert(id, u.id, entry, sig.signalType, sig.severity, sig.message, StoredDetails(sig.details), now).value, sent, now)
              == AlertFor(sig, id, u, entry, now, sent)
  {
  }

  /** `transaction.save()` of an entry already in the ledger. */
  function SaveEntry(s: Store, e: Entry): (r: Result<Store, SchemaError>)
    ensures r.Ok? <==> FindEntry(s.entries, e.id).Some? && SchemaValid(e)
    ensures r.Ok? ==> r.value == s.(entries := s.entries[FindEntry(s.entries, e.id).value := e])
    ensures r.Ok? ==> r.value.alerts == s.alerts && r.value.users == s.users && r.value.nextId == s.nextId
  {
    match FindEntry(s.entries, e.id)
    case None => Err(SchemaError("_id"))
    case Some(i) =>
      match Validate(e)
      case Err(err) => Err(err)
      case Ok(_) => Ok(s.(entries := s.entries[i := e]))
  }

  /** What `checkFraudRules` leaves in the database, what it returns, and the
      caller's in-memory `transaction` afterwards: the flags pushed onto it
      stay there even when a later step throws and the entry is never saved. */
  datatype PipelineResult = PipelineResult(store: Store, returned: seq<Signal>, entry: Entry)

  /** The body of `checkFraudRules` once the rules have answered: alerts and
      flags for `sigs`, the entry saved only when there is a signal, and any
      failure turned into an empty answer. The in-memory entry carries one
      flag per alert saved before the run ended; the stored entry carries
      them only when the run returned its signals. */
  function RunPipeline(s: Store, e: Entry, u: Account, now: int, sigs: seq<Signal>, mail: seq<bool>): (r: PipelineResult)
    ensures r.store.users == s.users
    ensures |r.store.entries| == |s.entries|
    ensures r.returned == [] || r.returned == sigs
    ensures r.store.alerts == s.alerts + Process(s.nextId, e.id, u, now, sigs, 0, mail).alerts
    ensures r.entry == e.(fraudFlags := e.fraudFlags + Process(s.nextId, e.id, u, now, sigs, 0, mail).flags)
    ensures r.returned == [] ==> r.store.entries == s.entries
    ensures LeadingAccepted(sigs) < |sigs| ==> r.returned == []
    ensures r.returned != [] ==>
      FindEntry(s.entries, e.id).Some? && r.store.entries == s.entries[FindEntry(s.entries, e.id).value := r.entry]
  {
    var p := Process(s.nextId, e.id, u, now, sigs, 0, mail);
    var s1 := AppendAlerts(s, p.alerts);
    var e1 := e.(fraudFlags := e.fraudFlags + p.flags);
    if !p.completed || |sigs| == 0 then PipelineResult(s1, [], e1)
    else
      match SaveEntry(s1, e1)
      case Err(_) => PipelineResult(s1, [], e1)
      case Ok(s2) => PipelineResult(s2, sigs, e1)
  }

  /** `checkFraudRules(transaction, user)`: the rules see the ledger as stored,
      every signal becomes an alert and a flag, the entry is saved only when
      some rule fired, and any failure makes it return no signals. */
  function CheckFraudRules(s: Store, e: Entry, u: Account, c: Clock, mail: seq<bool>): (r: PipelineResult)
    ensures r.store.users == s.users
    ensures |r.store.entries| == |s.entries|
    ensures r.returned == [] || r.returned == Signals(e, s.entries, u, c)
    ensures LeadingAccepted(Signals(e, s.entries, u, c)) < |Signals(e, s.entries, u, c)| ==>
      r.returned == [] && r.store.entries == s.entries
  {
    RunPipeline(s, e, u, c.now, Signals(e, s.entries, u, c), mail)
  }

  /** No signal: nothing is written and nothing is returned. */
  lemma QuietPipeline(s: Store, e: Entry, u: Account, now: int, mail: seq<bool>)
    ensures RunPipeline(s, e, u, now, [], mail) == PipelineResult(s, [], e)
  {
    assert s.alerts + [] == s.alerts;
  }

  /** When every signal passes the alert schema and the entry is stored and
      valid: all signals are returned and the stored entry gains exactly one
      flag per signal, in rule order. */
  lemma PipelineRecordsEverySignal(s: Store, e: Entry, u: Account, now: int, sigs: seq<Signal>, mail: seq<bool>)
    requires FindEntry(s.entries, e.id).Some? && SchemaValid(e) && WellFormed(sigs) && |sigs| > 0
    requires forall i :: 0 <= i < |sigs| ==> Accepted(sigs[i])
    ensures var r := RunPipeline(s, e, u, now, sigs, mail);
      && r.returned == sigs
      && r.store.entries == s.entries[FindEntry(s.entries, e.id).value :=
                                      e.(fraudFlags := e.fraudFlags + FlagsOf(sigs, now))]
  {
    AllAcceptedLeading(sigs);
    FlaggedEntryValid(e, sigs, now);
  }

  /** Whatever else happens, the `j`-th alert appended by the pipeline is the
      `pending` alert of the `j`-th signal, under the `j`-th fresh id, marked
      sent exactly when the user wants mail and the `j`-th mail went out. */
  lemma PipelineAlertsPerSignal(s: Store, e: Entry, u: Account, now: int, sigs: seq<Signal>, mail: seq<bool>)
    ensures var r := RunPipeline(s, e, u, now, sigs, mail);
      && |r.store.alerts| == |s.alerts| + LeadingAccepted(sigs)
      && r.store.alerts[..|s.alerts|] == s.alerts
      && (forall j :: 0 <= j < LeadingAccepted(sigs) ==>
            r.store.alerts[|s.alerts| + j]
              == AlertFor(sigs[j], s.nextId + j, u, e.id, now, WantsEmail(u) && Delivered(mail, j)))
  {
    var p := Process(s.nextId, e.id, u, now, sigs, 0, mail);
    var all := s.alerts + p.alerts;
    assert all[..|s.alerts|] == s.alerts;
    forall j | 0 <= j < |p.alerts|
      ensures all[|s.alerts| + j] == AlertFor(sigs[j], s.nextId + j, u, e.id, now, WantsEmail(u) && Delivered(mail, j))
    {
      ProcessAlert(s.nextId, e.id, u, now, sigs, 0, mail, j);
    }
  }

  /** Adding the flags of well-formed signals keeps an entry schema-valid. */
  lemma FlaggedEntryValid(e: Entry, sigs: seq<Signal>, now: int)
    requires SchemaValid(e) && WellFormed(sigs)
    ensures SchemaValid(e.(fraudFlags := e.fraudFlags + FlagsOf(sigs, now)))
  {
    var e1 := e.(fraudFlags := e.fraudFlags + FlagsOf(sigs, now));
    forall f | f in e1.fraudFlags ensures IsFlagType(f.flagType) {
      if f !in e.fraudFlags {
        var i :| 0 <= i < |FlagsOf(sigs, now)| && FlagsOf(sigs, now)[i] == f;
      }
    }
  }

  lemma {:induction false} AllAcceptedLeading(sigs: seq<Signal>)
    requires forall i :: 0 <= i < |sigs| ==> Accepted(sigs[i])
    ensures LeadingAccepted(sigs) == |sigs|
  {
    if |sigs| > 0 {
      AllAcceptedLeading(sigs[1..]);
    }
  }

  /** When some signal's type is outside the alert enum, the alert save
      throws: nothing is returned, the stored entries are untouched (no flag
      is persisted), and only the alerts of the signals before it were saved. */
  lemma PipelineSwallowsRefusedAlert(s: Store, e: Entry, u: Account, now: int, sigs: seq<Signal>, mail: seq<bool>, i: nat)
    requires i < |sigs| && !IsAlertType(sigs[i].signalType)
    ensures var r := RunPipeline(s, e, u, now, sigs, mail);
      && r.returned == []
      && r.store.entries == s.entries
      && |s.alerts| <= |r.store.alerts| <= |s.alerts| + i
  {
  }

  /** The in-memory entry differs from the one the run started from only in
      its flags: the old ones, then one per alert saved, for the leading
      signals in order. */
  lemma InMemoryFlags(s: Store, e: Entry, u: Account, now: int, sigs: seq<Signal>, mail: seq<bool>)
    ensures var r := RunPipeline(s, e, u, now, sigs, mail);
      && r.entry == e.(fraudFlags := r.entry.fraudFlags)
      && |r.entry.fraudFlags| == |e.fraudFlags| + LeadingAccepted(sigs)
      && r.entry.fraudFlags[..|e.fraudFlags|] == e.fraudFlags
      && forall j :: 0 <= j < LeadingAccepted(sigs) ==> r.entry.fraudFlags[|e.fraudFlags| + j] == FlagOf(sigs[j], now)
    ensures RunPipeline(s, e, u, now, sigs, mail).entry.fraudFlags == e.fraudFlags + FlagsOf(sigs[..LeadingAccepted(sigs)], now)
  {
    var p := Process(s.nextId, e.id, u, now, sigs, 0, mail);
    ProcessFlags(s.nextId, e.id, u, now, sigs, 0, mail);
    assert (e.fraudFlags + p.flags)[..|e.fraudFlags|] == e.fraudFlags;
    assert p.flags == FlagsOf(sigs[..LeadingAccepted(sigs)], now);
  }

  /** With unique ids, the entry stored at the run's own index equals the
      in-memory one exactly when the run returned its signals or pushed no
      flag. */
  lemma PipelineStoresInMemory(s: Store, e: Entry, u: Account, now: int, sigs: seq<Signal>, mail: seq<bool>, i: nat)
    requires Valid(s) && i < |s.entries| && s.entries[i] == e
    ensures var r := RunPipeline(s, e, u, now, sigs, mail);
      r.store.entries[i] == r.entry <==> r.returned != [] || LeadingAccepted(sigs) == 0
  {
    InMemoryFlags(s, e, u, now, sigs, mail);
    var r := RunPipeline(s, e, u, now, sigs, mail);
    if r.returned != [] {
      FindEntryAt(s, i);
      assert r.store.entries[i] == r.entry;
    } else {
      assert r.store.entries[i] == e;
    }
  }

  /** The flags pushed for the accepted signals carry alert types and the
      time of the run. */
  lemma AcceptedFlagsStamped(sigs: seq<Signal>, now: int)
    ensures var flags := FlagsOf(sigs[..LeadingAccepted(sigs)], now);
      forall j :: 0 <= j < |flags| ==> flags[j].flaggedAt == now && IsAlertType(flags[j].flagType)
  {
    var n := LeadingAccepted(sigs);
    assert forall j :: 0 <= j < n ==> sigs[..n][j] == sigs[j] && Accepted(sigs[j]);
  }

  /** When the first signal's alert is saved but a later one is refused, the
      run returns nothing and stores no flag, yet the in-memory entry keeps
      the flags pushed before the failure. */
  lemma InMemoryFlagsOutliveSwallowedRun(s: Store, e: Entry, u: Account, now: int, sigs: seq<Signal>, mail: seq<bool>, i: nat)
    requires 0 < i < |sigs| && Accepted(sigs[0]) && !IsAlertType(sigs[i].signalType)
    ensures var r := RunPipeline(s, e, u, now, sigs, mail);
      && r.returned == [] && r.store.entries == s.entries
      && |e.fraudFlags| < |r.entry.fraudFlags| <= |e.fraudFlags| + i
  {
    InMemoryFlags(s, e, u, now, sigs, mail);
  }

  /** A frequency or night-time signal is outside the alert enum, so it always
      ends the run with nothing returned and no flag stored. */
  lemma FrequencyOrNightAlertIsLost(s: Store, e: Entry, u: Account, c: Clock, mail: seq<bool>)
    requires FrequencyRule(e, s.entries, u, c).Some? || UnusualTimeRule(e, s.entries, u, c).Some?
    ensures CheckFraudRules(s, e, u, c, mail).returned == []
    ensures CheckFraudRules(s, e, u, c, mail).store.entries == s.entries
  {
    RefusedSignalReported(e, s.entries, u, c);
  }

  /** A frequency or night-time signal stops the alert loop early. */
  lemma RefusedSignalReported(e: Entry, es: seq<Entry>, u: Account, c: Clock)
    requires FrequencyRule(e, es, u, c).Some? || UnusualTimeRule(e, es, u, c).Some?
    ensures LeadingAccepted(Signals(e, es, u, c)) < |Signals(e, es, u, c)|
  {
    CollectStopsOnRefused(HighAmountRule(e, es, u, c), CategoryLimitRule(e, es, u, c),
                          FrequencyRule(e, es, u, c), UnusualTimeRule(e, es, u, c));
  }

  /** An amount or category-limit signal heads the batch, and the alert loop
      accepts it. */
  lemma AmountSignalAccepted(e: Entry, es: seq<Entry>, u: Account, c: Clock)
    requires HighAmountRule(e, es, u, c).Some? || CategoryLimitRule(e, es, u, c).Some?
    ensures LeadingAccepted(Signals(e, es, u, c)) > 0
  {
    CollectStartsAccepted(HighAmountRule(e, es, u, c), CategoryLimitRule(e, es, u, c),
                          FrequencyRule(e, es, u, c), UnusualTimeRule(e, es, u, c));
  }

  /** Whatever the last two rules answered, an amount or category-limit
      signal comes first and passes the alert schema. */
  lemma CollectStartsAccepted(h: Option<Signal>, l: Option<Signal>, f: Option<Signal>, t: Option<Signal>)
    requires Labelled(h, HighAmount) && Labelled(l, CategoryLimit)
    requires Labelled(f, FrequentTransactions) && Labelled(t, UnusualTime)
    requires h.Some? || l.Some?
    ensures LeadingAccepted(Collect(h, l, f, t)) > 0
  {
    var r2 := ([] + AsSeq(h)) + AsSeq(l);
    var r3 := r2 + AsSeq(f);
    var r4 := r3 + AsSeq(t);
    assert r2[0] == if h.Some? then h.value else l.value;
    KeepsStart(r2, AsSeq(f));
    KeepsStart(r3, AsSeq(t));
    assert Collect(h, l, f, t) == r4;
  }

  /** Signals appended after an accepted first one leave it first. */
  lemma KeepsStart(acc: seq<Signal>, rest: seq<Signal>)
    requires |acc| > 0 && Accepted(acc[0])
    ensures |acc + rest| > 0 && Accepted((acc + rest)[0])
    ensures LeadingAccepted(acc + rest) > 0
  {
  }

  /** Whatever the first two rules answered, a frequency or night-time signal
      in the batch is one the alert loop cannot get past. */
  lemma CollectStopsOnRefused(h: Option<Signal>, l: Option<Signal>, f: Option<Signal>, t: Option<Signal>)
    requires Labelled(h, HighAmount) && Labelled(l, CategoryLimit)
    requires Labelled(f, FrequentTransactions) && Labelled(t, UnusualTime)
    requires f.Some? || t.Some?
    ensures LeadingAccepted(Collect(h, l, f, t)) < |Collect(h, l, f, t)|
  {
    var r2 := ([] + AsSeq(h)) + AsSeq(l);
    var r3 := r2 + AsSeq(f);
    var r4 := r3 + AsSeq(t);
    if f.Some? {
      StopsAtRefused(r2, f.value);
      StaysStopped(r3, AsSeq(t));
    } else {
      StopsAtRefused(r3, t.value);
    }
    assert Collect(h, l, f, t) == r4;
  }

  /** A signal outside the alert enum stops the loop at or before it. */
  lemma {:induction false} StopsAtRefused(acc: seq<Signal>, x: Signal)
    requires !IsAlertType(x.signalType)
    ensures LeadingAccepted(acc + [x]) < |acc + [x]|
  {
    if |acc| > 0 && Accepted(acc[0]) {
      StopsAtRefused(acc[1..], x);
      assert (acc + [x])[1..] == acc[1..] + [x];
    }
  }

  /** Once the loop has stopped, later signals change nothing. */
  lemma {:induction false} StaysStopped(acc: seq<Signal>, more: seq<Signal>)
    requires LeadingAccepted(acc) < |acc|
    ensures LeadingAccepted(acc + more) == LeadingAccepted(acc)
  {
    if Accepted(acc[0]) {
      StaysStopped(acc[1..], more);
      assert (acc + more)[1..] == acc[1..] + more;
    }
  }

  /** The pipeline keeps the store's id invariant: it only appends alerts
      under fresh ids and rewrites one entry in place under its own id. */
  lemma PipelineKeepsIdsValid(s: Store, e: Entry, u: Account, now: int, sigs: seq<Signal>, mail: seq<bool>)
    requires Valid(s)
    ensures Valid(RunPipeline(s, e, u, now, sigs, mail).store)
  {
    var p := Process(s.nextId, e.id, u, now, sigs, 0, mail);
    var s1 := AppendAlerts(s, p.alerts);
    var e1 := e.(fraudFlags := e.fraudFlags + p.flags);
    if p.completed && |sigs| > 0 && SaveEntry(s1, e1).Ok? {
      var s2 := SaveEntry(s1, e1).value;
      assert forall j :: 0 <= j < |s2.entries| ==> s2.entries[j].id == s1.entries[j].id;
    }
  }

  // ---------------------------------------------------------------- risk score

  function SeverityWeight(s: Severity): nat
  {
    match s
    case High => 30
    case Medium => 20
    case Low => 10
  }

  function Weights(sigs: seq<Signal>): nat
  {
    if |sigs| == 0 then 0 else SeverityWeight(sigs[0].severity) + Weights(sigs[1..])
  }

  /** `!merchant || merchant.trim() === ''`. */
  predicate MerchantMissing(e: Entry)
  {
    e.merchant.None? || |Trim(e.merchant.value)| == 0
  }

  /** The score before the cap at 100. */
  function UncappedRisk(returned: seq<Signal>, e: Entry): nat
  {
    Weights(returned) + (if e.amount > 1000.0 then 15 else 0) + (if MerchantMissing(e) then 5 else 0)
  }

  /** 30/20/10 per returned signal by severity, 15 for an amount above 1000,
      5 for a missing or blank merchant, capped at 100. */
  function RiskScore(returned: seq<Signal>, e: Entry): (r: int)
    ensures 0 <= r <= 100
    ensures r == 100 <==> UncappedRisk(returned, e) >= 100
    ensures r < 100 ==> r == UncappedRisk(returned, e)
  {
    var raw := UncappedRisk(returned, e);
    if raw < 100 then raw else 100
  }

  /** Every returned signal adds at least 10 points, at most 30. */
  lemma {:induction false} WeightsBounds(sigs: seq<Signal>)
    ensures 10 * |sigs| <= Weights(sigs) <= 30 * |sigs|
  {
    if |sigs| > 0 {
      WeightsBounds(sigs[1..]);
    }
  }

  /** `calculateRiskScore`: runs the pipeline (with all its writes) and scores
      what it returned. */
  function CalculateRiskScore(s: Store, e: Entry, u: Account, c: Clock, mail: seq<bool>): (r: (Store, int))
    ensures r.0 == CheckFraudRules(s, e, u, c, mail).store
    ensures r.1 == RiskScore(CheckFraudRules(s, e, u, c, mail).returned, e)
    ensures 0 <= r.1 <= 100
  {
    var p := CheckFraudRules(s, e, u, c, mail);
    (p.store, RiskScore(p.returned, e))
  }

  /** When the pipeline swallowed a refused alert, only the amount and
      merchant terms remain, so the score is at most 20. */
  lemma SwallowedPipelineScoresLow(s: Store, e: Entry, u: Account, c: Clock, mail: seq<bool>)
    requires FrequencyRule(e, s.entries, u, c).Some? || UnusualTimeRule(e, s.entries, u, c).Some?
    ensures CalculateRiskScore(s, e, u, c, mail).1 <= 20
  {
    FrequencyOrNightAlertIsLost(s, e, u, c, mail);
  }

  /** Without a frequency or night-time signal, on a stored and valid entry,
      the run returns every signal and the score counts each of them: at
      least 10 points per signal. */
  lemma QuietRunScoresEverySignal(s: Store, e: Entry, u: Account, c: Clock, mail: seq<bool>)
    requires FindEntry(s.entries, e.id).Some? && SchemaValid(e)
    requires FrequencyRule(e, s.entries, u, c).None? && UnusualTimeRule(e, s.entries, u, c).None?
    ensures var sigs := Signals(e, s.entries, u, c);
      && CheckFraudRules(s, e, u, c, mail).returned == sigs
      && CalculateRiskScore(s, e, u, c, mail).1 >= 10 * |sigs|
  {
    var sigs := Signals(e, s.entries, u, c);
    CollectAcceptedWhenQuiet(HighAmountRule(e, s.entries, u, c), CategoryLimitRule(e, s.entries, u, c),
                             FrequencyRule(e, s.entries, u, c), UnusualTimeRule(e, s.entries, u, c));
    if |sigs| > 0 {
      PipelineRecordsEverySignal(s, e, u, c.now, sigs, mail);
    }
    RiskScoreLowerBound(sigs, e);
  }

  /** With no frequency or night-time answer, the batch holds at most the
      high-amount and category-limit signals, both of which the alert schema
      accepts. */
  lemma CollectAcceptedWhenQuiet(h: Option<Signal>, l: Option<Signal>, f: Option<Signal>, t: Option<Signal>)
    requires Labelled(h, HighAmount) && Labelled(l, CategoryLimit)
    requires Labelled(f, FrequentTransactions) && Labelled(t, UnusualTime)
    requires f.None? && t.None?
    ensures |Collect(h, l, f, t)| <= 2
    ensures forall i :: 0 <= i < |Collect(h, l, f, t)| ==> Accepted(Collect(h, l, f, t)[i])
  {
    assert Collect(h, l, f, t) == AsSeq(h) + AsSeq(l);
  }

  /** The score grows with the signals: at least 10 per signal, up to the cap. */
  lemma RiskScoreLowerBound(returned: seq<Signal>, e: Entry)
    ensures RiskScore(returned, e) >= if 10 * |returned| < 100 then 10 * |returned| else 100
  {
    WeightsBounds(returned);
  }

  // -------------------------------------------------------------- fraud report

  function InReportWindow(user: UserId, start: int, end: int): Alert -> bool
  {
    (a: Alert) => a.user == user && start <= a.createdAt <= end
  }

  function HasSeverity(s: Severity): Alert -> bool { (a: Alert) => a.severity == s }

  function HasStatus(s: AlertStatus): Alert -> bool { (a: Alert) => a.status == s }

  function AlertLabel(a: Alert): TypeLabel { a.alertType }

  function One(a: Alert): real { 1.0 }

  /** `populate('transaction')`: the referenced entry, if it still exists. */
  function HasEntry(es: seq<Entry>): Alert -> bool
  {
    (a: Alert) => FindEntry(es, a.transaction).Some?
  }

  /** `alert.transaction?.amount || 0`. */
  function FlaggedAmount(es: seq<Entry>): Alert -> real
  {
    (a: Alert) => match FindEntry(es, a.transaction) case Some(i) => es[i].amount case None => 0.0
  }

  datatype Summary = Summary(totalAlerts: nat, highSeverity: nat, mediumSeverity: nat, lowSeverity: nat,
                             confirmedFraud: nat, dismissed: nat)

  datatype ReportRow = ReportRow(id: AlertId, alertType: TypeLabel, severity: Severity, message: string,
                                 status: AlertStatus, amount: real, date: int)

  datatype Report = Report(summary: Summary, byType: seq<Group<TypeLabel>>, totalFlaggedAmount: real, alerts: seq<ReportRow>)

  function Row(es: seq<Entry>, a: Alert): ReportRow
  {
    ReportRow(a.id, a.alertType, a.severity, a.message, a.status, FlaggedAmount(es)(a), a.createdAt)
  }

  function Rows(es: seq<Entry>, alerts: seq<Alert>): (r: seq<ReportRow>)
    ensures |r| == |alerts| && forall i :: 0 <= i < |alerts| ==> r[i] == Row(es, alerts[i])
  {
    if |alerts| == 0 then [] else [Row(es, alerts[0])] + Rows(es, alerts[1..])
  }

  /** `generateFraudReport(userId, startDate, endDate)`: the caller's alerts
      created inside the inclusive window, summarised and listed one row each
      in store order. */
  function GenerateFraudReport(s: Store, user: UserId, start: int, end: int): (r: Report)
    ensures r.summary.totalAlerts == Count(s.alerts, InReportWindow(user, start, end)) == |r.alerts|
    ensures r.summary.confirmedFraud + r.summary.dismissed <= r.summary.totalAlerts
    ensures forall i :: 0 <= i < |r.alerts| ==>
      exists k :: 0 <= k < |s.alerts| && InReportWindow(user, start, end)(s.alerts[k]) && r.alerts[i] == Row(s.entries, s.alerts[k])
  {
    var alerts := Filter(s.alerts, InReportWindow(user, start, end));
    StatusCountsBound(alerts);
    assert forall i :: 0 <= i < |alerts| ==> alerts[i] in s.alerts;
    var summary := Summary(|alerts|, Count(alerts, HasSeverity(High)), Count(alerts, HasSeverity(Medium)),
                           Count(alerts, HasSeverity(Low)), Count(alerts, HasStatus(Confirmed)),
                           Count(alerts, HasStatus(Dismissed)));
    Report(summary, GroupBy(alerts, AlertLabel, One),
           Sum(Filter(alerts, HasEntry(s.entries)), FlaggedAmount(s.entries)),
           Rows(s.entries, alerts))
  }

  /** An alert is confirmed or dismissed, never both. */
  lemma {:induction false} StatusCountsBound(alerts: seq<Alert>)
    ensures Count(alerts, HasStatus(Confirmed)) + Count(alerts, HasStatus(Dismissed)) <= |alerts|
  {
    if |alerts| > 0 {
      StatusCountsBound(alerts[1..]);
    }
  }

  lemma {:induction false} SeverityCountsPartition(alerts: seq<Alert>)
    ensures Count(alerts, HasSeverity(High)) + Count(alerts, HasSeverity(Medium)) + Count(alerts, HasSeverity(Low)) == |alerts|
  {
    if |alerts| > 0 {
      SeverityCountsPartition(alerts[1..]);
    }
  }

  /** Summing only the alerts whose entry still exists is the same as summing
      every alert with 0 for a missing entry. */
  lemma {:induction false} FlaggedSumSkipsMissing(es: seq<Entry>, alerts: seq<Alert>)
    ensures Sum(Filter(alerts, HasEntry(es)), FlaggedAmount(es)) == Sum(alerts, FlaggedAmount(es))
  {
    if |alerts| > 0 {
      FlaggedSumSkipsMissing(es, alerts[1..]);
    }
  }

  /** The severity counts and the per-type counts each add up to the number
      of alerts in the report, each type appears once, and the flagged total
      is the sum of the rows' amounts. */
  lemma ReportIsConsistent(s: Store, user: UserId, start: int, end: int)
    ensures var r := GenerateFraudReport(s, user, start, end);
      && r.summary.highSeverity + r.summary.mediumSeverity + r.summary.lowSeverity == r.summary.totalAlerts
      && Sum(r.byType, GroupCount) == r.summary.totalAlerts as real
      && DistinctKeys(r.byType)
      && |r.alerts| == r.summary.totalAlerts
      && r.totalFlaggedAmount == Sum(Filter(s.alerts, InReportWindow(user, start, end)), FlaggedAmount(s.entries))
  {
    var alerts := Filter(s.alerts, InReportWindow(user, start, end));
    SeverityCountsPartition(alerts);
    GroupByShape(alerts, AlertLabel, One);
    FlaggedSumSkipsMissing(s.entries, alerts);
  }
}

=== FILE: fraud_routes.dfy ===
/** The fraud-alert routes of `server/routes/fraud.js`: the filtered alert
    list (the user's and the administrator's), fetching one alert, the review
    transition and the per-status, per-severity and per-type summary. */
module FraudRoutes {
  import opened Wrappers
  import opened Seqs
  import opened Sorting
  import opened Grouping
  import opened Text
  import opened Http
  import opened Paging
  import opened TransactionModel
  import opened FraudAlertModel
  import opened Store
  import opened FraudDetection

  // --------------------------------------------------------------------- list

  /** A query-string filter is applied only when it is present and not empty
      (`if (req.query.status)`). */
  predicate Given(o: Option<string>)
  {
    o.Some? && |o.value| > 0
  }

  /** The `find(filters)` of the list routes: the owner (absent for the
      administrator's list) and the optional status and severity, compared by
      name. */
  function Matches(owner: Option<UserId>, status: Option<string>, severity: Option<string>): Alert -> bool
  {
    (a: Alert) =>
      && (owner.None? || a.user == owner.value)
      && (!Given(status) || StatusName(a.status) == status.value)
      && (!Given(severity) || SeverityName(a.severity) == severity.value)
  }

  /** `sort({ createdAt: -1 })` orders by this key. */
  function CreatedKey(a: Alert): real
  {
    a.createdAt as real
  }

  /** The alerts `find(filters)` returns, newest first: each stored match
      exactly as often as it is stored. */
  function AlertsMatching(s: Store, owner: Option<UserId>, status: Option<string>, severity: Option<string>): (r: seq<Alert>)
    ensures SortedDesc(r, CreatedKey)
    ensures |r| == Count(s.alerts, Matches(owner, status, severity))
    ensures multiset(r) == multiset(Filter(s.alerts, Matches(owner, status, severity)))
    ensures forall a :: a in r <==> a in s.alerts && Matches(owner, status, severity)(a)
  {
    var f := Filter(s.alerts, Matches(owner, status, severity));
    var r := SortDesc(f, CreatedKey);
    assert forall a :: a in r <==> a in f by {
      forall a ensures a in r <==> a in f {
        assert a in r <==> a in multiset(r);
        assert a in f <==> a in multiset(f);
      }
    }
    assert forall a :: a in f <==> a in s.alerts && Matches(owner, status, severity)(a) by {
      forall a | a in s.alerts && Matches(owner, status, severity)(a) ensures a in f {
        var i :| 0 <= i < |s.alerts| && s.alerts[i] == a;
      }
      forall a | a in f ensures a in s.alerts && Matches(owner, status, severity)(a) {
        var i :| 0 <= i < |f| && f[i] == a;
      }
    }
    r
  }

  /** `GET /alerts` (owner given, 20 to a page) and `GET /admin/alerts` (no
      owner, 50 to a page): the matching alerts, newest first, one page: the
      skip/limit window of the sorted matches, which lists no alert more
      often than it matches. */
  function ListAlerts(s: Store, owner: Option<UserId>, status: Option<string>, severity: Option<string>,
                      q: PageQuery, defaultLimit: int): (r: Reply<(seq<Alert>, Pagination)>)
    requires defaultLimit > 0
    ensures r.Ok? <==> Skip(q, defaultLimit) >= 0
    ensures r.Err? ==> r.error == Fail(ServerError, "Server error fetching fraud alerts")
    ensures r.Ok? ==> r.value.1.total == Count(s.alerts, Matches(owner, status, severity))
    ensures r.Ok? ==> forall i :: 0 <= i < |r.value.0| ==>
                        r.value.0[i] in s.alerts && Matches(owner, status, severity)(r.value.0[i])
    ensures r.Ok? ==> SortedDesc(r.value.0, CreatedKey)
    ensures r.Ok? ==> multiset(r.value.0) <= multiset(Filter(s.alerts, Matches(owner, status, severity)))
    ensures r.Ok? ==> r.value.1.limit != 0
                      && r.value.0 == Window(AlertsMatching(s, owner, status, severity), Skip(q, defaultLimit), r.value.1.limit)
  {
    var sorted := AlertsMatching(s, owner, status, severity);
    var r := Paginate(sorted, q, defaultLimit, "Server error fetching fraud alerts");
    if r.Ok? then
      var page := r.value.0;
      WindowSorted(sorted, Skip(q, defaultLimit), r.value.1.limit, CreatedKey);
      assert multiset(page) <= multiset(sorted);
      assert forall i :: 0 <= i < |page| ==> page[i] in sorted;
      r
    else r
  }

  /** A first page at least as long as the match count is every match,
      newest first. */
  lemma ListAlertsFirstPageIsAll(s: Store, owner: Option<UserId>, status: Option<string>, severity: Option<string>,
                                 defaultLimit: int)
    requires defaultLimit > 0
    ensures var q := PageQuery(Some(1), Some(Count(s.alerts, Matches(owner, status, severity)) + 1));
      var r := ListAlerts(s, owner, status, severity, q, defaultLimit);
      r.Ok? && r.value.0 == AlertsMatching(s, owner, status, severity)
  {
    var sorted := AlertsMatching(s, owner, status, severity);
    var q := PageQuery(Some(1), Some(|sorted| + 1));
    assert Skip(q, defaultLimit) == 0;
    WindowAll(sorted, |sorted| + 1);
  }

  /** Hence no matching alert is out of reach of the listing. */
  lemma ListAlertsHoldsEveryMatch(s: Store, owner: Option<UserId>, status: Option<string>, severity: Option<string>,
                                  defaultLimit: int, a: Alert)
    requires defaultLimit > 0
    requires a in s.alerts && Matches(owner, status, severity)(a)
    ensures var q := PageQuery(Some(1), Some(Count(s.alerts, Matches(owner, status, severity)) + 1));
      var r := ListAlerts(s, owner, status, severity, q, defaultLimit);
      r.Ok? && a in r.value.0
  {
    ListAlertsFirstPageIsAll(s, owner, status, severity, defaultLimit);
  }

  /** A status filter selects exactly the alerts in that state: filtering a
      user's alerts by each of the four status names in turn splits them. */
  lemma StatusFiltersPartition(s: Store, user: UserId)
    ensures Count(s.alerts, Matches(Some(user), Some("pending"), None))
            + Count(s.alerts, Matches(Some(user), Some("reviewed"), None))
            + Count(s.alerts, Matches(Some(user), Some("dismissed"), None))
            + Count(s.alerts, Matches(Some(user), Some("confirmed"), None))
            == Count(s.alerts, Matches(Some(user), None, None))
  {
    StatusCountsSplit(s.alerts, user);
  }

  lemma {:induction false} StatusCountsSplit(alerts: seq<Alert>, user: UserId)
    ensures Count(alerts, Matches(Some(user), Some("pending"), None))
            + Count(alerts, Matches(Some(user), Some("reviewed"), None))
            + Count(alerts, Matches(Some(user), Some("dismissed"), None))
            + Count(alerts, Matches(Some(user), Some("confirmed"), None))
            == Count(alerts, Matches(Some(user), None, None))
  {
    if |alerts| > 0 {
      StatusCountsSplit(alerts[1..], user);
    }
  }

  /** `GET /alerts/:id`: only the caller's own alert is found. */
  function GetAlert(s: Store, user: UserId, id: AlertId): (r: Reply<Alert>)
    ensures r.Ok? <==> exists i :: 0 <= i < |s.alerts| && s.alerts[i].id == id && s.alerts[i].user == user
    ensures r.Ok? ==> r.value in s.alerts && r.value.id == id && r.value.user == user
    ensures r.Err? ==> r.error == Fail(NotFound, "Fraud alert not found")
  {
    match FindOwnedAlert(s.alerts, id, user)
    case None => Err(Fail(NotFound, "Fraud alert not found"))
    case Some(i) => Ok(s.alerts[i])
  }

  // ------------------------------------------------------------------- review

  /** The statuses a review may set: every status except `pending`. */
  function ReviewTarget(status: Option<string>): (r: Option<AlertStatus>)
    ensures r.Some? <==> status.Some? && status.value in ["reviewed", "dismissed", "confirmed"]
    ensures r.Some? ==> r.value != Pending && StatusName(r.value) == status.value
  {
    if status.None? then None
    else if status.value == "reviewed" then Some(Reviewed)
    else if status.value == "dismissed" then Some(Dismissed)
    else if status.value == "confirmed" then Some(Confirmed)
    else None
  }

  const ConfirmedMessage: string := "Confirmed by user review"

  /** The flag a confirmation pushes onto the alert's entry. */
  function ConfirmationFlag(a: Alert, now: int): FraudFlag
  {
    FraudFlag(a.alertType, a.severity, ConfirmedMessage, now)
  }

  /** The `$push` of a confirmation. `findByIdAndUpdate` runs no validators
      and a missing entry is no error, so the flag is appended as it is, and
      nothing happens when the entry is gone. */
  function PushFlag(es: seq<Entry>, id: EntryId, flag: FraudFlag): (r: seq<Entry>)
    ensures |r| == |es|
    ensures FindEntry(es, id).None? ==> r == es
    ensures FindEntry(es, id).Some? ==> var j := FindEntry(es, id).value;
              && r[j].fraudFlags == es[j].fraudFlags + [flag]
              && r[j] == es[j].(fraudFlags := es[j].fraudFlags + [flag])
              && forall k :: 0 <= k < |es| && k != j ==> r[k] == es[k]
  {
    match FindEntry(es, id)
    case None => es
    case Some(j) => es[j := es[j].(fraudFlags := es[j].fraudFlags + [flag])]
  }

  /** The alert after review: status, notes, reviewer and review time set.
      The schema trims `notes` on assignment, and an absent `notes` clears
      them. */
  function AfterReview(a: Alert, status: AlertStatus, notes: Option<string>, user: UserId, now: int): (r: Alert)
    ensures r.status == status && r.reviewedBy == Some(user) && r.reviewedAt == Some(now)
    ensures r.notes.Some? <==> notes.Some?
    ensures r.notes.Some? ==> |r.notes.value| <= |notes.value| && Trim(r.notes.value) == r.notes.value
    ensures r.(status := a.status, notes := a.notes, reviewedBy := a.reviewedBy, reviewedAt := a.reviewedAt) == a
  {
    TrimIdempotent(notes.GetOr(""));
    a.(status := status, notes := TrimOpt(notes), reviewedBy := Some(user), reviewedAt := Some(now))
  }

  /** `PUT /alerts/:id/review`. The alert's current status is not checked, so
      any alert, pending or not, can be reviewed again. A `save()` that fails
      validation is a server error. */
  function Review(s: Store, user: UserId, id: AlertId, status: Option<string>, notes: Option<string>, now: int): (r: Reply<(Store, Alert)>)
    ensures ReviewTarget(status).None? ==> r == Err(Fail(BadRequest, "Invalid status"))
    ensures ReviewTarget(status).Some? && FindOwnedAlert(s.alerts, id, user).None? ==> r == Err(Fail(NotFound, "Fraud alert not found"))
    ensures r.Ok? <==> && ReviewTarget(status).Some? && FindOwnedAlert(s.alerts, id, user).Some?
                       && AlertValid(s.alerts[FindOwnedAlert(s.alerts, id, user).value])
    ensures r.Ok? ==> r.value.1.status != Pending && r.value.1.reviewedBy == Some(user)
    ensures r.Ok? ==> && r.value.1.status == ReviewTarget(status).value && r.value.1.reviewedAt == Some(now)
                      && r.value.1.notes == TrimOpt(notes)
    ensures r.Ok? ==> r.value.0.users == s.users && r.value.0.nextId == s.nextId
  {
    match ReviewTarget(status)
    case None => Err(Fail(BadRequest, "Invalid status"))
    case Some(st) =>
      match FindOwnedAlert(s.alerts, id, user)
      case None => Err(Fail(NotFound, "Fraud alert not found"))
      case Some(i) =>
        var a := AfterReview(s.alerts[i], st, notes, user, now);
        if !AlertValid(a) then Err(Fail(ServerError, "Server error reviewing fraud alert"))
        else
          var entries := if st == Confirmed then PushFlag(s.entries, a.transaction, ConfirmationFlag(a, now)) else s.entries;
          Ok((s.(alerts := s.alerts[i := a], entries := entries), a))
  }

  /** A review rewrites only the four review fields of the one alert it
      targets; every other field of it, and every other alert, is kept. */
  lemma ReviewChangesOnlyReviewFields(s: Store, user: UserId, id: AlertId, status: Option<string>, notes: Option<string>, now: int)
    requires Review(s, user, id, status, notes, now).Ok?
    ensures var (t, a) := Review(s, user, id, status, notes, now).value;
            var i := FindOwnedAlert(s.alerts, id, user).value;
            var prior := s.alerts[i];
            && |t.alerts| == |s.alerts| && t.alerts[i] == a
            && (forall k :: 0 <= k < |s.alerts| && k != i ==> t.alerts[k] == s.alerts[k])
            && a.id == prior.id == id && a.user == prior.user == user && a.transaction == prior.transaction
            && a.alertType == prior.alertType && a.severity == prior.severity && a.message == prior.message
            && a.details == prior.details && a.emailSent == prior.emailSent && a.emailSentAt == prior.emailSentAt
            && a.createdAt == prior.createdAt
            && StatusName(a.status) == status.value && a.notes == TrimOpt(notes) && a.reviewedAt == Some(now)
  {
  }

  /** Only a confirmation touches the ledger: it appends exactly one flag,
      with the alert's type and severity, to the alert's entry, and changes
      nothing else there. */
  lemma ReviewFlagsOnlyOnConfirm(s: Store, user: UserId, id: AlertId, status: Option<string>, notes: Option<string>, now: int)
    requires Review(s, user, id, status, notes, now).Ok?
    ensures var (t, a) := Review(s, user, id, status, notes, now).value;
            && |t.entries| == |s.entries|
            && (a.status != Confirmed ==> t.entries == s.entries)
            && (a.status == Confirmed && FindEntry(s.entries, a.transaction).Some? ==>
                  var j := FindEntry(s.entries, a.transaction).value;
                  && t.entries[j].fraudFlags == s.entries[j].fraudFlags + [FraudFlag(a.alertType, a.severity, ConfirmedMessage, now)]
                  && forall k :: 0 <= k < |s.entries| && k != j ==> t.entries[k] == s.entries[k])
  {
  }

  /** There is no guard on the current status: a valid alert that was
      already confirmed (or dismissed) can be reviewed again and its decision
      overwritten. */
  lemma ReviewOverwritesDecision(s: Store, user: UserId, id: AlertId, now: int)
    requires FindOwnedAlert(s.alerts, id, user).Some?
    requires s.alerts[FindOwnedAlert(s.alerts, id, user).value].status == Confirmed
    requires AlertValid(s.alerts[FindOwnedAlert(s.alerts, id, user).value])
    ensures var r := Review(s, user, id, Some("dismissed"), None, now);
            r.Ok? && r.value.1.status == Dismissed
  {
  }

  /** `pending` is not a review target, so a review never puts an alert back
      in the queue. */
  lemma ReviewNeverReopens(s: Store, user: UserId, id: AlertId, notes: Option<string>, now: int)
    ensures Review(s, user, id, Some("pending"), notes, now) == Err(Fail(BadRequest, "Invalid status"))
  {
  }

  // ------------------------------------------------------------------ summary

  function StatusOf(a: Alert): AlertStatus { a.status }

  function SeverityOf(a: Alert): Severity { a.severity }

  function IsOwnedBy(user: UserId): Alert -> bool { (a: Alert) => a.user == user }

  datatype AlertSummary = AlertSummary(
    byStatus: seq<Group<AlertStatus>>,
    bySeverity: seq<Group<Severity>>,
    byType: seq<Group<TypeLabel>>,
    recent: seq<Alert>)

  /** `GET /summary`: the caller's alerts counted by status, severity and
      type, and the five newest: as many as the caller has, up to five, none
      listed more often than it is stored, and none of the caller's alerts
      left out is newer than the last one listed. */
  function AlertSummaryOf(s: Store, user: UserId): (r: AlertSummary)
    ensures |r.recent| == Min(5, Count(s.alerts, IsOwnedBy(user)))
    ensures SortedDesc(r.recent, CreatedKey)
    ensures multiset(r.recent) <= multiset(Filter(s.alerts, IsOwnedBy(user)))
    ensures forall i :: 0 <= i < |r.recent| ==> r.recent[i] in s.alerts && r.recent[i].user == user
    ensures forall a :: a in s.alerts && a.user == user && a !in r.recent ==>
              |r.recent| == 5 && CreatedKey(a) <= CreatedKey(r.recent[4])
  {
    var mine := Filter(s.alerts, IsOwnedBy(user));
    var recent := Newest(mine, CreatedKey, 5);
    assert forall a :: a in s.alerts && a.user == user ==> a in mine by {
      forall a | a in s.alerts && a.user == user ensures a in mine {
        var i :| 0 <= i < |s.alerts| && s.alerts[i] == a;
      }
    }
    AlertSummary(GroupBy(mine, StatusOf, One), GroupBy(mine, SeverityOf, One), GroupBy(mine, AlertLabel, One), recent)
  }

  /** Each of the three groupings has one group per value, and its counts add
      up to the caller's number of alerts; the status count of a state is the
      number of the caller's alerts in it. */
  lemma SummaryCountsAddUp(s: Store, user: UserId, st: AlertStatus)
    ensures var r := AlertSummaryOf(s, user);
            var total := Count(s.alerts, IsOwnedBy(user));
            && DistinctKeys(r.byStatus) && DistinctKeys(r.bySeverity) && DistinctKeys(r.byType)
            && Sum(r.byStatus, GroupCount) == total as real
            && Sum(r.bySeverity, GroupCount) == total as real
            && Sum(r.byType, GroupCount) == total as real
            && CountOf(r.byStatus, st) == CountForKey(Filter(s.alerts, IsOwnedBy(user)), StatusOf, st)
  {
    var mine := Filter(s.alerts, IsOwnedBy(user));
    GroupByShape(mine, StatusOf, One);
    GroupByShape(mine, SeverityOf, One);
    GroupByShape(mine, AlertLabel, One);
    GroupByLookup(mine, StatusOf, One, st);
  }
}

=== FILE: fraud_rules.dfy ===
/** The four fraud rules of `server/utils/fraudDetection.js`. Each is a pure
    function of the new ledger entry, the ledger as stored (which already holds
    that entry), the owning account and the clock, and yields at most one
    signal. */
module FraudRules {
  import opened Wrappers
  import opened Seqs
  import opened Grouping
  import opened TransactionModel
  import opened Store

  const HourMs: int := 60 * 60 * 1000
  const ThirtyDaysMs: int := 30 * 24 * 60 * 60 * 1000

  /** The clock readings the rules take: `Date.now()` and the local midnight
      that starts the current month. */
  datatype Clock = Clock(now: int, startOfMonth: int)

  /** A rule's `details`: every key any rule sets. */
  datatype SignalDetails = SignalDetails(
    threshold: Option<real>,
    actualAmount: Option<real>,
    category: Option<string>,
    percentage: Option<real>,
    timeframe: Option<string>,
    hour: Option<int>)

  /** One rule's finding, before it becomes an alert. */
  datatype Signal = Signal(signalType: TypeLabel, severity: Severity, message: string, details: SignalDetails)

  function Amount(e: Entry): real { e.amount }

  function EntryMonth(e: Entry): int { e.date.utcMonth }

  // ---------------------------------------------------------------- high amount

  /** The user's expenses dated before the start of the current month. */
  function IsPriorExpense(user: UserId, startOfMonth: int): Entry -> bool
  {
    (e: Entry) => e.user == user && e.kind == Expense && e.date.ms < startOfMonth
  }

  /** Per-month expense totals before the current month (`$group` by year and month). */
  function MonthlyTotals(es: seq<Entry>, user: UserId, startOfMonth: int): (r: seq<Group<int>>)
    ensures DistinctKeys(r)
    ensures Sum(r, GroupTotal) == Sum(Filter(es, IsPriorExpense(user, startOfMonth)), Amount)
    ensures Sum(r, GroupCount) == Count(es, IsPriorExpense(user, startOfMonth)) as real
    ensures Count(es, IsPriorExpense(user, startOfMonth)) == 0 ==> r == []
  {
    var prior := Filter(es, IsPriorExpense(user, startOfMonth));
    GroupByShape(prior, EntryMonth, Amount);
    GroupBy(prior, EntryMonth, Amount)
  }

  /** `$avg` of the monthly totals, or 0 when there is no month at all. */
  function AverageMonthlySpending(es: seq<Entry>, user: UserId, startOfMonth: int): (r: real)
    ensures Count(es, IsPriorExpense(user, startOfMonth)) == 0 ==> r == 0.0
    ensures var n := |MonthlyTotals(es, user, startOfMonth)|;
      n > 0 ==> r == Sum(Filter(es, IsPriorExpense(user, startOfMonth)), Amount) / n as real
  {
    var totals := MonthlyTotals(es, user, startOfMonth);
    if |totals| == 0 then 0.0 else Sum(totals, GroupTotal) / |totals| as real
  }

  /** Flags an expense above 10% of the average monthly spending of earlier
      months; `high` above twice that threshold, `medium` otherwise. */
  function HighAmountRule(e: Entry, es: seq<Entry>, u: Account, c: Clock): (r: Option<Signal>)
    ensures var avg := AverageMonthlySpending(es, u.id, c.startOfMonth);
      r.Some? <==> e.kind == Expense && avg > 0.0 && e.amount > avg * 0.1
    ensures r.Some? ==> (r.value.signalType == HighAmount
      && (r.value.severity == High <==> e.amount > AverageMonthlySpending(es, u.id, c.startOfMonth) * 0.2)
      && r.value.severity != Low && |r.value.message| > 0)
  {
    if e.kind != Expense then None
    else
      var avg := AverageMonthlySpending(es, u.id, c.startOfMonth);
      var threshold := avg * 0.1;
      if avg > 0.0 && e.amount > threshold then
        Some(Signal(HighAmount, if e.amount > threshold * 2.0 then High else Medium,
                    "High amount transaction exceeds typical spending pattern",
                    SignalDetails(Some(threshold), Some(e.amount), None, None, None, None)))
      else None
  }

  /** The average is the total of earlier-month expenses divided by the number
      of distinct months they fall in: the groups have pairwise distinct
      months, every earlier expense's month has a group, every group's month
      is the month of an earlier expense, and the group totals add up to the
      expenses' total. */
  lemma AverageIsTotalOverMonths(es: seq<Entry>, user: UserId, startOfMonth: int)
    ensures var prior := Filter(es, IsPriorExpense(user, startOfMonth));
            var totals := MonthlyTotals(es, user, startOfMonth);
      && DistinctKeys(totals)
      && (forall i :: 0 <= i < |es| && IsPriorExpense(user, startOfMonth)(es[i]) ==> HasKey(totals, es[i].date.utcMonth))
      && (forall j :: 0 <= j < |totals| ==>
            exists i :: 0 <= i < |es| && IsPriorExpense(user, startOfMonth)(es[i]) && es[i].date.utcMonth == totals[j].key)
      && (|prior| == 0 <==> |totals| == 0)
      && AverageMonthlySpending(es, user, startOfMonth)
           == if |prior| == 0 then 0.0 else Sum(prior, Amount) / |totals| as real
  {
    var prior := Filter(es, IsPriorExpense(user, startOfMonth));
    GroupByShape(prior, EntryMonth, Amount);
    MonthsOfPriorExpenses(es, user, startOfMonth);
    if |prior| > 0 {
      GroupByCovers(prior, EntryMonth, Amount, 0);
    }
  }

  /** The groups' months are exactly the months of the earlier expenses. */
  lemma MonthsOfPriorExpenses(es: seq<Entry>, user: UserId, startOfMonth: int)
    ensures var totals := MonthlyTotals(es, user, startOfMonth);
      && (forall i :: 0 <= i < |es| && IsPriorExpense(user, startOfMonth)(es[i]) ==> HasKey(totals, es[i].date.utcMonth))
      && (forall j :: 0 <= j < |totals| ==>
            exists i :: 0 <= i < |es| && IsPriorExpense(user, startOfMonth)(es[i]) && es[i].date.utcMonth == totals[j].key)
  {
    var p := IsPriorExpense(user, startOfMonth);
    var prior := Filter(es, p);
    var totals := MonthlyTotals(es, user, startOfMonth);
    forall i | 0 <= i < |es| && p(es[i]) ensures HasKey(totals, es[i].date.utcMonth) {
      var k :| 0 <= k < |prior| && prior[k] == es[i];
      GroupByCovers(prior, EntryMonth, Amount, k);
    }
    forall j | 0 <= j < |totals|
      ensures exists i :: 0 <= i < |es| && p(es[i]) && es[i].date.utcMonth == totals[j].key
    {
      GroupKeysOccur(prior, EntryMonth, Amount, j);
      var k :| 0 <= k < |prior| && prior[k].date.utcMonth == totals[j].key;
      var i :| 0 <= i < |es| && es[i] == prior[k];
    }
  }

  /** Cold start: with no expense dated before the current month the rule
      never fires, whatever the amount. */
  lemma HighAmountColdStart(e: Entry, es: seq<Entry>, u: Account, c: Clock)
    requires forall i :: 0 <= i < |es| ==> !IsPriorExpense(u.id, c.startOfMonth)(es[i])
    ensures HighAmountRule(e, es, u, c).None?
  {
    AverageIsTotalOverMonths(es, u.id, c.startOfMonth);
    CountZero(es, IsPriorExpense(u.id, c.startOfMonth));
  }

  // ------------------------------------------------------------ category limit

  /** `categoryLimits[category]`, with a missing key read as 0. */
  function LimitFor(prefs: Preferences, category: string): real
  {
    if category in prefs.categoryLimits then prefs.categoryLimits[category] else 0.0
  }

  /** The user's expenses in `category` from the start of the month through
      `upTo`, both ends included. */
  function IsMonthCategoryExpense(user: UserId, category: string, startOfMonth: int, upTo: int): Entry -> bool
  {
    (e: Entry) => e.user == user && e.kind == Expense && e.category == category
                  && startOfMonth <= e.date.ms <= upTo
  }

  function SpentInCategory(es: seq<Entry>, user: UserId, category: string, startOfMonth: int, upTo: int): real
  {
    Sum(Filter(es, IsMonthCategoryExpense(user, category, startOfMonth, upTo)), Amount)
  }

  /** Compares the month's spending in the entry's category with its limit:
      above 150% `high`, above 100% `medium`, above 80% `low`. */
  function CategoryLimitRule(e: Entry, es: seq<Entry>, u: Account, c: Clock): (r: Option<Signal>)
    ensures (e.kind != Expense || LimitFor(u.prefs, e.category) == 0.0) ==> r.None?
    ensures r.Some? ==> (r.value.signalType == CategoryLimit && r.value.details.category == Some(e.category)
      && |r.value.message| > 0)
    ensures var limit := LimitFor(u.prefs, e.category);
            var spent := SpentInCategory(es, u.id, e.category, c.startOfMonth, e.date.ms);
      e.kind == Expense && limit > 0.0 ==>
        && (r.Some? && r.value.severity == High <==> spent > limit * 1.5)
        && (r.Some? && r.value.severity == Medium <==> limit < spent <= limit * 1.5)
        && (r.Some? && r.value.severity == Low <==> limit * 0.8 < spent <= limit)
        && (r.None? <==> spent <= limit * 0.8)
  {
    if e.kind != Expense then None
    else
      var limit := LimitFor(u.prefs, e.category);
      if limit == 0.0 then None
      else
        var spent := SpentInCategory(es, u.id, e.category, c.startOfMonth, e.date.ms);
        var percentage := spent / limit * 100.0;
        PercentageBands(spent, limit);
        var details := SignalDetails(Some(limit), Some(spent), Some(e.category), Some(percentage), None, None);
        if percentage > 100.0 then
          Some(Signal(CategoryLimit, if percentage > 150.0 then High else Medium, "Category limit exceeded", details))
        else if percentage > 80.0 then
          Some(Signal(CategoryLimit, Low, "Approaching category limit", details))
        else None
  }

  /** For a positive limit the percentage bands are bands of the spent amount. */
  lemma PercentageBands(spent: real, limit: real)
    requires limit != 0.0
    ensures limit > 0.0 ==>
      && (spent / limit * 100.0 > 150.0 <==> spent > limit * 1.5)
      && (spent / limit * 100.0 > 100.0 <==> spent > limit)
      && (spent / limit * 100.0 > 80.0 <==> spent > limit * 0.8)
  {
    if limit > 0.0 {
      PercentageBand(spent, limit, 1.5);
      PercentageBand(spent, limit, 1.0);
      PercentageBand(spent, limit, 0.8);
    }
  }

  lemma PercentageBand(spent: real, limit: real, k: real)
    requires limit > 0.0
    ensures spent / limit * 100.0 > k * 100.0 <==> spent > limit * k
  {
    var q := spent / limit;
    assert q * limit == spent;
    ScaleCompare(q, k, limit);
  }

  lemma ScaleCompare(q: real, k: real, limit: real)
    requires limit > 0.0
    ensures q > k <==> q * limit > k * limit
  {
    if q > k {
      assert (q - k) * limit > 0.0;
    } else {
      assert (k - q) * limit >= 0.0;
    }
  }

  // ----------------------------------------------------------------- frequency

  /** The user's other entries (the rule's own entry excluded) dated at or
      after `since`. */
  function IsRecentOther(user: UserId, current: EntryId, since: int): Entry -> bool
  {
    (x: Entry) => x.user == user && x.date.ms >= since && x.id != current
  }

  /** How many of the user's other entries are dated within the last hour;
      zero exactly when there is none. */
  function RecentCount(es: seq<Entry>, e: Entry, u: Account, c: Clock): (n: nat)
    ensures n <= |es|
    ensures n == 0 <==> forall i :: 0 <= i < |es| ==>
      !(es[i].user == u.id && es[i].date.ms >= c.now - HourMs && es[i].id != e.id)
  {
    CountZero(es, IsRecentOther(u.id, e.id, c.now - HourMs));
    Count(es, IsRecentOther(u.id, e.id, c.now - HourMs))
  }

  /** Five or more other entries within the last hour: `medium`, ten or more:
      `high`; the reported count includes the new entry. */
  function FrequencyRule(e: Entry, es: seq<Entry>, u: Account, c: Clock): (r: Option<Signal>)
    ensures r.Some? <==> RecentCount(es, e, u, c) >= 5
    ensures r.Some? ==> (r.value.signalType == FrequentTransactions
      && (r.value.severity == High <==> RecentCount(es, e, u, c) >= 10)
      && r.value.severity != Low
      && r.value.details.actualAmount == Some((RecentCount(es, e, u, c) + 1) as real)
      && |r.value.message| > 0)
  {
    var n := RecentCount(es, e, u, c);
    if n >= 5 then
      Some(Signal(FrequentTransactions, if n >= 10 then High else Medium,
                  "Transactions in the last hour - unusually high frequency",
                  SignalDetails(Some(5.0), Some((n + 1) as real), None, None, Some("1 hour"), None)))
    else None
  }

  /** The entry under test never counts towards its own frequency: whether it
      is already stored or not, the count is the same. */
  lemma FrequencyExcludesCurrent(e: Entry, es: seq<Entry>, u: Account, c: Clock)
    ensures RecentCount(es + [e], e, u, c) == RecentCount(es, e, u, c)
    ensures FrequencyRule(e, es + [e], u, c) == FrequencyRule(e, es, u, c)
  {
    CountConcat(es, [e], IsRecentOther(u.id, e.id, c.now - HourMs));
  }

  // ---------------------------------------------------------------- night time

  /** The user's entries whose UTC hour lies in [0, 6), dated within the last
      30 days (the rule's own entry included). */
  function IsRecentNight(user: UserId, since: int): Entry -> bool
  {
    (x: Entry) => x.user == user && 0 <= x.date.utcHour < 6 && x.date.ms >= since
  }

  /** How many of the user's entries in the last 30 days have a UTC hour
      before 6; zero exactly when there is none. */
  function NightCount(es: seq<Entry>, u: Account, c: Clock): (n: nat)
    ensures n <= |es|
    ensures n == 0 <==> forall i :: 0 <= i < |es| ==>
      !(es[i].user == u.id && 0 <= es[i].date.utcHour < 6 && es[i].date.ms >= c.now - ThirtyDaysMs)
  {
    CountZero(es, IsRecentNight(u.id, c.now - ThirtyDaysMs));
    Count(es, IsRecentNight(u.id, c.now - ThirtyDaysMs))
  }

  /** An entry whose local hour is before 6 (or after 23) when the user has at
      most two night-time entries in the last 30 days: always `low`. */
  function UnusualTimeRule(e: Entry, es: seq<Entry>, u: Account, c: Clock): (r: Option<Signal>)
    ensures r.Some? ==> (r.value.signalType == UnusualTime && r.value.severity == Low
      && r.value.details.hour == Some(e.date.localHour) && |r.value.message| > 0)
    ensures ValidInstant(e.date) ==>
      (r.Some? <==> e.date.localHour < 6 && NightCount(es, u, c) <= 2)
  {
    var hour := e.date.localHour;
    if hour < 6 || hour > 23 then
      if NightCount(es, u, c) <= 2 then
        Some(Signal(UnusualTime, Low, "Transaction at unusual time",
                    SignalDetails(None, None, None, None, Some("night hours (0-6)"), Some(hour))))
      else None
    else None
  }

  /** The `hour > 23` branch is dead for a real clock hour: a late-evening
      entry (local hour 6 to 23) is never flagged. */
  lemma UnusualTimeNeverAfterSix(e: Entry, es: seq<Entry>, u: Account, c: Clock)
    requires ValidInstant(e.date) && e.date.localHour >= 6
    ensures UnusualTimeRule(e, es, u, c).None?
  {
  }
}

=== FILE: grouping.dfy ===
/** The `$group: { _id: <key>, total: { $sum: <value> }, count: { $sum: 1 } }`
    stage of the ledger's aggregation pipelines, over an in-memory sequence.
    Groups appear in order of the first element carrying their key. */
module Grouping {
  import opened Seqs

  datatype Group<K> = Group(key: K, total: real, count: nat)

  ghost predicate DistinctKeys<K>(gs: seq<Group<K>>)
  {
    forall i, j :: 0 <= i < j < |gs| ==> gs[i].key != gs[j].key
  }

  function GroupTotal<K>(g: Group<K>): real { g.total }

  function GroupCount<K>(g: Group<K>): real { g.count as real }

  /** Total of the first group keyed `k`, 0 when there is none. */
  function TotalOf<K(==)>(gs: seq<Group<K>>, k: K): real
  {
    if |gs| == 0 then 0.0 else if gs[0].key == k then gs[0].total else TotalOf(gs[1..], k)
  }

  /** Count of the first group keyed `k`, 0 when there is none. */
  function CountOf<K(==)>(gs: seq<Group<K>>, k: K): nat
  {
    if |gs| == 0 then 0 else if gs[0].key == k then gs[0].count else CountOf(gs[1..], k)
  }

  predicate HasKey<K(==)>(gs: seq<Group<K>>, k: K)
  {
    exists i :: 0 <= i < |gs| && gs[i].key == k
  }

  /** Sum of `val` over the elements whose key is `k`. */
  function SumForKey<T, K(==)>(s: seq<T>, key: T -> K, val: T -> real, k: K): real
  {
    if |s| == 0 then 0.0
    else SumForKey(s[..|s| - 1], key, val, k) + (if key(s[|s| - 1]) == k then val(s[|s| - 1]) else 0.0)
  }

  /** Number of elements whose key is `k`. */
  function CountForKey<T, K(==)>(s: seq<T>, key: T -> K, k: K): nat
  {
    if |s| == 0 then 0
    else CountForKey(s[..|s| - 1], key, k) + (if key(s[|s| - 1]) == k then 1 else 0)
  }

  /** Adds value `v` to the group keyed `k`, creating it at the end when absent. */
  function AddTo<K(==)>(gs: seq<Group<K>>, k: K, v: real): (r: seq<Group<K>>)
    ensures |r| == |gs| || |r| == |gs| + 1
  {
    if |gs| == 0 then [Group(k, v, 1)]
    else if gs[0].key == k then [Group(k, gs[0].total + v, gs[0].count + 1)] + gs[1..]
    else [gs[0]] + AddTo(gs[1..], k, v)
  }

  function GroupBy<T, K(==)>(s: seq<T>, key: T -> K, val: T -> real): seq<Group<K>>
  {
    if |s| == 0 then []
    else AddTo(GroupBy(s[..|s| - 1], key, val), key(s[|s| - 1]), val(s[|s| - 1]))
  }

  lemma {:induction false} AddToLookup<K>(gs: seq<Group<K>>, k: K, v: real, k': K)
    ensures TotalOf(AddTo(gs, k, v), k') == TotalOf(gs, k') + (if k' == k then v else 0.0)
    ensures CountOf(AddTo(gs, k, v), k') == CountOf(gs, k') + (if k' == k then 1 else 0)
    ensures HasKey(AddTo(gs, k, v), k') <==> HasKey(gs, k') || k' == k
  {
    var r := AddTo(gs, k, v);
    if |gs| == 0 {
      assert TotalOf(gs, k') == 0.0;
    } else {
      AddToLookup(gs[1..], k, v, k');
      if gs[0].key == k {
        assert r[1..] == gs[1..];
        if HasKey(gs[1..], k') {
          var i :| 0 <= i < |gs[1..]| && gs[1..][i].key == k';
          assert gs[i + 1].key == k' && r[i + 1].key == k';
        }
        if HasKey(r, k') && k' != k {
          var i :| 0 <= i < |r| && r[i].key == k';
          assert gs[i].key == k';
        }
      } else {
        assert r[1..] == AddTo(gs[1..], k, v);
        HasKeyCons(gs, k');
        HasKeyCons(r, k');
      }
    }
  }

  lemma HasKeyCons<K>(gs: seq<Group<K>>, k: K)
    requires |gs| > 0
    ensures HasKey(gs, k) <==> gs[0].key == k || HasKey(gs[1..], k)
  {
    if HasKey(gs[1..], k) {
      var i :| 0 <= i < |gs[1..]| && gs[1..][i].key == k;
      assert gs[i + 1].key == k;
    }
    if HasKey(gs, k) && gs[0].key != k {
      var i :| 0 <= i < |gs| && gs[i].key == k;
      assert gs[1..][i - 1].key == k;
    }
  }

  lemma {:induction false} AddToDistinct<K>(gs: seq<Group<K>>, k: K, v: real)
    requires DistinctKeys(gs)
    ensures DistinctKeys(AddTo(gs, k, v))
  {
    if |gs| > 0 && gs[0].key != k {
      var r := AddTo(gs, k, v);
      var tail := AddTo(gs[1..], k, v);
      assert DistinctKeys(gs[1..]);
      AddToDistinct(gs[1..], k, v);
      assert r == [gs[0]] + tail;
      forall j | 0 < j < |r| ensures r[0].key != r[j].key {
        AddToLookup(gs[1..], k, v, gs[0].key);
        forall i | 0 <= i < |gs[1..]| ensures gs[1..][i].key != gs[0].key {
          assert gs[1..][i] == gs[i + 1];
        }
        assert tail[j - 1].key != gs[0].key;
      }
    }
  }

  lemma {:induction false} AddToSums<K>(gs: seq<Group<K>>, k: K, v: real)
    ensures Sum(AddTo(gs, k, v), GroupTotal) == Sum(gs, GroupTotal) + v
    ensures Sum(AddTo(gs, k, v), GroupCount) == Sum(gs, GroupCount) + 1.0
  {
    if |gs| > 0 {
      var r := AddTo(gs, k, v);
      if gs[0].key == k {
        assert r[1..] == gs[1..];
      } else {
        assert r[1..] == AddTo(gs[1..], k, v);
        AddToSums(gs[1..], k, v);
      }
    }
  }

  /** `GroupBy` holds, for every key, exactly the sum and count of the elements
      carrying that key, and has a group for a key iff some element carries it. */
  lemma {:induction false} GroupByLookup<T, K>(s: seq<T>, key: T -> K, val: T -> real, k: K)
    ensures TotalOf(GroupBy(s, key, val), k) == SumForKey(s, key, val, k)
    ensures CountOf(GroupBy(s, key, val), k) == CountForKey(s, key, k)
    ensures HasKey(GroupBy(s, key, val), k) <==> CountForKey(s, key, k) > 0
  {
    if |s| > 0 {
      var n := |s| - 1;
      GroupByLookup(s[..n], key, val, k);
      AddToLookup(GroupBy(s[..n], key, val), key(s[n]), val(s[n]), k);
    }
  }

  /** Group keys are pairwise distinct, and the group totals and counts add up
      to the sum and length of the whole input. */
  lemma {:induction false} GroupByShape<T, K>(s: seq<T>, key: T -> K, val: T -> real)
    ensures DistinctKeys(GroupBy(s, key, val))
    ensures Sum(GroupBy(s, key, val), GroupTotal) == Sum(s, val)
    ensures Sum(GroupBy(s, key, val), GroupCount) == |s| as real
  {
    if |s| > 0 {
      var n := |s| - 1;
      GroupByShape(s[..n], key, val);
      AddToDistinct(GroupBy(s[..n], key, val), key(s[n]), val(s[n]));
      AddToSums(GroupBy(s[..n], key, val), key(s[n]), val(s[n]));
      assert s == s[..n] + [s[n]];
      SumSnoc(s[..n], s[n], val);
    }
  }

  /** With distinct keys, a member group is the one `TotalOf`/`CountOf` find. */
  lemma {:induction false} MemberLookup<K>(gs: seq<Group<K>>, i: nat)
    requires DistinctKeys(gs) && i < |gs|
    ensures TotalOf(gs, gs[i].key) == gs[i].total && CountOf(gs, gs[i].key) == gs[i].count
  {
    if i > 0 {
      assert DistinctKeys(gs[1..]);
      assert gs[1..][i - 1] == gs[i];
      MemberLookup(gs[1..], i - 1);
    }
  }

  /** Every element's key has a group, and every group is non-empty. */
  lemma GroupByCovers<T, K>(s: seq<T>, key: T -> K, val: T -> real, i: nat)
    requires i < |s|
    ensures HasKey(GroupBy(s, key, val), key(s[i]))
  {
    CountForKeyPositive(s, key, i);
    GroupByLookup(s, key, val, key(s[i]));
  }

  lemma {:induction false} CountForKeyPositive<T, K>(s: seq<T>, key: T -> K, i: nat)
    requires i < |s|
    ensures CountForKey(s, key, key(s[i])) > 0
  {
    var n := |s| - 1;
    if i < n {
      assert s[..n][i] == s[i];
      CountForKeyPositive(s[..n], key, i);
    }
  }

  /** An element carries every key that has a positive count. */
  lemma {:induction false} CountForKeyWitness<T, K>(s: seq<T>, key: T -> K, k: K)
    requires CountForKey(s, key, k) > 0
    ensures exists i :: 0 <= i < |s| && key(s[i]) == k
  {
    var n := |s| - 1;
    if key(s[n]) != k {
      CountForKeyWitness(s[..n], key, k);
      var i :| 0 <= i < n && key(s[..n][i]) == k;
      assert s[..n][i] == s[i];
    }
  }

  /** Every group's key is the key of some element: `GroupBy` invents no
      group. */
  lemma GroupKeysOccur<T, K>(s: seq<T>, key: T -> K, val: T -> real, j: nat)
    requires j < |GroupBy(s, key, val)|
    ensures exists i :: 0 <= i < |s| && key(s[i]) == GroupBy(s, key, val)[j].key
  {
    var k := GroupBy(s, key, val)[j].key;
    GroupByLookup(s, key, val, k);
    CountForKeyWitness(s, key, k);
  }

  /** Any reordering of `GroupBy`'s rows still holds, in every row, exactly
      the sum and count of that row's key, one row per key, and a row for
      every element's key. */
  lemma ReorderedGroups<T, K>(s: seq<T>, key: T -> K, val: T -> real, r: seq<Group<K>>)
    requires multiset(r) == multiset(GroupBy(s, key, val))
    ensures DistinctKeys(r)
    ensures forall i :: 0 <= i < |r| ==>
      && r[i].total == SumForKey(s, key, val, r[i].key)
      && r[i].count == CountForKey(s, key, r[i].key) && r[i].count > 0
    ensures forall k :: 0 <= k < |s| ==> exists i :: 0 <= i < |r| && r[i].key == key(s[k])
  {
    var g := GroupBy(s, key, val);
    GroupByShape(s, key, val);
    forall i | 0 <= i < |r|
      ensures r[i].total == SumForKey(s, key, val, r[i].key)
      ensures r[i].count == CountForKey(s, key, r[i].key) && r[i].count > 0
    {
      assert r[i] in multiset(g);
      var j :| 0 <= j < |g| && g[j] == r[i];
      MemberLookup(g, j);
      GroupByLookup(s, key, val, r[i].key);
    }
    forall k | 0 <= k < |s|
      ensures exists i :: 0 <= i < |r| && r[i].key == key(s[k])
    {
      GroupByCovers(s, key, val, k);
      var j :| 0 <= j < |g| && g[j].key == key(s[k]);
      assert g[j] in multiset(r);
    }
    forall i, j | 0 <= i < j < |r| ensures r[i].key != r[j].key {
      if r[i].key == r[j].key {
        assert r[i] in multiset(g) && r[j] in multiset(g);
        var a :| 0 <= a < |g| && g[a] == r[i];
        var b :| 0 <= b < |g| && g[b] == r[j];
        assert a == b;
        Repeated(r, i, j);
        KeyedOnce(g, r[i]);
      }
    }
  }

  /** An element at two positions occurs at least twice. */
  lemma Repeated<T>(r: seq<T>, i: nat, j: nat)
    requires i < j < |r| && r[i] == r[j]
    ensures multiset(r)[r[i]] >= 2
  {
    assert r == r[..j] + r[j..];
    assert r[i] in r[..j];
    assert r[j] in r[j..];
  }

  /** Groups with distinct keys are distinct: each occurs at most once. */
  lemma {:induction false} KeyedOnce<K>(g: seq<Group<K>>, x: Group<K>)
    requires DistinctKeys(g)
    ensures multiset(g)[x] <= 1
  {
    if |g| > 0 {
      assert g == [g[0]] + g[1..];
      assert DistinctKeys(g[1..]) by {
        forall i, j | 0 <= i < j < |g[1..]| ensures g[1..][i].key != g[1..][j].key {
          assert g[1..][i] == g[i + 1] && g[1..][j] == g[j + 1];
        }
      }
      KeyedOnce(g[1..], x);
      if g[0] == x {
        assert x !in g[1..] by {
          forall k | 0 <= k < |g[1..]| ensures g[1..][k] != x {
            assert g[1..][k] == g[k + 1];
          }
        }
      }
    }
  }
}

=== FILE: http.dfy ===
/** The status/message pairs the routes answer with when they reject a request. */
module Http {
  import opened Wrappers

  /** One entry of express-validator's error array: the field and its message. */
  datatype FieldError = FieldError(field: string, message: string)

  /** A rejection: the HTTP status, the `message` of the JSON body and, for a
      validation failure, the `errors` array. */
  datatype HttpError = HttpError(status: nat, message: string, errors: seq<FieldError>)

  const BadRequest: nat := 400
  const NotFound: nat := 404
  const ServerError: nat := 500

  /** A rejection without a field list. */
  function Fail(status: nat, message: string): HttpError
  {
    HttpError(status, message, [])
  }

  /** A route's outcome: a value on success, an error reply otherwise. */
  type Reply<T> = Result<T, HttpError>
}

=== FILE: paging.dfy ===
/** Page arithmetic shared by the list endpoints:
    `page = parseInt(q.page) || 1`, `limit = parseInt(q.limit) || dflt`,
    `skip = (page - 1) * limit`, `.skip(skip).limit(limit)` and
    `pages = Math.ceil(total / limit)`. */
module Paging {
  import opened Wrappers
  import opened Http
  import Sorting

  /** The two query parameters after `parseInt`: `None` stands for `NaN`
      (absent or not numeric). */
  datatype PageQuery = PageQuery(page: Option<int>, limit: Option<int>)

  datatype Pagination = Pagination(page: int, limit: int, total: nat, pages: int)

  /** `parseInt(q) || dflt`: `NaN` and `0` are falsy and fall back to the default. */
  function OrDefault(q: Option<int>, dflt: int): (r: int)
    ensures (q.None? || q.value == 0) ==> r == dflt
    ensures q.Some? && q.value != 0 ==> r == q.value
  {
    if q.Some? && q.value != 0 then q.value else dflt
  }

  function Abs(x: int): nat { if x < 0 then -x else x }

  function Min(a: int, b: int): int { if a <= b then a else b }

  /** `Math.ceil(x)` on an exact quotient. */
  function Ceil(x: real): (c: int)
    ensures (c - 1) as real < x <= c as real
  {
    -((-x).Floor)
  }

  /** `Math.ceil(total / limit)`, the number of pages. */
  function PageCount(total: nat, limit: int): int
    requires limit != 0
  {
    Ceil(total as real / limit as real)
  }

  /** With a positive limit, the pages are just enough to hold every item. */
  lemma PageCountBounds(total: nat, limit: int)
    requires limit > 0
    ensures (PageCount(total, limit) - 1) * limit < total <= PageCount(total, limit) * limit
    ensures total == 0 <==> PageCount(total, limit) == 0
  {
    var p := PageCount(total, limit);
    var q := total as real / limit as real;
    assert (p - 1) as real < q <= p as real;
    assert q * limit as real == total as real;
    MulMonotone(p as real - 1.0, q, limit as real);
    MulMonotone(q, p as real, limit as real);
    assert ((p - 1) * limit) as real == (p as real - 1.0) * limit as real;
    assert (p * limit) as real == p as real * limit as real;
  }

  lemma MulMonotone(a: real, b: real, c: real)
    requires c > 0.0
    ensures a < b ==> a * c < b * c
    ensures a <= b ==> a * c <= b * c
  {
  }

  /** `.skip(skip).limit(limit)`: MongoDB treats a negative limit like its
      absolute value (a single batch). */
  function Window<T>(s: seq<T>, skip: nat, limit: int): (r: seq<T>)
    requires limit != 0
    ensures |r| == if skip >= |s| then 0 else Min(Abs(limit), |s| - skip)
    ensures forall i :: 0 <= i < |r| ==> r[i] == s[skip + i]
    ensures multiset(r) <= multiset(s)
  {
    if skip >= |s| then []
    else
      var end := Min(skip + Abs(limit), |s|);
      assert s == s[..skip] + s[skip..end] + s[end..];
      s[skip..end]
  }

  /** A first window longer than the sequence is the whole sequence. */
  lemma WindowAll<T>(s: seq<T>, limit: int)
    requires limit > |s|
    ensures Window(s, 0, limit) == s
  {
    var w := Window(s, 0, limit);
    assert |w| == |s|;
    assert forall i :: 0 <= i < |w| ==> w[i] == s[i];
  }

  /** A window of a sequence sorted newest first is sorted the same way. */
  lemma WindowSorted<T>(s: seq<T>, skip: nat, limit: int, key: T -> real)
    requires limit != 0 && Sorting.SortedDesc(s, key)
    ensures Sorting.SortedDesc(Window(s, skip, limit), key)
  {
    var w := Window(s, skip, limit);
    forall i, j | 0 <= i < j < |w| ensures key(w[i]) >= key(w[j]) {
      assert w[i] == s[skip + i] && w[j] == s[skip + j];
    }
  }

  /** `(page - 1) * limit` after the defaults are applied. */
  function Skip(q: PageQuery, defaultLimit: int): int
  {
    (OrDefault(q.page, 1) - 1) * OrDefault(q.limit, defaultLimit)
  }

  /** One page of an already ordered result and its pagination summary. A
      negative skip (from a negative `page` or `limit`) makes the query fail,
      which the route reports as a server error. */
  function Paginate<T>(sorted: seq<T>, q: PageQuery, defaultLimit: int, serverMessage: string): (r: Reply<(seq<T>, Pagination)>)
    requires defaultLimit > 0
    ensures r.Ok? <==> Skip(q, defaultLimit) >= 0
    ensures r.Err? ==> r.error.status == ServerError
    ensures r.Ok? ==> r.value.1.total == |sorted| && r.value.1.limit != 0
    ensures r.Ok? ==> r.value.1.page == OrDefault(q.page, 1) && r.value.1.limit == OrDefault(q.limit, defaultLimit)
    ensures r.Ok? ==> r.value.1.pages == PageCount(|sorted|, r.value.1.limit)
    ensures r.Ok? ==> r.value.0 == Window(sorted, Skip(q, defaultLimit), r.value.1.limit)
  {
    var page := OrDefault(q.page, 1);
    var limit := OrDefault(q.limit, defaultLimit);
    var skip := (page - 1) * limit;
    if skip < 0 then Err(Fail(ServerError, serverMessage))
    else Ok((Window(sorted, skip, limit), Pagination(page, limit, |sorted|, PageCount(|sorted|, limit))))
  }

  /** A page number of at least 1 with a positive limit never fails, and the
      page holds the items from `(page - 1) * limit` on. */
  lemma PaginateWellFormed<T>(sorted: seq<T>, q: PageQuery, defaultLimit: int, m: string)
    requires defaultLimit > 0
    requires OrDefault(q.page, 1) >= 1 && OrDefault(q.limit, defaultLimit) > 0
    ensures Paginate(sorted, q, defaultLimit, m).Ok?
    ensures |Paginate(sorted, q, defaultLimit, m).value.0| <= OrDefault(q.limit, defaultLimit)
  {
    var p := OrDefault(q.page, 1);
    var l := OrDefault(q.limit, defaultLimit);
    assert (p - 1) * l >= 0 by { MulNonNeg(p - 1, l); }
  }

  lemma MulNonNeg(a: int, b: int)
    requires a >= 0 && b >= 0
    ensures a * b >= 0
  {
  }

  /** With the default query, the first page holds the first `defaultLimit`
      items. */
  lemma DefaultFirstPage<T>(sorted: seq<T>, defaultLimit: int, m: string)
    requires defaultLimit > 0
    ensures var r := Paginate(sorted, PageQuery(None, None), defaultLimit, m);
            r.Ok? && r.value.0 == sorted[..Min(defaultLimit, |sorted|)]
            && r.value.1.page == 1 && r.value.1.limit == defaultLimit
  {
  }
}

=== FILE: seqs.dfy ===
/** Sums, counts and filters over sequences: the in-memory counterpart of the
    `$sum`, `countDocuments` and `$match` stages of the ledger's queries. */
module Seqs {
  import opened Wrappers

  /** Index of the first element satisfying `p` (`findOne`, `Array.find`). */
  function FirstIndex<T>(s: seq<T>, p: T -> bool): (r: Option<nat>)
    ensures r.Some? ==> r.value < |s| && p(s[r.value]) && forall j :: 0 <= j < r.value ==> !p(s[j])
    ensures r.None? ==> forall j :: 0 <= j < |s| ==> !p(s[j])
  {
    if |s| == 0 then None
    else if p(s[0]) then Some(0)
    else match FirstIndex(s[1..], p)
      case None => None
      case Some(i) => Some(i + 1)
  }

  /** Sum of `f` over the elements of `s`. */
  function Sum<T>(s: seq<T>, f: T -> real): real
  {
    if |s| == 0 then 0.0 else f(s[0]) + Sum(s[1..], f)
  }

  /** Number of elements of `s` that satisfy `p`. */
  function Count<T>(s: seq<T>, p: T -> bool): (n: nat)
    ensures n <= |s|
  {
    if |s| == 0 then 0 else (if p(s[0]) then 1 else 0) + Count(s[1..], p)
  }

  /** The elements of `s` that satisfy `p`, in their original order. */
  function Filter<T>(s: seq<T>, p: T -> bool): (r: seq<T>)
    ensures |r| == Count(s, p)
    ensures forall i :: 0 <= i < |r| ==> p(r[i]) && r[i] in s
    ensures forall i :: 0 <= i < |s| && p(s[i]) ==> s[i] in r
  {
    if |s| == 0 then []
    else if p(s[0]) then [s[0]] + Filter(s[1..], p)
    else Filter(s[1..], p)
  }

  lemma {:induction false} SumConcat<T>(a: seq<T>, b: seq<T>, f: T -> real)
    ensures Sum(a + b, f) == Sum(a, f) + Sum(b, f)
  {
    if |a| == 0 {
      assert a + b == b;
    } else {
      assert (a + b)[1..] == a[1..] + b;
      SumConcat(a[1..], b, f);
    }
  }

  lemma {:induction false} CountConcat<T>(a: seq<T>, b: seq<T>, p: T -> bool)
    ensures Count(a + b, p) == Count(a, p) + Count(b, p)
  {
    if |a| == 0 {
      assert a + b == b;
    } else {
      assert (a + b)[1..] == a[1..] + b;
      CountConcat(a[1..], b, p);
    }
  }

  lemma {:induction false} FilterConcat<T>(a: seq<T>, b: seq<T>, p: T -> bool)
    ensures Filter(a + b, p) == Filter(a, p) + Filter(b, p)
  {
    if |a| == 0 {
      assert a + b == b;
    } else {
      assert (a + b)[1..] == a[1..] + b;
      FilterConcat(a[1..], b, p);
    }
  }

  /** Filtering by a predicate every element satisfies changes nothing. */
  lemma {:induction false} FilterKeepsAll<T>(s: seq<T>, p: T -> bool)
    requires forall i :: 0 <= i < |s| ==> p(s[i])
    ensures Filter(s, p) == s
  {
    if |s| > 0 {
      FilterKeepsAll(s[1..], p);
    }
  }

  /** Two predicates that agree on every element select the same elements. */
  lemma {:induction false} FilterAgree<T>(s: seq<T>, p: T -> bool, q: T -> bool)
    requires forall i :: 0 <= i < |s| ==> p(s[i]) == q(s[i])
    ensures Filter(s, p) == Filter(s, q)
  {
    if |s| > 0 {
      FilterAgree(s[1..], p, q);
    }
  }

  /** Filtering out the one element that fails `p` removes exactly it. */
  lemma {:induction false} FilterRemovesOne<T>(s: seq<T>, i: nat, p: T -> bool)
    requires i < |s| && !p(s[i])
    requires forall j :: 0 <= j < |s| && j != i ==> p(s[j])
    ensures Filter(s, p) == s[..i] + s[i + 1..]
  {
    var a, x, b := s[..i], s[i], s[i + 1..];
    assert s == a + ([x] + b);
    FilterConcat(a, [x] + b, p);
    assert ([x] + b)[1..] == b;
    assert Filter([x] + b, p) == Filter(b, p);
    assert forall j :: 0 <= j < |a| ==> p(a[j]) by {
      forall j | 0 <= j < |a| ensures p(a[j]) {
        assert a[j] == s[j];
      }
    }
    assert forall j :: 0 <= j < |b| ==> p(b[j]) by {
      forall j | 0 <= j < |b| ensures p(b[j]) {
        assert b[j] == s[i + 1 + j];
      }
    }
    FilterKeepsAll(a, p);
    FilterKeepsAll(b, p);
  }

  /** Appending one element extends the sum by that element's value. */
  lemma SumSnoc<T>(s: seq<T>, x: T, f: T -> real)
    ensures Sum(s + [x], f) == Sum(s, f) + f(x)
  {
    SumConcat(s, [x], f);
  }

  /** A count is zero exactly when no element satisfies the predicate. */
  lemma {:induction false} CountZero<T>(s: seq<T>, p: T -> bool)
    ensures Count(s, p) == 0 <==> forall i :: 0 <= i < |s| ==> !p(s[i])
  {
    if |s| > 0 {
      CountZero(s[1..], p);
      assert forall i :: 1 <= i < |s| ==> s[i] == s[1..][i - 1];
    }
  }

  /** The sum of non-negative values is non-negative. */
  lemma {:induction false} SumNonNegative<T>(s: seq<T>, f: T -> real)
    requires forall i :: 0 <= i < |s| ==> f(s[i]) >= 0.0
    ensures Sum(s, f) >= 0.0
  {
    if |s| > 0 {
      assert forall i :: 0 <= i < |s| - 1 ==> s[1..][i] == s[i + 1];
      SumNonNegative(s[1..], f);
    }
  }

  /** When each element `p` selects satisfies exactly one of `q` and `r`, and
      `q` and `r` select nothing `p` does not, the sum over `p` splits into the
      sums over `q` and over `r`. */
  lemma {:induction false} SumSplit<T>(s: seq<T>, p: T -> bool, q: T -> bool, r: T -> bool, f: T -> real)
    requires forall i :: 0 <= i < |s| ==> (p(s[i]) <==> q(s[i]) || r(s[i])) && !(q(s[i]) && r(s[i]))
    ensures Sum(Filter(s, p), f) == Sum(Filter(s, q), f) + Sum(Filter(s, r), f)
  {
    if |s| > 0 {
      var x, t := s[0], s[1..];
      assert forall i :: 0 <= i < |t| ==> t[i] == s[i + 1];
      SumSplit(t, p, q, r, f);
      if p(x) {
        assert ([x] + Filter(t, p))[1..] == Filter(t, p);
        if q(x) {
          assert ([x] + Filter(t, q))[1..] == Filter(t, q);
        } else {
          assert ([x] + Filter(t, r))[1..] == Filter(t, r);
        }
      }
    }
  }
}

=== FILE: sorting.dfy ===
/** A stable descending sort, the model of every `.sort({ field: -1 })` in the
    routes and of `Array.prototype.sort` with a descending comparator. Ties keep
    their input order (JavaScript's sort is stable; MongoDB leaves ties
    unspecified, and the model fixes them in ledger order). */
module Sorting {

  ghost predicate SortedDesc<T>(s: seq<T>, key: T -> real)
  {
    forall i, j :: 0 <= i < j < |s| ==> key(s[i]) >= key(s[j])
  }

  /** Inserts `x` in front of the first element whose key does not exceed its own. */
  function Insert<T>(x: T, s: seq<T>, key: T -> real): (r: seq<T>)
    requires SortedDesc(s, key)
    ensures SortedDesc(r, key)
    ensures |r| == |s| + 1
    ensures multiset(r) == multiset(s) + multiset{x}
    ensures |s| > 0 ==> r[0] == x || r[0] == s[0]
  {
    if |s| == 0 || key(x) >= key(s[0]) then [x] + s
    else
      var rest := Insert(x, s[1..], key);
      assert s == [s[0]] + s[1..];
      [s[0]] + rest
  }

  /** The first `n` elements of a sorted sequence are sorted, and each is an
      element of the sequence. */
  lemma SortedPrefix<T>(s: seq<T>, key: T -> real, n: nat)
    requires n <= |s| && SortedDesc(s, key)
    ensures SortedDesc(s[..n], key)
    ensures forall i :: 0 <= i < n ==> s[..n][i] in s
  {
  }

  /** Insertion sort by descending key. */
  function SortDesc<T>(s: seq<T>, key: T -> real): (r: seq<T>)
    ensures SortedDesc(r, key)
    ensures |r| == |s|
    ensures multiset(r) == multiset(s)
  {
    if |s| == 0 then []
    else
      assert s == [s[0]] + s[1..];
      Insert(s[0], SortDesc(s[1..], key), key)
  }

  /** The `n` elements with the largest keys, largest first (`sort(-1)`
      followed by `limit(n)`): as many as there are, up to `n`, taken from
      `s` without repeating any, and every element left out has a key no
      larger than the last one taken. */
  function Newest<T>(s: seq<T>, key: T -> real, n: nat): (r: seq<T>)
    ensures |r| == if n <= |s| then n else |s|
    ensures SortedDesc(r, key)
    ensures multiset(r) <= multiset(s)
    ensures forall i :: 0 <= i < |r| ==> r[i] in s
    ensures forall x :: x in s && x !in r ==> |r| == n && (n > 0 ==> key(x) <= key(r[n - 1]))
  {
    var sorted := SortDesc(s, key);
    var m := if n <= |s| then n else |s|;
    var r := sorted[..m];
    PrefixSubMultiset(sorted, m);
    forall i | 0 <= i < m ensures r[i] in s {
      assert r[i] in multiset(sorted);
    }
    forall x | x in s && x !in r ensures |r| == n && (n > 0 ==> key(x) <= key(r[n - 1])) {
      assert x in multiset(sorted);
      var k :| 0 <= k < |sorted| && sorted[k] == x;
      if n > 0 {
        assert r[n - 1] == sorted[n - 1];
      }
    }
    r
  }

  /** A prefix holds no element more often than the whole sequence. */
  lemma PrefixSubMultiset<T>(s: seq<T>, m: nat)
    requires m <= |s|
    ensures multiset(s[..m]) <= multiset(s)
  {
    assert s == s[..m] + s[m..];
  }

  /** Sorting a sequence that is already in descending order leaves it unchanged
      (the sort is stable). */
  lemma {:induction false} SortSortedIsIdentity<T>(s: seq<T>, key: T -> real)
    requires SortedDesc(s, key)
    ensures SortDesc(s, key) == s
  {
    if |s| > 0 {
      assert SortedDesc(s[1..], key);
      SortSortedIsIdentity(s[1..], key);
      assert s == [s[0]] + s[1..];
    }
  }

  /** The head of a non-empty descending sequence carries its largest key. */
  lemma HeadIsMax<T>(s: seq<T>, key: T -> real)
    requires SortedDesc(s, key) && |s| > 0
    ensures forall i :: 0 <= i < |s| ==> key(s[i]) <= key(s[0])
  {
  }
}

=== FILE: store.dfy ===
/** The database the routes read and write, as one immutable value: the user
    accounts (only the fields the core reads), the ledger entries and the fraud
    alerts. Each MongoDB session block becomes one atomic `Store -> Store` step. */
module Store {
  import opened Wrappers
  import opened Seqs
  import opened TransactionModel
  import opened FraudAlertModel

  datatype Preferences = Preferences(
    emailNotifications: bool,
    fraudAlerts: bool,
    monthlySpendingLimit: real,
    categoryLimits: map<string, real>)

  /** A user document: identity, names, wallet balance and preferences. */
  datatype Account = Account(id: UserId, email: string, firstName: string, lastName: string, balance: real, prefs: Preferences)

  datatype Store = Store(users: seq<Account>, entries: seq<Entry>, alerts: seq<Alert>, nextId: nat)

  function AccountId(a: Account): UserId { a.id }

  function HasId(id: UserId): Account -> bool { (a: Account) => a.id == id }

  function HasEmail(email: string): Account -> bool { (a: Account) => a.email == email }

  function EntryHasId(id: EntryId): Entry -> bool { (e: Entry) => e.id == id }

  function OwnedEntry(id: EntryId, user: UserId): Entry -> bool { (e: Entry) => e.id == id && e.user == user }

  function OwnedAlert(id: AlertId, user: UserId): Alert -> bool { (a: Alert) => a.id == id && a.user == user }

  /** `User.findById`. */
  function FindUser(users: seq<Account>, id: UserId): Option<nat>
  {
    FirstIndex(users, HasId(id))
  }

  /** `User.findOne({ email })`. */
  function FindUserByEmail(users: seq<Account>, email: string): Option<nat>
  {
    FirstIndex(users, HasEmail(email))
  }

  /** `Transaction.findById`. */
  function FindEntry(es: seq<Entry>, id: EntryId): Option<nat>
  {
    FirstIndex(es, EntryHasId(id))
  }

  /** `Transaction.findOne({ _id, user })`: only the owner's entry matches. */
  function FindOwnedEntry(es: seq<Entry>, id: EntryId, user: UserId): Option<nat>
  {
    FirstIndex(es, OwnedEntry(id, user))
  }

  /** `FraudAlert.findOne({ _id, user })`. */
  function FindOwnedAlert(alerts: seq<Alert>, id: AlertId, user: UserId): Option<nat>
  {
    FirstIndex(alerts, OwnedAlert(id, user))
  }

  function Balance(a: Account): real { a.balance }

  /** Sum of all wallet balances. */
  function TotalBalance(users: seq<Account>): real
  {
    Sum(users, Balance)
  }

  /** Changing one balance changes the total by the same amount. */
  lemma {:induction false} TotalBalanceUpdate(users: seq<Account>, i: nat, b: real)
    requires i < |users|
    ensures TotalBalance(users[i := users[i].(balance := b)]) == TotalBalance(users) - users[i].balance + b
  {
    var u := users[i := users[i].(balance := b)];
    if i > 0 {
      assert u[1..] == users[1..][i - 1 := users[1..][i - 1].(balance := b)];
      TotalBalanceUpdate(users[1..], i - 1, b);
    } else {
      assert u[1..] == users[1..];
    }
  }

  predicate NonNegativeBalances(users: seq<Account>)
  {
    forall i :: 0 <= i < |users| ==> users[i].balance >= 0.0
  }

  /** Ids are unique and below the next id to hand out. */
  ghost predicate Valid(s: Store)
  {
    && (forall i :: 0 <= i < |s.entries| ==> s.entries[i].id < s.nextId)
    && (forall i, j :: 0 <= i < j < |s.entries| ==> s.entries[i].id != s.entries[j].id)
    && (forall i :: 0 <= i < |s.alerts| ==> s.alerts[i].id < s.nextId)
    && (forall i, j :: 0 <= i < j < |s.alerts| ==> s.alerts[i].id != s.alerts[j].id)
  }

  /** With unique ids, looking an entry up by its own id finds it where it is. */
  lemma FindEntryAt(s: Store, i: nat)
    requires Valid(s) && i < |s.entries|
    ensures FindEntry(s.entries, s.entries[i].id) == Some(i)
  {
    var k := FindEntry(s.entries, s.entries[i].id);
    assert EntryHasId(s.entries[i].id)(s.entries[i]);
  }

  /** Appends an entry under the next fresh id. */
  function AppendEntry(s: Store, e: Entry): (r: Store)
    requires e.id == s.nextId
    ensures Valid(s) ==> Valid(r)
    ensures r.entries == s.entries + [e] && r.users == s.users && r.alerts == s.alerts
    ensures r.nextId == s.nextId + 1
  {
    s.(entries := s.entries + [e], nextId := s.nextId + 1)
  }

  /** Appends an alert under the next fresh id. */
  function AppendAlert(s: Store, a: Alert): (r: Store)
    requires a.id == s.nextId
    ensures Valid(s) ==> Valid(r)
    ensures r.alerts == s.alerts + [a] && r.users == s.users && r.entries == s.entries
    ensures r.nextId == s.nextId + 1
  {
    s.(alerts := s.alerts + [a], nextId := s.nextId + 1)
  }

  /** Appends a batch of alerts under consecutive fresh ids. */
  function AppendAlerts(s: Store, batch: seq<Alert>): (r: Store)
    requires forall j :: 0 <= j < |batch| ==> batch[j].id == s.nextId + j
    ensures Valid(s) ==> Valid(r)
    ensures r.alerts == s.alerts + batch && r.users == s.users && r.entries == s.entries
    ensures r.nextId == s.nextId + |batch|
  {
    s.(alerts := s.alerts + batch, nextId := s.nextId + |batch|)
  }
}

=== FILE: text.dfy ===
/** String helpers used by the validators, the schema setters and the CSV export. */
module Text {

  /** The whitespace that `String.prototype.trim` strips, which is also what
      `\s` matches: the ECMAScript WhiteSpace and LineTerminator characters
      (tab, line tabulation, form feed, space, no-break space, the byte order
      mark, the Unicode space separators, line feed, carriage return and the
      line and paragraph separators). */
  predicate IsSpace(c: char)
  {
    || c == '\t' || c == '\n' || c == '\U{0B}' || c == '\U{0C}' || c == '\r' || c == ' '
    || c == '\U{A0}' || c == '\U{1680}' || ('\U{2000}' <= c <= '\U{200A}')
    || c == '\U{2028}' || c == '\U{2029}' || c == '\U{202F}' || c == '\U{205F}'
    || c == '\U{3000}' || c == '\U{FEFF}'
  }

  predicate AllSpace(s: string)
  {
    forall i :: 0 <= i < |s| ==> IsSpace(s[i])
  }

  /** Drops leading whitespace. */
  function TrimStart(s: string): (r: string)
    ensures |r| <= |s|
  {
    if |s| == 0 || !IsSpace(s[0]) then s else TrimStart(s[1..])
  }

  /** Drops trailing whitespace. */
  function TrimEnd(s: string): (r: string)
    ensures |r| <= |s|
  {
    if |s| == 0 || !IsSpace(s[|s| - 1]) then s else TrimEnd(s[..|s| - 1])
  }

  /** `TrimStart` keeps a suffix, cuts off only whitespace and stops at the
      first other character. */
  lemma {:induction false} TrimStartSpec(s: string)
    ensures TrimStart(s) == s[|s| - |TrimStart(s)|..]
    ensures AllSpace(s[..|s| - |TrimStart(s)|])
    ensures |TrimStart(s)| == 0 || !IsSpace(TrimStart(s)[0])
  {
    if |s| > 0 && IsSpace(s[0]) {
      TrimStartSpec(s[1..]);
      var r := TrimStart(s[1..]);
      assert s[1..][|s[1..]| - |r|..] == s[|s| - |r|..];
      assert s[1..][..|s[1..]| - |r|] == s[1..|s| - |r|];
    }
  }

  /** `TrimEnd` keeps a prefix, cuts off only whitespace and stops at the last
      other character. */
  lemma {:induction false} TrimEndSpec(s: string)
    ensures TrimEnd(s) == s[..|TrimEnd(s)|]
    ensures AllSpace(s[|TrimEnd(s)|..])
    ensures |TrimEnd(s)| == 0 || !IsSpace(TrimEnd(s)[|TrimEnd(s)| - 1])
  {
    if |s| > 0 && IsSpace(s[|s| - 1]) {
      TrimEndSpec(s[..|s| - 1]);
      var r := TrimEnd(s[..|s| - 1]);
      assert s[..|s| - 1][..|r|] == s[..|r|];
      assert s[..|s| - 1][|r|..] == s[|r|..|s| - 1];
    }
  }

  /** Removes leading and trailing whitespace, as `String.prototype.trim` does. */
  function Trim(s: string): (r: string)
    ensures |r| <= |s|
  {
    TrimEnd(TrimStart(s))
  }

  /** `Trim` returns a contiguous part of its input, all of whose cut-off
      characters are whitespace, and which neither starts nor ends with
      whitespace. */
  lemma TrimSpec(s: string)
    ensures exists a :: (0 <= a <= |s| - |Trim(s)| && Trim(s) == s[a..a + |Trim(s)|]
                         && AllSpace(s[..a]) && AllSpace(s[a + |Trim(s)|..]))
    ensures |Trim(s)| == 0 || (!IsSpace(Trim(s)[0]) && !IsSpace(Trim(s)[|Trim(s)| - 1]))
  {
    var t := TrimStart(s);
    var r := TrimEnd(t);
    TrimStartSpec(s);
    TrimEndSpec(t);
    var a := |s| - |t|;
    assert r == s[a..a + |r|];
    assert s[a + |r|..] == t[|r|..];
    if |r| > 0 {
      assert r[0] == t[0];
    }
  }

  /** A string that starts with a non-space character survives trimming. */
  lemma TrimKeepsHead(s: string)
    requires |s| > 0 && !IsSpace(s[0])
    ensures |Trim(s)| > 0
  {
    assert TrimStart(s) == s;
    TrimEndSpec(s);
  }

  /** Trimming twice is the same as trimming once. */
  lemma TrimIdempotent(s: string)
    ensures Trim(Trim(s)) == Trim(s)
  {
    var r := Trim(s);
    TrimSpec(s);
    if |r| > 0 {
      assert TrimStart(r) == r;
      assert TrimEnd(r) == r;
    }
  }

  /** Every occurrence of `from` replaced by `to` (`str.replace(/,/g, ';')`). */
  function ReplaceChar(s: string, from: char, to: char): (r: string)
    ensures |r| == |s|
    ensures forall i :: 0 <= i < |s| ==> r[i] == (if s[i] == from then to else s[i])
  {
    if |s| == 0 then "" else [if s[0] == from then to else s[0]] + ReplaceChar(s[1..], from, to)
  }

  /** Number of occurrences of `c` in `s`. */
  function CountChar(s: string, c: char): nat
  {
    if |s| == 0 then 0 else (if s[0] == c then 1 else 0) + CountChar(s[1..], c)
  }

  lemma {:induction false} CountCharConcat(a: string, b: string, c: char)
    ensures CountChar(a + b, c) == CountChar(a, c) + CountChar(b, c)
  {
    if |a| == 0 {
      assert a + b == b;
    } else {
      assert (a + b)[1..] == a[1..] + b;
      CountCharConcat(a[1..], b, c);
    }
  }

  /** A string has no occurrence of `c` iff its count is zero. */
  lemma {:induction false} CountCharZero(s: string, c: char)
    ensures CountChar(s, c) == 0 <==> c !in s
  {
    if |s| > 0 {
      CountCharZero(s[1..], c);
      assert s == [s[0]] + s[1..];
    }
  }

  /** After replacing `from` by a different character, none is left. */
  lemma ReplaceRemoves(s: string, from: char, to: char)
    requires from != to
    ensures CountChar(ReplaceChar(s, from, to), from) == 0
  {
    var r := ReplaceChar(s, from, to);
    assert from !in r by {
      forall i | 0 <= i < |r| ensures r[i] != from { }
    }
    CountCharZero(r, from);
  }

  /** `parts.join(sep)`. */
  function Join(parts: seq<string>, sep: string): string
  {
    if |parts| == 0 then ""
    else if |parts| == 1 then parts[0]
    else parts[0] + sep + Join(parts[1..], sep)
  }

  /** Occurrences of `c` across all the parts. */
  function CountCharIn(parts: seq<string>, c: char): nat
  {
    if |parts| == 0 then 0 else CountChar(parts[0], c) + CountCharIn(parts[1..], c)
  }

  /** A separator without `c` adds none: the joined string holds exactly the
      parts' occurrences. */
  lemma {:induction false} CountCharJoinAll(parts: seq<string>, sep: string, c: char)
    requires CountChar(sep, c) == 0
    ensures CountChar(Join(parts, sep), c) == CountCharIn(parts, c)
  {
    if |parts| == 1 {
      assert CountCharIn(parts[1..], c) == 0;
    } else if |parts| > 1 {
      var rest := parts[1..];
      CountCharJoinAll(rest, sep, c);
      assert Join(parts, sep) == parts[0] + sep + Join(rest, sep);
      CountCharConcat(parts[0] + sep, Join(rest, sep), c);
      CountCharConcat(parts[0], sep, c);
    }
  }

  /** Replacing a character the string does not hold changes nothing. */
  lemma ReplaceAbsent(s: string, from: char, to: char)
    requires from !in s
    ensures ReplaceChar(s, from, to) == s
  {
  }

  /** When every part holds `n` occurrences of `c` and the separator holds
      none, the joined string holds exactly `n` per part. */
  lemma {:induction false} CountCharJoin(parts: seq<string>, sep: string, c: char, n: nat)
    requires CountChar(sep, c) == 0
    requires forall i :: 0 <= i < |parts| ==> CountChar(parts[i], c) == n
    ensures CountChar(Join(parts, sep), c) == n * |parts|
  {
    if |parts| > 1 {
      var rest := parts[1..];
      assert forall i :: 0 <= i < |rest| ==> rest[i] == parts[i + 1];
      CountCharJoin(rest, sep, c, n);
      assert Join(parts, sep) == parts[0] + sep + Join(rest, sep);
      CountCharConcat(parts[0] + sep, Join(rest, sep), c);
      CountCharConcat(parts[0], sep, c);
    }
  }
}

=== FILE: transaction_model.dfy ===
/** The ledger entry (`server/models/Transaction.js`): its enumerations, the
    defaults the schema fills in, the setters it applies and the validators a
    `save()` runs. */
module TransactionModel {
  import opened Wrappers
  import opened Text

  type UserId = nat
  type EntryId = nat

  datatype Kind = Income | Expense | TransferIn | TransferOut

  function KindName(k: Kind): string
  {
    match k
    case Income => "income"
    case Expense => "expense"
    case TransferIn => "transfer_in"
    case TransferOut => "transfer_out"
  }

  /** The `enum` check on `type`: only the four names are accepted. */
  function ParseKind(s: string): (r: Option<Kind>)
    ensures r.Some? ==> KindName(r.value) == s
  {
    if s == "income" then Some(Income)
    else if s == "expense" then Some(Expense)
    else if s == "transfer_in" then Some(TransferIn)
    else if s == "transfer_out" then Some(TransferOut)
    else None
  }

  lemma ParseKindName(k: Kind)
    ensures ParseKind(KindName(k)) == Some(k)
  {
  }

  datatype PaymentMethod = Cash | Card | BankTransfer | Wallet | OtherMethod

  function PaymentMethodName(m: PaymentMethod): string
  {
    match m
    case Cash => "cash"
    case Card => "card"
    case BankTransfer => "bank_transfer"
    case Wallet => "wallet"
    case OtherMethod => "other"
  }

  function ParsePaymentMethod(s: string): (r: Option<PaymentMethod>)
    ensures r.Some? ==> PaymentMethodName(r.value) == s
  {
    if s == "cash" then Some(Cash)
    else if s == "card" then Some(Card)
    else if s == "bank_transfer" then Some(BankTransfer)
    else if s == "wallet" then Some(Wallet)
    else if s == "other" then Some(OtherMethod)
    else None
  }

  lemma ParsePaymentMethodName(m: PaymentMethod)
    ensures ParsePaymentMethod(PaymentMethodName(m)) == Some(m)
  {
  }

  /** Every type label used by either schema. The fraud-flag enum of the
      ledger entry and the alert-type enum of the fraud alert are different
      subsets of it (see `IsFlagType` and `FraudAlertModel.IsAlertType`). */
  datatype TypeLabel =
    | HighAmount | CategoryLimit | UnusualTime | UnusualLocation
    | FrequentTransactions | UnusualPattern | SuspiciousActivity

  function LabelName(t: TypeLabel): string
  {
    match t
    case HighAmount => "high_amount"
    case CategoryLimit => "category_limit"
    case UnusualTime => "unusual_time"
    case UnusualLocation => "unusual_location"
    case FrequentTransactions => "frequent_transactions"
    case UnusualPattern => "unusual_pattern"
    case SuspiciousActivity => "suspicious_activity"
  }

  /** The `fraudFlags.type` enum of the ledger entry. */
  predicate IsFlagType(t: TypeLabel)
  {
    t.HighAmount? || t.CategoryLimit? || t.UnusualTime? || t.UnusualLocation? || t.FrequentTransactions?
  }

  datatype Severity = Low | Medium | High

  function SeverityName(s: Severity): string
  {
    match s
    case Low => "low"
    case Medium => "medium"
    case High => "high"
  }

  datatype FraudFlag = FraudFlag(flagType: TypeLabel, severity: Severity, message: string, flaggedAt: int)

  datatype TransferInfo = TransferInfo(fromUser: UserId, toUser: UserId, transferId: string)

  datatype Frequency = Daily | Weekly | Monthly | Yearly

  datatype Recurrence = Recurrence(frequency: Option<Frequency>, interval: Option<int>, endDate: Option<int>)

  /** A point in time: milliseconds since the epoch plus the calendar fields
      the source reads from it. MongoDB's `$month`/`$hour` work in UTC while
      `Date.getHours()` works in the server's local time zone, so both hours
      are kept; `utcMonth` is an absolute month number (`12 * year + month`). */
  datatype Instant = Instant(ms: int, utcMonth: int, utcHour: int, localHour: int)

  predicate ValidInstant(t: Instant)
  {
    0 <= t.utcHour < 24 && 0 <= t.localHour < 24
  }

  datatype Entry = Entry(
    id: EntryId,
    user: UserId,
    kind: Kind,
    amount: real,
    description: string,
    category: string,
    subcategory: Option<string>,
    date: Instant,
    location: Option<string>,
    paymentMethod: PaymentMethod,
    merchant: Option<string>,
    currency: string,
    exchangeRate: real,
    tags: seq<string>,
    isRecurring: bool,
    recurring: Option<Recurrence>,
    transfer: Option<TransferInfo>,
    fraudFlags: seq<FraudFlag>,
    isReviewed: bool,
    notes: Option<string>,
    aiCategorized: bool,
    confidence: Option<real>)

  /** The validators `save()` runs: required fields present, `amount >= 0`,
      `confidence` in [0, 1], a recurrence interval of at least 1 and every
      fraud flag's type in the flag enum. */
  predicate SchemaValid(e: Entry)
  {
    && e.amount >= 0.0
    && |e.description| > 0
    && |e.category| > 0
    && (e.confidence.Some? ==> 0.0 <= e.confidence.value <= 1.0)
    && (e.recurring.Some? && e.recurring.value.interval.Some? ==> e.recurring.value.interval.value >= 1)
    && (forall f :: f in e.fraudFlags ==> IsFlagType(f.flagType))
  }

  /** The fields handed to `new Transaction({...})`; `None` is `undefined`. */
  datatype Draft = Draft(
    user: UserId,
    kind: Kind,
    amount: real,
    description: Option<string>,
    category: Option<string>,
    subcategory: Option<string>,
    date: Option<Instant>,
    location: Option<string>,
    paymentMethod: Option<string>,
    merchant: Option<string>,
    tags: seq<string>,
    notes: Option<string>,
    transfer: Option<TransferInfo>,
    aiCategorized: bool,
    confidence: Option<real>)

  /** A draft with only the required fields, the rest left `undefined`. */
  function MinimalDraft(user: UserId, kind: Kind, amount: real, description: string, category: string): Draft
  {
    Draft(user, kind, amount, Some(description), Some(category), None, None, None, None, None, [], None, None, false, None)
  }

  /** The schema's `trim: true` setter on an optional string. */
  function TrimOpt(s: Option<string>): Option<string>
  {
    if s.Some? then Some(Trim(s.value)) else None
  }

  function TrimAll(tags: seq<string>): (r: seq<string>)
    ensures |r| == |tags| && forall i :: 0 <= i < |tags| ==> r[i] == Trim(tags[i])
  {
    if |tags| == 0 then [] else [Trim(tags[0])] + TrimAll(tags[1..])
  }

  /** Why a `save()` was refused. */
  datatype SchemaError = SchemaError(path: string)

  /** `new Transaction(draft)` followed by validation: defaults for `date`
      (now), `paymentMethod` (`other`), `currency` (`USD`), `exchangeRate` (1),
      `isRecurring`, `isReviewed`, no fraud flags; trimmed strings; and the
      validators of `SchemaValid`. */
  function Build(id: EntryId, d: Draft, now: Instant): (r: Result<Entry, SchemaError>)
    ensures r.Ok? <==> DraftAccepted(d)
    ensures r.Ok? ==> SchemaValid(r.value)
    ensures r.Ok? ==> var e := r.value;
      && e.id == id && e.user == d.user && e.kind == d.kind && e.amount == d.amount
      && e.description == Trim(d.description.value) && e.category == d.category.value
      && e.date == d.date.GetOr(now) && e.transfer == d.transfer
      && (d.paymentMethod.None? ==> e.paymentMethod == OtherMethod)
      && (d.paymentMethod.Some? ==> PaymentMethodName(e.paymentMethod) == d.paymentMethod.value)
      && e.currency == "USD" && e.exchangeRate == 1.0 && !e.isRecurring && !e.isReviewed
      && e.fraudFlags == [] && e.aiCategorized == d.aiCategorized && e.confidence == d.confidence
  {
    if d.description.None? || |Trim(d.description.value)| == 0 then Err(SchemaError("description"))
    else if d.category.None? || |d.category.value| == 0 then Err(SchemaError("category"))
    else if d.amount < 0.0 then Err(SchemaError("amount"))
    else if d.paymentMethod.Some? && ParsePaymentMethod(d.paymentMethod.value).None? then Err(SchemaError("paymentMethod"))
    else if d.confidence.Some? && !(0.0 <= d.confidence.value <= 1.0) then Err(SchemaError("confidence"))
    else
      var pm := if d.paymentMethod.Some? then ParsePaymentMethod(d.paymentMethod.value).value else OtherMethod;
      Ok(Entry(id, d.user, d.kind, d.amount, Trim(d.description.value), d.category.value,
               TrimOpt(d.subcategory), d.date.GetOr(now), TrimOpt(d.location), pm,
               TrimOpt(d.merchant), "USD", 1.0, TrimAll(d.tags), false, None, d.transfer,
               [], false, TrimOpt(d.notes), d.aiCategorized, d.confidence))
  }

  /** When a draft passes validation. */
  predicate DraftAccepted(d: Draft)
  {
    && d.description.Some? && |Trim(d.description.value)| > 0
    && d.category.Some? && |d.category.value| > 0
    && d.amount >= 0.0
    && (d.paymentMethod.Some? ==> ParsePaymentMethod(d.paymentMethod.value).Some?)
    && (d.confidence.Some? ==> 0.0 <= d.confidence.value <= 1.0)
  }

  /** `save()` on an entry already built: the validators run again. */
  function Validate(e: Entry): (r: Result<Entry, SchemaError>)
    ensures r.Ok? <==> SchemaValid(e)
    ensures r.Ok? ==> r.value == e
  {
    if SchemaValid(e) then Ok(e) else Err(SchemaError("transaction"))
  }

  /** The flag enum holds `unusual_time` and `frequent_transactions` but not
      the alert-only labels. */
  lemma FlagEnum()
    ensures IsFlagType(UnusualTime) && IsFlagType(FrequentTransactions) && IsFlagType(UnusualLocation)
    ensures !IsFlagType(UnusualPattern) && !IsFlagType(SuspiciousActivity)
  {
  }
}

=== FILE: transaction_routes.dfy ===
/** `server/routes/transactions.js`: create, list, read, update and delete a
    user's ledger entries, and the per-category spending breakdown. Every
    handler runs after `auth`; the caller is the account `me` (or its id). */
module TransactionRoutes {
  import opened Wrappers
  import opened Seqs
  import opened Sorting
  import opened Grouping
  import opened Text
  import opened Http
  import opened Paging
  import opened TransactionModel
  import opened Store
  import opened Validation
  import opened FraudAlertModel
  import opened FraudRules
  import opened FraudDetection
  import opened AiService
  import opened Wallet
  import opened FraudRoutes

  // ------------------------------------------------------------ fraud check

  /** The fraud check leaves the entry it ran on either as it was or with
      one flag per signal appended, and changes nothing else of it. */
  lemma PipelineKeepsEntry(s: Store, e: Entry, u: Account, now: int, sigs: seq<Signal>, mail: seq<bool>, n: nat)
    requires n < |s.entries| && s.entries[n] == e
    ensures n < |RunPipeline(s, e, u, now, sigs, mail).store.entries|
    ensures var t := RunPipeline(s, e, u, now, sigs, mail).store.entries[n];
      t == e || t == e.(fraudFlags := e.fraudFlags + FlagsOf(sigs, now))
  {
    var p := Process(s.nextId, e.id, u, now, sigs, 0, mail);
    var s1 := AppendAlerts(s, p.alerts);
    var e1 := e.(fraudFlags := e.fraudFlags + p.flags);
    if p.completed && |sigs| > 0 && SaveEntry(s1, e1).Ok? {
      var k := FindEntry(s1.entries, e.id).value;
      assert SaveEntry(s1, e1).value.entries == s1.entries[k := e1];
      assert p.flags == FlagsOf(sigs, now);
    }
  }

  /** With unique ids, the fraud check rewrites no entry but its own. */
  lemma PipelineKeepsOthers(s: Store, e: Entry, u: Account, now: int, sigs: seq<Signal>, mail: seq<bool>, n: nat)
    requires Valid(s) && n < |s.entries| && s.entries[n].id == e.id
    ensures forall j :: 0 <= j < |s.entries| && j != n ==>
              RunPipeline(s, e, u, now, sigs, mail).store.entries[j] == s.entries[j]
  {
    var p := Process(s.nextId, e.id, u, now, sigs, 0, mail);
    var s1 := AppendAlerts(s, p.alerts);
    var e1 := e.(fraudFlags := e.fraudFlags + p.flags);
    if p.completed && |sigs| > 0 && SaveEntry(s1, e1).Ok? {
      var k := FindEntry(s1.entries, e.id).value;
      assert k == n;
      assert SaveEntry(s1, e1).value.entries == s1.entries[k := e1];
    }
  }

  /** `checkFraudRules` on the entry just saved at index `i`. The reply is the
      in-memory document the handler passes in: the saved entry with a flag
      pushed for every alert the run saved, whether or not the run then
      failed. The stored entry is either untouched or, when the run returned
      its signals, that same document. With unique ids no other entry is
      touched; new alerts go after the old. */
  function Recheck(s: Store, i: nat, me: Account, c: Clock, mail: seq<bool>): (r: (Store, Entry))
    requires i < |s.entries|
    ensures |r.0.entries| == |s.entries| && r.0.users == s.users
    ensures r.1 == s.entries[i].(fraudFlags := r.1.fraudFlags)
    ensures r.0.entries[i] == s.entries[i] || r.0.entries[i] == r.1
    ensures var e := s.entries[i];
      r.0.entries[i] == e || r.0.entries[i] == e.(fraudFlags := e.fraudFlags + FlagsOf(Signals(e, s.entries, me, c), c.now))
    ensures Valid(s) ==> Valid(r.0)
    ensures Valid(s) ==> forall j :: 0 <= j < |s.entries| && j != i ==> r.0.entries[j] == s.entries[j]
    ensures |r.0.alerts| >= |s.alerts| && r.0.alerts[..|s.alerts|] == s.alerts
  {
    var e := s.entries[i];
    var sigs := Signals(e, s.entries, me, c);
    PipelineKeepsEntry(s, e, me, c.now, sigs, mail, i);
    PipelineAlertsPerSignal(s, e, me, c.now, sigs, mail);
    assert Valid(s) ==> Valid(RunPipeline(s, e, me, c.now, sigs, mail).store) by {
      if Valid(s) {
        PipelineKeepsIdsValid(s, e, me, c.now, sigs, mail);
      }
    }
    assert Valid(s) ==> forall j :: 0 <= j < |s.entries| && j != i ==>
                          RunPipeline(s, e, me, c.now, sigs, mail).store.entries[j] == s.entries[j] by {
      if Valid(s) {
        PipelineKeepsOthers(s, e, me, c.now, sigs, mail, i);
      }
    }
    var p := CheckFraudRules(s, e, me, c, mail);
    (p.store, p.entry)
  }

  /** The reply keeps the saved entry's flags and adds one for each signal,
      from the first, whose alert was saved, stamped with the current time. */
  lemma RecheckFlags(s: Store, i: nat, me: Account, c: Clock, mail: seq<bool>)
    requires i < |s.entries|
    ensures var e := s.entries[i];
      var sigs := Signals(e, s.entries, me, c);
      var flags := Recheck(s, i, me, c, mail).1.fraudFlags;
      && |flags| == |e.fraudFlags| + LeadingAccepted(sigs)
      && flags == e.fraudFlags + FlagsOf(sigs[..LeadingAccepted(sigs)], c.now)
  {
    var e := s.entries[i];
    var sigs := Signals(e, s.entries, me, c);
    assert Recheck(s, i, me, c, mail).1 == RunPipeline(s, e, me, c.now, sigs, mail).entry;
    InMemoryFlags(s, e, me, c.now, sigs, mail);
  }

  /** Every flag the fraud check adds to the reply carries an alert type and
      the time of the check. */
  lemma RecheckStampsFlags(s: Store, i: nat, me: Account, c: Clock, mail: seq<bool>)
    requires i < |s.entries|
    ensures var prior := s.entries[i].fraudFlags;
      var flags := Recheck(s, i, me, c, mail).1.fraudFlags;
      forall j :: |prior| <= j < |flags| ==> flags[j].flaggedAt == c.now && IsAlertType(flags[j].flagType)
  {
    var e := s.entries[i];
    var sigs := Signals(e, s.entries, me, c);
    RecheckFlags(s, i, me, c, mail);
    AcceptedFlagsStamped(sigs, c.now);
  }

  /** With unique ids, the ledger holds the reply exactly when the run
      returned its signals or saved no alert. */
  lemma RecheckStoresReply(s: Store, i: nat, me: Account, c: Clock, mail: seq<bool>)
    requires Valid(s) && i < |s.entries|
    ensures var r := Recheck(s, i, me, c, mail);
      r.0.entries[i] == r.1 <==>
        CheckFraudRules(s, s.entries[i], me, c, mail).returned != [] || LeadingAccepted(Signals(s.entries[i], s.entries, me, c)) == 0
  {
    PipelineStoresInMemory(s, s.entries[i], me, c.now, Signals(s.entries[i], s.entries, me, c), mail, i);
  }

  /** When an amount or category-limit signal meets a frequency or night-time
      one, the reply carries a flag the ledger never gets: the run saves the
      first alert and pushes its flag, then fails on the refused type before
      the entry is saved again. */
  lemma RecheckReplyOutrunsLedger(s: Store, i: nat, me: Account, c: Clock, mail: seq<bool>)
    requires i < |s.entries|
    requires HighAmountRule(s.entries[i], s.entries, me, c).Some? || CategoryLimitRule(s.entries[i], s.entries, me, c).Some?
    requires FrequencyRule(s.entries[i], s.entries, me, c).Some? || UnusualTimeRule(s.entries[i], s.entries, me, c).Some?
    ensures var r := Recheck(s, i, me, c, mail);
      r.0.entries[i] == s.entries[i] && |r.1.fraudFlags| > |s.entries[i].fraudFlags|
  {
    AmountSignalAccepted(s.entries[i], s.entries, me, c);
    FrequencyOrNightAlertIsLost(s, s.entries[i], me, c, mail);
    RecheckFlags(s, i, me, c, mail);
  }

  // ------------------------------------------------------------------ create

  /** The confidence above which an AI category replaces `other`. */
  const AiThreshold: real := 0.7

  /** The category the new entry gets, and how it was chosen. */
  datatype CategoryChoice = CategoryChoice(category: Option<string>, aiCategorized: bool, confidence: real)

  /** Only a category of exactly `other` is sent to the model; its answer is
      taken when `categorizeTransactionAI` passes it on and its confidence
      exceeds 0.7. Otherwise the given category stays, with confidence 0. */
  function ChooseCategory(category: Option<string>, ai: AiOutcome<Suggestion>): (r: CategoryChoice)
    ensures category != Some("other") ==> r == CategoryChoice(category, false, 0.0)
    ensures category == Some("other") ==>
      (r.aiCategorized <==> Categorize(ai).Some? && Categorize(ai).value.confidence.value > AiThreshold)
    ensures r.aiCategorized ==>
      && ai.Answered? && r.category == ai.value.category && r.category.Some? && r.category.value != ""
      && Some(r.confidence) == ai.value.confidence && r.confidence > AiThreshold
    ensures !r.aiCategorized ==> r.category == category && r.confidence == 0.0
  {
    if category == Some("other") then
      match Categorize(ai)
      case Some(sug) =>
        if sug.confidence.value > AiThreshold then CategoryChoice(sug.category, true, sug.confidence.value)
        else CategoryChoice(category, false, 0.0)
      case None => CategoryChoice(category, false, 0.0)
    else CategoryChoice(category, false, 0.0)
  }

  /** An answer the service passes on (confidence at least 0.6) but at most
      0.7 confident leaves the category `other`. */
  lemma ConfidenceBetweenGates(name: string, conf: real)
    requires name != "" && MinConfidence <= conf <= AiThreshold
    ensures Categorize(Answered(Suggestion(Some(name), Some(conf)))).Some?
    ensures ChooseCategory(Some("other"), Answered(Suggestion(Some(name), Some(conf)))) == CategoryChoice(Some("other"), false, 0.0)
  {
  }

  /** The parsed `date` of a validated body, `None` when absent. */
  function BodyDate(b: TransactionBody): Option<Instant>
  {
    if b.date.Some? then b.date.value.parsed else None
  }

  /** The `new Transaction({...})` of `POST /`. */
  function CreateDraft(user: UserId, k: Kind, amount: real, b: TransactionBody, choice: CategoryChoice): Draft
  {
    Draft(user, k, amount, b.description, choice.category, b.subcategory, BodyDate(b), b.location,
          b.paymentMethod, b.merchant, b.tags, b.notes, None, choice.aiCategorized, Some(choice.confidence))
  }

  /** The draft `POST /` builds from a body that passed validation. */
  function CreateDraftFor(me: Account, b: TransactionBody, ai: AiOutcome<Suggestion>): Draft
    requires TransactionErrors(b) == []
  {
    var clean := SanitizeTransaction(b);
    CreateDraft(me.id, ParseKind(Field(b.kind)).value, b.amount.value, clean, ChooseCategory(clean.category, ai))
  }

  predicate CreateAccepted(me: Account, b: TransactionBody, ai: AiOutcome<Suggestion>)
  {
    TransactionErrors(b) == [] && DraftAccepted(CreateDraftFor(me, b, ai))
  }

  /** `POST /`: validation, the AI category step, `save()` under the next id,
      then `checkFraudRules` on the new entry (which never fails the
      request). Replies with the in-memory entry; the stored one is that
      entry or the same without its flags. */
  function Create(s: Store, me: Account, b: TransactionBody, ai: AiOutcome<Suggestion>,
                  now: Instant, startOfMonth: int, mail: seq<bool>): (r: Reply<(Store, Entry)>)
    ensures TransactionErrors(b) != [] ==> r.Err? && r.error.status == BadRequest && r.error.errors == TransactionErrors(b)
    ensures r.Ok? <==> CreateAccepted(me, b, ai)
    ensures CreateAccepted(me, b, ai) == false && TransactionErrors(b) == [] ==>
              r == Err(Fail(ServerError, "Server error creating transaction"))
    ensures r.Ok? ==> |r.value.0.entries| == |s.entries| + 1 && r.value.0.users == s.users
    ensures r.Ok? ==> var t := r.value.0.entries[|s.entries|];
      t == r.value.1 || (t.fraudFlags == [] && t == r.value.1.(fraudFlags := []))
  {
    match HandleValidationErrors(TransactionErrors(b))
    case Some(err) => Err(err)
    case None =>
      match Build(s.nextId, CreateDraftFor(me, b, ai), now)
      case Err(_) => Err(Fail(ServerError, "Server error creating transaction"))
      case Ok(e) =>
        assert e.fraudFlags == [];
        Ok(Recheck(AppendEntry(s, e), |s.entries|, me, Clock(now.ms, startOfMonth), mail))
  }

  /** A created entry is the caller's, under the next fresh id, with the
      validated type and amount, the trimmed description, the chosen category,
      the given date or else the current time. */
  lemma CreateRecordsEntry(s: Store, me: Account, b: TransactionBody, ai: AiOutcome<Suggestion>,
                           now: Instant, startOfMonth: int, mail: seq<bool>)
    requires Create(s, me, b, ai, now, startOfMonth, mail).Ok?
    ensures var e := Create(s, me, b, ai, now, startOfMonth, mail).value.1;
      var choice := ChooseCategory(b.category, ai);
      && e.id == s.nextId && e.user == me.id
      && Some(e.kind) == ParseKind(Field(b.kind)) && Some(e.amount) == b.amount
      && e.description == Trim(b.description.value)
      && Some(e.category) == choice.category
      && e.aiCategorized == choice.aiCategorized && e.confidence == Some(choice.confidence)
      && e.date == (if b.date.Some? then b.date.value.parsed.value else now)
      && e.transfer.None? && !e.isReviewed
  {
    TrimIdempotent(b.description.value);
  }

  /** Creating an entry leaves every earlier entry as it was. */
  lemma CreateKeepsEarlierEntries(s: Store, me: Account, b: TransactionBody, ai: AiOutcome<Suggestion>,
                                  now: Instant, startOfMonth: int, mail: seq<bool>)
    requires Valid(s) && Create(s, me, b, ai, now, startOfMonth, mail).Ok?
    ensures var t := Create(s, me, b, ai, now, startOfMonth, mail).value.0;
      forall j :: 0 <= j < |s.entries| ==> t.entries[j] == s.entries[j]
  {
    var e := Build(s.nextId, CreateDraftFor(me, b, ai), now).value;
    assert Valid(AppendEntry(s, e));
  }

  /** Creating an entry keeps ids unique; the fraud alerts it raises are
      appended after the old ones. */
  lemma CreateKeepsIdsValid(s: Store, me: Account, b: TransactionBody, ai: AiOutcome<Suggestion>,
                            now: Instant, startOfMonth: int, mail: seq<bool>)
    requires Valid(s) && Create(s, me, b, ai, now, startOfMonth, mail).Ok?
    ensures var t := Create(s, me, b, ai, now, startOfMonth, mail).value.0;
      Valid(t) && |t.alerts| >= |s.alerts| && t.alerts[..|s.alerts|] == s.alerts
  {
    var e := Build(s.nextId, CreateDraftFor(me, b, ai), now).value;
    assert Valid(AppendEntry(s, e));
  }

  // -------------------------------------------------------------------- list

  /** The query of `GET /`: type, category, an inclusive date range (applied
      only when both ends are given), inclusive amount bounds, and the page. */
  datatype ListQuery = ListQuery(
    kind: Option<string>,
    category: Option<string>,
    startDate: Option<int>,
    endDate: Option<int>,
    minAmount: Option<real>,
    maxAmount: Option<real>,
    page: PageQuery)

  /** The `find` filter of `GET /`; empty strings are falsy and filter nothing. */
  function ListFilter(user: UserId, q: ListQuery): Entry -> bool
  {
    (e: Entry) =>
      && e.user == user
      && (Given(q.kind) ==> KindName(e.kind) == q.kind.value)
      && (Given(q.category) ==> e.category == q.category.value)
      && (q.startDate.Some? && q.endDate.Some? ==> q.startDate.value <= e.date.ms <= q.endDate.value)
      && (q.minAmount.Some? ==> e.amount >= q.minAmount.value)
      && (q.maxAmount.Some? ==> e.amount <= q.maxAmount.value)
  }

  const ListLimit: int := 20

  /** The caller's matching entries, newest first. */
  function Matching(s: Store, user: UserId, q: ListQuery): (r: seq<Entry>)
    ensures SortedDesc(r, DateKey)
    ensures |r| == Count(s.entries, ListFilter(user, q))
    ensures forall e :: e in r <==> e in s.entries && ListFilter(user, q)(e)
  {
    var f := Filter(s.entries, ListFilter(user, q));
    var r := SortDesc(f, DateKey);
    assert forall e :: e in r <==> e in f by {
      forall e ensures e in r <==> e in f {
        assert e in r <==> e in multiset(r);
        assert e in f <==> e in multiset(f);
      }
    }
    assert forall e :: e in f <==> e in s.entries && ListFilter(user, q)(e) by {
      forall e | e in s.entries && ListFilter(user, q)(e) ensures e in f {
        var i :| 0 <= i < |s.entries| && s.entries[i] == e;
      }
      forall e | e in f ensures e in s.entries && ListFilter(user, q)(e) {
        var i :| 0 <= i < |f| && f[i] == e;
      }
    }
    r
  }

  /** `GET /`: one page of the matching entries, newest first, 20 to a page
      unless the query says otherwise, with the total match count. */
  function List(s: Store, user: UserId, q: ListQuery): (r: Reply<(seq<Entry>, Pagination)>)
    ensures r.Ok? <==> Skip(q.page, ListLimit) >= 0
    ensures r.Err? ==> r.error == Fail(ServerError, "Server error fetching transactions")
    ensures r.Ok? ==> r.value.1.total == Count(s.entries, ListFilter(user, q))
    ensures r.Ok? ==> forall i :: 0 <= i < |r.value.0| ==> r.value.0[i] in s.entries && ListFilter(user, q)(r.value.0[i])
    ensures r.Ok? ==> SortedDesc(r.value.0, DateKey)
  {
    var sorted := Matching(s, user, q);
    var r := Paginate(sorted, q.page, ListLimit, "Server error fetching transactions");
    if r.Ok? then
      assert forall i :: 0 <= i < |r.value.0| ==> r.value.0[i] in sorted;
      r
    else r
  }

  /** A first page at least as long as the match count holds every match. */
  lemma ListHoldsEveryMatch(s: Store, user: UserId, q: ListQuery, e: Entry)
    requires q.page == PageQuery(Some(1), Some(Count(s.entries, ListFilter(user, q)) + 1))
    requires e in s.entries && ListFilter(user, q)(e)
    ensures var r := List(s, user, q); r.Ok? && e in r.value.0
  {
    var sorted := Matching(s, user, q);
    var i :| 0 <= i < |sorted| && sorted[i] == e;
    var r := List(s, user, q);
    assert r.value.0 == Window(sorted, 0, |sorted| + 1);
    assert r.value.0[i] == e;
  }

  /** A date range with only one end filters nothing by date: the entries
      matched are those matched with no date bound at all. */
  lemma OneSidedRangeIgnored(s: Store, user: UserId, q: ListQuery)
    requires q.startDate.None? || q.endDate.None?
    ensures Matching(s, user, q) == Matching(s, user, q.(startDate := None, endDate := None))
  {
    FilterAgree(s.entries, ListFilter(user, q), ListFilter(user, q.(startDate := None, endDate := None)));
  }

  // --------------------------------------------------------------------- get

  /** `GET /:id`: only the caller's own entry is found. */
  function GetTransaction(s: Store, user: UserId, id: EntryId): (r: Reply<Entry>)
    ensures r.Ok? <==> exists i :: 0 <= i < |s.entries| && s.entries[i].id == id && s.entries[i].user == user
    ensures r.Ok? ==> r.value in s.entries && r.value.id == id && r.value.user == user
    ensures r.Err? ==> r.error == Fail(NotFound, "Transaction not found")
  {
    match FindOwnedEntry(s.entries, id, user)
    case None => Err(Fail(NotFound, "Transaction not found"))
    case Some(i) => Ok(s.entries[i])
  }

  // ------------------------------------------------------------------ update

  /** What `save()` demands of the fields `PUT /:id` assigns. */
  predicate RevisionAccepted(amount: real, b: TransactionBody)
  {
    && b.description.Some? && |Trim(b.description.value)| > 0
    && b.category.Some? && |b.category.value| > 0
    && amount >= 0.0
    && (b.paymentMethod.Some? ==> ParsePaymentMethod(b.paymentMethod.value).Some?)
    && (b.date.Some? ==> b.date.value.parsed.Some?)
  }

  /** The assignments of `PUT /:id` on the stored entry, then `save()`. Every
      listed field is overwritten, an absent one with `undefined`. A missing
      payment method is modelled as the default `other`, the value it reads
      back as, although the in-memory document has none; the date is kept
      when none is given; flags, review state, AI marks and transfer link are
      untouched. */
  function Revise(e: Entry, k: Kind, amount: real, b: TransactionBody): (r: Result<Entry, SchemaError>)
    ensures r.Ok? ==> RevisionAccepted(amount, b) && SchemaValid(r.value)
    ensures SchemaValid(e) && RevisionAccepted(amount, b) ==> r.Ok?
    ensures r.Ok? ==>
      && r.value.id == e.id && r.value.user == e.user && r.value.kind == k && r.value.amount == amount
      && r.value.description == Trim(b.description.value) && r.value.category == b.category.value
      && r.value.date == (if b.date.Some? then b.date.value.parsed.value else e.date)
    ensures r.Ok? ==>
      && r.value.fraudFlags == e.fraudFlags && r.value.isReviewed == e.isReviewed && r.value.transfer == e.transfer
      && r.value.aiCategorized == e.aiCategorized && r.value.confidence == e.confidence
  {
    if b.description.None? || |Trim(b.description.value)| == 0 then Err(SchemaError("description"))
    else if b.category.None? || |b.category.value| == 0 then Err(SchemaError("category"))
    else if amount < 0.0 then Err(SchemaError("amount"))
    else if b.paymentMethod.Some? && ParsePaymentMethod(b.paymentMethod.value).None? then Err(SchemaError("paymentMethod"))
    else if b.date.Some? && b.date.value.parsed.None? then Err(SchemaError("date"))
    else
      var pm := if b.paymentMethod.Some? then ParsePaymentMethod(b.paymentMethod.value).value else OtherMethod;
      var date := if b.date.Some? then b.date.value.parsed.value else e.date;
      Validate(Entry(e.id, e.user, k, amount, Trim(b.description.value), b.category.value,
                     TrimOpt(b.subcategory), date, TrimOpt(b.location), pm, TrimOpt(b.merchant),
                     e.currency, e.exchangeRate, TrimAll(b.tags), e.isRecurring, e.recurring, e.transfer,
                     e.fraudFlags, e.isReviewed, TrimOpt(b.notes), e.aiCategorized, e.confidence))
  }

  /** `PUT /:id`: validation, the owner-scoped lookup, the assignments and
      `save()`, then `checkFraudRules` on the saved entry; the reply is the
      in-memory entry, as for `POST /`. */
  function Update(s: Store, me: Account, id: EntryId, b: TransactionBody,
                  now: Instant, startOfMonth: int, mail: seq<bool>): (r: Reply<(Store, Entry)>)
    ensures TransactionErrors(b) != [] ==> r.Err? && r.error.status == BadRequest && r.error.errors == TransactionErrors(b)
    ensures TransactionErrors(b) == [] && FindOwnedEntry(s.entries, id, me.id).None? ==>
              r == Err(Fail(NotFound, "Transaction not found"))
    ensures r.Err? && r.error.status == ServerError ==> r.error == Fail(ServerError, "Server error updating transaction")
    ensures r.Ok? ==> |r.value.0.entries| == |s.entries| && r.value.0.users == s.users
    ensures r.Ok? ==> r.value.1.id == id && r.value.1.user == me.id
  {
    match HandleValidationErrors(TransactionErrors(b))
    case Some(err) => Err(err)
    case None =>
      match FindOwnedEntry(s.entries, id, me.id)
      case None => Err(Fail(NotFound, "Transaction not found"))
      case Some(i) =>
        match Revise(s.entries[i], ParseKind(Field(b.kind)).value, b.amount.value, SanitizeTransaction(b))
        case Err(_) => Err(Fail(ServerError, "Server error updating transaction"))
        case Ok(e) =>
          Ok(Recheck(s.(entries := s.entries[i := e]), i, me, Clock(now.ms, startOfMonth), mail))
  }

  /** An accepted update of a valid entry: the reply's date is the old one
      when the body gives none, and its AI mark and confidence survive a
      change of category. */
  lemma UpdateKeepsUntouchedFields(s: Store, me: Account, id: EntryId, b: TransactionBody,
                                   now: Instant, startOfMonth: int, mail: seq<bool>)
    requires Update(s, me, id, b, now, startOfMonth, mail).Ok?
    ensures var i := FindOwnedEntry(s.entries, id, me.id).value;
      var prior := s.entries[i];
      var e := Update(s, me, id, b, now, startOfMonth, mail).value.1;
      && (b.date.None? ==> e.date == prior.date)
      && Some(e.category) == b.category && Some(e.amount) == b.amount
      && e.aiCategorized == prior.aiCategorized && e.confidence == prior.confidence
      && e.isReviewed == prior.isReviewed && e.transfer == prior.transfer
  {
  }

  /** An accepted update replies with the in-memory document. The stored copy
      differs from it at most in its flags: it is the reply itself, or the
      revised entry with the flags it had before the update. */
  lemma UpdateStoresReply(s: Store, me: Account, id: EntryId, b: TransactionBody,
                          now: Instant, startOfMonth: int, mail: seq<bool>)
    requires Update(s, me, id, b, now, startOfMonth, mail).Ok?
    ensures var i := FindOwnedEntry(s.entries, id, me.id).value;
      var r := Update(s, me, id, b, now, startOfMonth, mail).value;
      && i < |r.0.entries|
      && r.0.entries[i].(fraudFlags := r.1.fraudFlags) == r.1
      && (r.0.entries[i] == r.1 || r.0.entries[i].fraudFlags == s.entries[i].fraudFlags)
  {
    var i := FindOwnedEntry(s.entries, id, me.id).value;
    var e := Revise(s.entries[i], ParseKind(Field(b.kind)).value, b.amount.value, SanitizeTransaction(b)).value;
    var s1 := s.(entries := s.entries[i := e]);
    assert Update(s, me, id, b, now, startOfMonth, mail) == Ok(Recheck(s1, i, me, Clock(now.ms, startOfMonth), mail));
  }

  /** Rewriting an entry under its own id keeps the ids unique. */
  lemma ReplaceKeepsValid(s: Store, i: nat, e: Entry)
    requires Valid(s) && i < |s.entries| && e.id == s.entries[i].id
    ensures Valid(s.(entries := s.entries[i := e]))
  {
    var t := s.(entries := s.entries[i := e]);
    assert forall j :: 0 <= j < |t.entries| ==> t.entries[j].id == s.entries[j].id;
  }

  /** With unique ids, an update rewrites only the caller's entry: every other
      entry is left as it was. */
  lemma UpdateTouchesOnlyTarget(s: Store, me: Account, id: EntryId, b: TransactionBody,
                                now: Instant, startOfMonth: int, mail: seq<bool>)
    requires Valid(s) && Update(s, me, id, b, now, startOfMonth, mail).Ok?
    ensures var i := FindOwnedEntry(s.entries, id, me.id).value;
      var t := Update(s, me, id, b, now, startOfMonth, mail).value.0;
      forall j :: 0 <= j < |s.entries| && j != i ==> t.entries[j] == s.entries[j]
  {
    var i := FindOwnedEntry(s.entries, id, me.id).value;
    var e := Revise(s.entries[i], ParseKind(Field(b.kind)).value, b.amount.value, SanitizeTransaction(b)).value;
    var s1 := s.(entries := s.entries[i := e]);
    var r := Recheck(s1, i, me, Clock(now.ms, startOfMonth), mail);
    assert Update(s, me, id, b, now, startOfMonth, mail) == Ok(r);
    assert Valid(s1) by {
      ReplaceKeepsValid(s, i, e);
    }
    var t := Update(s, me, id, b, now, startOfMonth, mail).value.0;
    assert t == r.0;
    forall j | 0 <= j < |s.entries| && j != i
      ensures t.entries[j] == s.entries[j]
    {
      assert s1.entries[j] == s.entries[j];
    }
  }

  // ------------------------------------------------------------------ delete

  function HasOtherId(id: EntryId): Entry -> bool { (e: Entry) => e.id != id }

  /** `DELETE /:id`: `findOneAndDelete` scoped to the caller. Alerts that
      point at the entry are kept. */
  function Delete(s: Store, user: UserId, id: EntryId): (r: Reply<Store>)
    ensures r.Ok? <==> exists i :: 0 <= i < |s.entries| && s.entries[i].id == id && s.entries[i].user == user
    ensures r.Err? ==> r.error == Fail(NotFound, "Transaction not found")
    ensures r.Ok? ==> |r.value.entries| == |s.entries| - 1
    ensures r.Ok? ==> r.value.users == s.users && r.value.alerts == s.alerts && r.value.nextId == s.nextId
  {
    match FindOwnedEntry(s.entries, id, user)
    case None => Err(Fail(NotFound, "Transaction not found"))
    case Some(i) => Ok(s.(entries := s.entries[..i] + s.entries[i + 1..]))
  }

  /** With unique ids, a delete removes exactly the entry with that id and
      keeps every other one, in order. */
  lemma DeleteRemovesExactly(s: Store, user: UserId, id: EntryId)
    requires Valid(s) && Delete(s, user, id).Ok?
    ensures Delete(s, user, id).value.entries == Filter(s.entries, HasOtherId(id))
  {
    var i := FindOwnedEntry(s.entries, id, user).value;
    var t := Delete(s, user, id).value;
    assert t.entries == s.entries[..i] + s.entries[i + 1..];
    assert Filter(s.entries, HasOtherId(id)) == s.entries[..i] + s.entries[i + 1..] by {
      assert forall j :: 0 <= j < |s.entries| && j != i ==> s.entries[j].id != id;
      FilterRemovesOne(s.entries, i, HasOtherId(id));
    }
  }

  /** A delete keeps the ids unique. */
  lemma DeleteKeepsIdsValid(s: Store, user: UserId, id: EntryId)
    requires Valid(s) && Delete(s, user, id).Ok?
    ensures Valid(Delete(s, user, id).value)
  {
    var i := FindOwnedEntry(s.entries, id, user).value;
    var t := Delete(s, user, id).value;
    assert forall j :: 0 <= j < i ==> t.entries[j] == s.entries[j];
    assert forall j :: i <= j < |t.entries| ==> t.entries[j] == s.entries[j + 1];
  }

  // ------------------------------------------------------- category spending

  /** The caller's expenses, within the inclusive range when both ends are given. */
  function IsSpendingIn(user: UserId, start: Option<int>, end: Option<int>): Entry -> bool
  {
    (e: Entry) => e.user == user && e.kind == Expense &&
      (start.Some? && end.Some? ==> start.value <= e.date.ms <= end.value)
  }

  function CategoryOf(e: Entry): string { e.category }

  /** `avgAmount` of a spending group. */
  function AverageAmount(g: Group<string>): real
    requires g.count > 0
  {
    g.total / g.count as real
  }

  /** `GET /categories/spending`: expenses grouped by category, largest total
      first. Each category has one row, holding exactly the total and count of
      its expenses, and every category with an expense has a row. */
  function CategorySpending(s: Store, user: UserId, start: Option<int>, end: Option<int>): (r: seq<Group<string>>)
    ensures SortedDesc(r, GroupTotal)
    ensures DistinctKeys(r)
    ensures var f := Filter(s.entries, IsSpendingIn(user, start, end));
      forall i :: 0 <= i < |r| ==>
        && r[i].total == SumForKey(f, CategoryOf, Amount, r[i].key)
        && r[i].count == CountForKey(f, CategoryOf, r[i].key) && r[i].count > 0
    ensures forall e :: e in s.entries && IsSpendingIn(user, start, end)(e) ==>
              exists i :: 0 <= i < |r| && r[i].key == e.category
  {
    var f := Filter(s.entries, IsSpendingIn(user, start, end));
    var g := GroupBy(f, CategoryOf, Amount);
    var r := SortDesc(g, GroupTotal);
    ReorderedGroups(f, CategoryOf, Amount, r);
    forall e | e in s.entries && IsSpendingIn(user, start, end)(e)
      ensures exists i :: 0 <= i < |r| && r[i].key == e.category
    {
      var k :| 0 <= k < |f| && f[k] == e;
      assert CategoryOf(f[k]) == e.category;
    }
    r
  }
}

=== FILE: validation.dfy ===
/** The request validators of `server/middleware/validation.js`: each chain
    of express-validator rules becomes a function from the request body to the
    list of failed checks, in chain order, and `handleValidationErrors` turns a
    non-empty list into a 400 reply. */
module Validation {
  import opened Wrappers
  import opened Text
  import opened Http
  import opened TransactionModel

  /** A body field as express-validator reads it: a missing field is the empty
      string. */
  function Field(o: Option<string>): string
  {
    o.GetOr("")
  }

  /** `isLength({ min, max })`. */
  predicate LengthBetween(s: string, min: nat, max: nat)
  {
    min <= |s| <= max
  }

  /** One rule of a chain: whether it holds, the field it checks and the
      message it reports. */
  datatype Rule = Rule(ok: bool, field: string, message: string)

  /** Whether the error list names `field`. */
  predicate Names(errors: seq<FieldError>, field: string)
  {
    exists i :: 0 <= i < |errors| && errors[i].field == field
  }

  /** Whether some failing rule checks `field`. */
  predicate Fails(rules: seq<Rule>, field: string)
  {
    exists i :: 0 <= i < |rules| && !rules[i].ok && rules[i].field == field
  }

  /** Runs a chain: one error per failing rule, in chain order. */
  function Run(rules: seq<Rule>): (r: seq<FieldError>)
    ensures |r| <= |rules|
    ensures r == [] <==> forall i :: 0 <= i < |rules| ==> rules[i].ok
    ensures forall f :: Names(r, f) <==> Fails(rules, f)
    ensures forall i :: 0 <= i < |rules| && !rules[i].ok ==> FieldError(rules[i].field, rules[i].message) in r
  {
    if |rules| == 0 then []
    else
      var rest := Run(rules[1..]);
      var head := if rules[0].ok then [] else [FieldError(rules[0].field, rules[0].message)];
      var r := head + rest;
      forall f ensures Names(r, f) <==> Fails(rules, f) {
        if Names(rest, f) {
          var j :| 1 <= j + 1 < |rules| && !rules[1..][j].ok && rules[1..][j].field == f;
          assert rules[j + 1] == rules[1..][j];
        }
        if Fails(rules, f) {
          var j :| 0 <= j < |rules| && !rules[j].ok && rules[j].field == f;
          if j > 0 {
            assert rules[1..][j - 1] == rules[j];
            assert Fails(rules[1..], f);
            var k :| 0 <= k < |rest| && rest[k].field == f;
            assert r[|head| + k] == rest[k];
          } else {
            assert r[0].field == f;
          }
        }
      }
      forall i | 0 <= i < |rules| && !rules[i].ok ensures FieldError(rules[i].field, rules[i].message) in r {
        if i > 0 {
          assert rules[1..][i - 1] == rules[i];
        }
      }
      assert (forall i :: 0 <= i < |rules| ==> rules[i].ok) ==> head == [] && forall i :: 0 <= i < |rules[1..]| ==> rules[1..][i].ok;
      r
  }

  /** For a chain of rules on distinct fields, a field is named in the errors
      exactly when its own rule fails. */
  lemma FailsOwnRule(rules: seq<Rule>, k: nat)
    requires k < |rules|
    requires forall i :: 0 <= i < |rules| && i != k ==> rules[i].field != rules[k].field
    ensures Fails(rules, rules[k].field) <==> !rules[k].ok
  {
  }

  /** `handleValidationErrors`: a 400 reply carrying the whole list when any
      rule failed, `None` (call `next()`) otherwise. */
  function HandleValidationErrors(errors: seq<FieldError>): (r: Option<HttpError>)
    ensures r.None? <==> |errors| == 0
    ensures r.Some? ==> r.value.status == BadRequest && r.value.errors == errors
  {
    if |errors| == 0 then None else Some(HttpError(BadRequest, "Validation failed 1", errors))
  }

  // --------------------------------------------------------------------- email

  function IndexOfChar(s: string, c: char): (r: Option<nat>)
    ensures r.Some? ==> r.value < |s| && s[r.value] == c && c !in s[..r.value]
    ensures r.None? ==> c !in s
  {
    if |s| == 0 then None
    else if s[0] == c then Some(0)
    else
      var r := IndexOfChar(s[1..], c);
      if r.Some? then
        assert s[..r.value + 1] == [s[0]] + s[1..][..r.value];
        Some(r.value + 1)
      else None
  }

  /** A simplified `isEmail()`: no whitespace, exactly one `@` with a non-empty
      local part before it, and a domain after it holding a dot that neither
      starts nor ends it. */
  predicate IsEmail(s: string)
  {
    && (forall i :: 0 <= i < |s| ==> !IsSpace(s[i]))
    && CountChar(s, '@') == 1
    && var at := IndexOfChar(s, '@');
       at.Some? && 0 < at.value && DomainShaped(s[at.value + 1..])
  }

  predicate DomainShaped(d: string)
  {
    |d| >= 3 && '.' in d && d[0] != '.' && d[|d| - 1] != '.'
  }

  // ---------------------------------------------------------------- transfers

  /** The body of `POST /api/wallet/transfer`; `amount` is the value's reading
      as a float (`None` when it is not numeric). */
  datatype TransferBody = TransferBody(toEmail: Option<string>, amount: Option<real>, description: Option<string>)

  /** `isFloat({ min: 0.01 })`. */
  predicate PositiveAmount(a: Option<real>)
  {
    a.Some? && a.value >= 0.01
  }

  /** `trim().isLength({ min: 1, max: 200 })`. */
  predicate DescriptionOk(d: Option<string>)
  {
    LengthBetween(Trim(Field(d)), 1, 200)
  }

  /** `transferValidation`, in chain order. */
  function TransferRules(b: TransferBody): seq<Rule>
  {
    [ Rule(IsEmail(Field(b.toEmail)), "toEmail", "Please provide a valid recipient email"),
      Rule(PositiveAmount(b.amount), "amount", "Amount must be greater than 0"),
      Rule(DescriptionOk(b.description), "description", "Description must be between 1 and 200 characters") ]
  }

  function TransferErrors(b: TransferBody): (r: seq<FieldError>)
    ensures |r| <= 3
    ensures r == [] <==> IsEmail(Field(b.toEmail)) && PositiveAmount(b.amount) && DescriptionOk(b.description)
  {
    var rules := TransferRules(b);
    var ok := [rules[0].ok, rules[1].ok, rules[2].ok];
    assert (forall i :: 0 <= i < |rules| ==> rules[i].ok) <==> ok[0] && ok[1] && ok[2];
    Run(rules)
  }

  /** Each field is reported exactly when its own rule fails. */
  lemma TransferErrorsNameFailures(b: TransferBody)
    ensures Names(TransferErrors(b), "toEmail") <==> !IsEmail(Field(b.toEmail))
    ensures Names(TransferErrors(b), "amount") <==> !PositiveAmount(b.amount)
    ensures Names(TransferErrors(b), "description") <==> !DescriptionOk(b.description)
  {
    var rules := TransferRules(b);
    FailsOwnRule(rules, 0);
    FailsOwnRule(rules, 1);
    FailsOwnRule(rules, 2);
  }

  // ------------------------------------------------------------- transactions

  /** How the `date` field reads: its text and, when it is ISO 8601, the
      instant it denotes. */
  datatype DateField = DateField(text: string, parsed: Option<Instant>)

  /** The body of `POST` and `PUT /api/transactions`. */
  datatype TransactionBody = TransactionBody(
    kind: Option<string>,
    amount: Option<real>,
    description: Option<string>,
    category: Option<string>,
    subcategory: Option<string>,
    date: Option<DateField>,
    location: Option<string>,
    paymentMethod: Option<string>,
    merchant: Option<string>,
    tags: seq<string>,
    notes: Option<string>)

  predicate KindOk(k: Option<string>)
  {
    ParseKind(Field(k)).Some?
  }

  /** `optional().isISO8601()`: absent, or a parseable date. */
  predicate DateOk(d: Option<DateField>)
  {
    d.None? || d.value.parsed.Some?
  }

  /** `transactionValidation`, in chain order. Category and payment method are
      not checked here. */
  function TransactionRules(b: TransactionBody): seq<Rule>
  {
    [ Rule(KindOk(b.kind), "type", "Invalid transaction type"),
      Rule(PositiveAmount(b.amount), "amount", "Amount must be greater than 0"),
      Rule(DescriptionOk(b.description), "description", "Description must be between 1 and 200 characters"),
      Rule(DateOk(b.date), "date", "Invalid date format") ]
  }

  function TransactionErrors(b: TransactionBody): (r: seq<FieldError>)
    ensures |r| <= 4
    ensures r == [] <==> KindOk(b.kind) && PositiveAmount(b.amount) && DescriptionOk(b.description) && DateOk(b.date)
  {
    var rules := TransactionRules(b);
    var ok := [rules[0].ok, rules[1].ok, rules[2].ok, rules[3].ok];
    assert (forall i :: 0 <= i < |rules| ==> rules[i].ok) <==> ok[0] && ok[1] && ok[2] && ok[3];
    Run(rules)
  }

  /** Each field is reported exactly when its own rule fails; category and
      payment method are never reported. */
  lemma TransactionErrorsNameFailures(b: TransactionBody)
    ensures Names(TransactionErrors(b), "type") <==> !KindOk(b.kind)
    ensures Names(TransactionErrors(b), "amount") <==> !PositiveAmount(b.amount)
    ensures Names(TransactionErrors(b), "description") <==> !DescriptionOk(b.description)
    ensures Names(TransactionErrors(b), "date") <==> !DateOk(b.date)
    ensures !Names(TransactionErrors(b), "category") && !Names(TransactionErrors(b), "paymentMethod")
  {
    var rules := TransactionRules(b);
    FailsOwnRule(rules, 0);
    FailsOwnRule(rules, 1);
    FailsOwnRule(rules, 2);
    FailsOwnRule(rules, 3);
  }

  /** The body after the chain's sanitizers: `trim()` rewrites the description. */
  function SanitizeTransaction(b: TransactionBody): TransactionBody
  {
    b.(description := if b.description.Some? then Some(Trim(b.description.value)) else None)
  }

  // ------------------------------------------------------------ registration

  datatype RegisterBody = RegisterBody(firstName: Option<string>, lastName: Option<string>,
                                       email: Option<string>, password: Option<string>)

  /** The message the password rule reports: the last `withMessage` wins. */
  const PasswordMessage: string := "Password must contain at least one uppercase letter, one lowercase letter, and one number"

  /** `registerValidation`, in chain order. The password rule checks only the
      length, whatever its message says. */
  function RegisterRules(b: RegisterBody): seq<Rule>
  {
    [ Rule(LengthBetween(Trim(Field(b.firstName)), 2, 50), "firstName", "First name must be between 2 and 50 characters"),
      Rule(LengthBetween(Trim(Field(b.lastName)), 2, 50), "lastName", "Last name must be between 2 and 50 characters"),
      Rule(IsEmail(Field(b.email)), "email", "Please provide a valid email"),
      Rule(|Field(b.password)| >= 6, "password", PasswordMessage) ]
  }

  function RegisterErrors(b: RegisterBody): (r: seq<FieldError>)
    ensures |r| <= 4
    ensures r == [] <==> NamesOk(b) && IsEmail(Field(b.email)) && |Field(b.password)| >= 6
  {
    var rules := RegisterRules(b);
    var ok := [rules[0].ok, rules[1].ok, rules[2].ok, rules[3].ok];
    assert (forall i :: 0 <= i < |rules| ==> rules[i].ok) <==> ok[0] && ok[1] && ok[2] && ok[3];
    Run(rules)
  }

  /** Both trimmed names have 2 to 50 characters. */
  predicate NamesOk(b: RegisterBody)
  {
    LengthBetween(Trim(Field(b.firstName)), 2, 50) && LengthBetween(Trim(Field(b.lastName)), 2, 50)
  }

  /** The password is reported exactly when it is shorter than six characters,
      and then with the complexity message. */
  lemma RegisterPasswordRule(b: RegisterBody)
    ensures Names(RegisterErrors(b), "password") <==> |Field(b.password)| < 6
    ensures |Field(b.password)| < 6 ==> FieldError("password", PasswordMessage) in RegisterErrors(b)
  {
    var rules := RegisterRules(b);
    FailsOwnRule(rules, 3);
  }

  /** Any password of six characters or more passes whatever its characters,
      so one with no upper-case letter and no digit passes too, although the
      message asks for both. */
  lemma RegisterIgnoresComplexity(b: RegisterBody)
    requires |Field(b.password)| >= 6
    ensures !Names(RegisterErrors(b), "password")
  {
    RegisterPasswordRule(b);
  }

  // ------------------------------------------------------------------- login

  datatype LoginBody = LoginBody(email: Option<string>, password: Option<string>)

  /** `loginValidation`, in chain order: a valid email and a non-empty password. */
  function LoginRules(b: LoginBody): seq<Rule>
  {
    [ Rule(IsEmail(Field(b.email)), "email", "Please provide a valid email"),
      Rule(|Field(b.password)| > 0, "password", "Password is required") ]
  }

  function LoginErrors(b: LoginBody): (r: seq<FieldError>)
    ensures |r| <= 2
    ensures r == [] <==> IsEmail(Field(b.email)) && |Field(b.password)| > 0
  {
    var rules := LoginRules(b);
    var ok := [rules[0].ok, rules[1].ok];
    assert (forall i :: 0 <= i < |rules| ==> rules[i].ok) <==> ok[0] && ok[1];
    Run(rules)
  }

  /** Each field is reported exactly when its own rule fails. */
  lemma LoginErrorsNameFailures(b: LoginBody)
    ensures Names(LoginErrors(b), "email") <==> !IsEmail(Field(b.email))
    ensures Names(LoginErrors(b), "password") <==> b.password.None? || |b.password.value| == 0
  {
    var rules := LoginRules(b);
    FailsOwnRule(rules, 0);
    FailsOwnRule(rules, 1);
  }
}

=== FILE: wallet.dfy ===
/** The wallet routes of `server/routes/wallet.js`: reading the balance,
    depositing funds, moving money between two users as one atomic step (two
    balance updates and two ledger entries sharing a transfer id), the
    transfer history and the recent-contacts list. */
module Wallet {
  import opened Wrappers
  import opened Seqs
  import opened Sorting
  import opened Text
  import opened Http
  import opened Paging
  import opened TransactionModel
  import opened Store
  import opened Validation

  // ------------------------------------------------------------------ balance

  /** `GET /balance`: the stored balance of the caller, or 404. */
  function GetBalance(s: Store, user: UserId): (r: Reply<real>)
    ensures r.Ok? <==> FindUser(s.users, user).Some?
    ensures r.Ok? ==> r.value == s.users[FindUser(s.users, user).value].balance
    ensures r.Err? ==> r.error == Fail(NotFound, "User not found")
  {
    match FindUser(s.users, user)
    case None => Err(Fail(NotFound, "User not found"))
    case Some(i) => Ok(s.users[i].balance)
  }

  /** Adds `amount` to the balance of account `i` (`$inc` on `wallet.balance`). */
  function Credit(users: seq<Account>, i: nat, amount: real): (r: seq<Account>)
    requires i < |users|
    ensures |r| == |users|
    ensures r[i].balance == users[i].balance + amount && r[i].id == users[i].id && r[i].email == users[i].email
    ensures forall j :: 0 <= j < |users| && j != i ==> r[j] == users[j]
    ensures TotalBalance(r) == TotalBalance(users) + amount
  {
    TotalBalanceUpdate(users, i, users[i].balance + amount);
    users[i := users[i].(balance := users[i].balance + amount)]
  }

  // ---------------------------------------------------------------- add funds

  const DepositLimit: real := 10000.0

  /** The description a deposit gets when the body has none. */
  const DepositNote: string := "Add funds to wallet"

  datatype Deposit = Deposit(balance: real, entry: EntryId, amount: real)

  /** The ledger entry a deposit records: an income in category `other`, paid
      from the wallet. */
  function DepositDraft(user: UserId, amount: real, description: string): Draft
  {
    MinimalDraft(user, Income, amount, description, "other").(paymentMethod := Some("wallet"))
  }

  /** When `POST /add-funds` succeeds: a positive amount of at most 10000, an
      existing user and a description that is not blank once trimmed (a blank
      one fails the entry's validation, which aborts the whole session). */
  predicate DepositAllowed(s: Store, user: UserId, amount: Option<real>, description: Option<string>)
  {
    && amount.Some? && 0.0 < amount.value <= DepositLimit
    && FindUser(s.users, user).Some?
    && |Trim(description.GetOr(DepositNote))| > 0
  }

  /** `POST /add-funds`. `amount` is the body's value after `parseFloat`
      (`None` for a missing or non-numeric value). The balance update and the
      new entry are committed together or not at all. */
  function AddFunds(s: Store, user: UserId, amount: Option<real>, description: Option<string>, now: Instant): (r: Reply<(Store, Deposit)>)
    ensures r.Ok? <==> DepositAllowed(s, user, amount, description)
    ensures amount.None? || amount.value <= 0.0 ==> r == Err(Fail(BadRequest, "Invalid amount. Must be a positive number."))
    ensures amount.Some? && amount.value > DepositLimit ==> r == Err(Fail(BadRequest, "Amount cannot exceed $10,000"))
    ensures r.Err? && r.error.status != BadRequest ==> r.error == Fail(ServerError, "Server error adding funds")
  {
    if amount.None? || amount.value <= 0.0 then Err(Fail(BadRequest, "Invalid amount. Must be a positive number."))
    else if amount.value > DepositLimit then Err(Fail(BadRequest, "Amount cannot exceed $10,000"))
    else match FindUser(s.users, user)
      case None => Err(Fail(ServerError, "Server error adding funds"))
      case Some(i) =>
        var users := Credit(s.users, i, amount.value);
        match Build(s.nextId, DepositDraft(user, amount.value, description.GetOr(DepositNote)), now)
        case Err(_) => Err(Fail(ServerError, "Server error adding funds"))
        case Ok(e) => Ok((AppendEntry(s.(users := users), e), Deposit(users[i].balance, e.id, amount.value)))
  }

  /** A successful deposit raises the caller's balance, and the sum of all
      balances, by exactly the amount, touches no other account and appends
      one wallet income entry for the caller. */
  lemma AddFundsEffect(s: Store, user: UserId, amount: Option<real>, description: Option<string>, now: Instant)
    requires AddFunds(s, user, amount, description, now).Ok?
    ensures var (t, d) := AddFunds(s, user, amount, description, now).value;
            var i := FindUser(s.users, user).value;
            && |t.users| == |s.users|
            && t.users[i].balance == s.users[i].balance + amount.value == d.balance
            && (forall j :: 0 <= j < |s.users| && j != i ==> t.users[j] == s.users[j])
            && TotalBalance(t.users) == TotalBalance(s.users) + amount.value
            && |t.entries| == |s.entries| + 1 && t.entries[..|s.entries|] == s.entries
            && var e := t.entries[|s.entries|];
               e.id == d.entry && e.user == user && e.kind == Income && e.amount == amount.value == d.amount
               && e.category == "other" && e.paymentMethod == Wallet
               && e.description == Trim(description.GetOr(DepositNote))
    ensures Valid(s) ==> Valid(AddFunds(s, user, amount, description, now).value.0)
  {
    var i := FindUser(s.users, user).value;
    var t := AddFunds(s, user, amount, description, now).value.0;
    assert t.entries[..|s.entries|] == s.entries;
  }

  /** Without a description a deposit is never refused for it, and the
      balance read back afterwards is the old one plus the amount. */
  lemma DepositThenBalance(s: Store, user: UserId, amount: real, now: Instant)
    requires 0.0 < amount <= DepositLimit && FindUser(s.users, user).Some?
    ensures AddFunds(s, user, Some(amount), None, now).Ok?
    ensures GetBalance(AddFunds(s, user, Some(amount), None, now).value.0, user)
            == Ok(GetBalance(s, user).value + amount)
  {
    TrimKeepsHead(DepositNote);
    var i := FindUser(s.users, user).value;
    var t := AddFunds(s, user, Some(amount), None, now).value.0;
    assert FindUser(t.users, user) == Some(i) by {
      assert forall j :: 0 <= j < |s.users| ==> t.users[j].id == s.users[j].id;
    }
  }

  // ----------------------------------------------------------------- transfer

  /** What the transfer reply carries besides its message. */
  datatype Receipt = Receipt(transferId: string, balance: real, recipientName: string, recipientEmail: string)

  function FullName(a: Account): string
  {
    a.firstName + " " + a.lastName
  }

  /** The sender's ledger entry. */
  function OutDraft(from: Account, to: Account, amount: real, description: string, transferId: string): Draft
  {
    MinimalDraft(from.id, TransferOut, amount, "Transfer to " + FullName(to) + ": " + description, "transfer")
      .(paymentMethod := Some("wallet"), transfer := Some(TransferInfo(from.id, to.id, transferId)))
  }

  /** The recipient's ledger entry. */
  function InDraft(from: Account, to: Account, amount: real, description: string, transferId: string): Draft
  {
    MinimalDraft(to.id, TransferIn, amount, "Transfer from " + FullName(from) + ": " + description, "transfer")
      .(paymentMethod := Some("wallet"), transfer := Some(TransferInfo(from.id, to.id, transferId)))
  }

  /** When a transfer goes through: another recipient email, a recipient and
      a sender on file, enough balance, and an amount the ledger accepts
      (not negative). */
  predicate TransferAllowed(s: Store, me: Account, toEmail: string, amount: real)
  {
    && toEmail != me.email
    && FindUserByEmail(s.users, toEmail).Some?
    && FindUser(s.users, me.id).Some?
    && s.users[FindUser(s.users, me.id).value].balance >= amount
    && amount >= 0.0
  }

  /** The handler of `POST /transfer`, after validation. `me` is the caller
      as the authentication step loaded it; `transferId` is the fresh UUID.
      Both balance updates and both entries are committed together or not at
      all. */
  function Transfer(s: Store, me: Account, toEmail: string, amount: real, description: string,
                    transferId: string, now: Instant): (r: Reply<(Store, Receipt)>)
    ensures r.Ok? <==> TransferAllowed(s, me, toEmail, amount)
    ensures toEmail == me.email ==> r == Err(Fail(BadRequest, "Cannot transfer to yourself"))
    ensures toEmail != me.email && FindUserByEmail(s.users, toEmail).None? ==> r == Err(Fail(NotFound, "Recipient not found"))
    ensures (toEmail != me.email && FindUserByEmail(s.users, toEmail).Some? && FindUser(s.users, me.id).Some?
             && s.users[FindUser(s.users, me.id).value].balance < amount) ==> r == Err(Fail(BadRequest, "Insufficient balance"))
    ensures r.Err? && r.error.status == ServerError ==> r.error.message == "Server error processing transfer"
  {
    if toEmail == me.email then Err(Fail(BadRequest, "Cannot transfer to yourself"))
    else
      var sender := FindUser(s.users, me.id);
      var recipient := FindUserByEmail(s.users, toEmail);
      if recipient.None? then Err(Fail(NotFound, "Recipient not found"))
      else if sender.None? then Err(Fail(ServerError, "Server error processing transfer"))
      else
        var si, ri := sender.value, recipient.value;
        var from, to := s.users[si], s.users[ri];
        if from.balance < amount then Err(Fail(BadRequest, "Insufficient balance"))
        else
          var users := Credit(Credit(s.users, si, -amount), ri, amount);
          TrimKeepsHead(OutDraft(from, to, amount, description, transferId).description.value);
          TrimKeepsHead(InDraft(from, to, amount, description, transferId).description.value);
          var out := Build(s.nextId, OutDraft(from, to, amount, description, transferId), now);
          var inn := Build(s.nextId + 1, InDraft(from, to, amount, description, transferId), now);
          if out.Err? || inn.Err? then Err(Fail(ServerError, "Server error processing transfer"))
          else
            var t := AppendEntry(AppendEntry(s.(users := users), out.value), inn.value);
            Ok((t, Receipt(transferId, users[si].balance, FullName(to), to.email)))
  }

  /** The caller's account on file carries the caller's email (the
      authentication step loads `me` from the same collection). */
  predicate CallerOnFile(s: Store, me: Account)
  {
    forall i :: 0 <= i < |s.users| && s.users[i].id == me.id ==> s.users[i].email == me.email
  }

  /** A transfer creates no money and destroys none. */
  lemma TransferConservesMoney(s: Store, me: Account, toEmail: string, amount: real, description: string,
                               transferId: string, now: Instant)
    requires Transfer(s, me, toEmail, amount, description, transferId, now).Ok?
    ensures TotalBalance(Transfer(s, me, toEmail, amount, description, transferId, now).value.0.users) == TotalBalance(s.users)
  {
    var si, ri := FindUser(s.users, me.id).value, FindUserByEmail(s.users, toEmail).value;
    var u1 := Credit(s.users, si, -amount);
    var u2 := Credit(u1, ri, amount);
    assert Transfer(s, me, toEmail, amount, description, transferId, now).value.0.users == u2;
  }

  /** A transfer hands out two fresh ids and keeps them unique. */
  lemma TransferKeepsIdsValid(s: Store, me: Account, toEmail: string, amount: real, description: string,
                              transferId: string, now: Instant)
    requires Transfer(s, me, toEmail, amount, description, transferId, now).Ok? && Valid(s)
    ensures Valid(Transfer(s, me, toEmail, amount, description, transferId, now).value.0)
    ensures Transfer(s, me, toEmail, amount, description, transferId, now).value.0.nextId == s.nextId + 2
  {
    var si, ri := FindUser(s.users, me.id).value, FindUserByEmail(s.users, toEmail).value;
    var from, to := s.users[si], s.users[ri];
    var u2 := Credit(Credit(s.users, si, -amount), ri, amount);
    var out := Build(s.nextId, OutDraft(from, to, amount, description, transferId), now).value;
    var inn := Build(s.nextId + 1, InDraft(from, to, amount, description, transferId), now).value;
    var s0 := s.(users := u2);
    assert Valid(s0);
    var s1 := AppendEntry(s0, out);
    assert Valid(s1);
    var t := AppendEntry(s1, inn);
    assert Transfer(s, me, toEmail, amount, description, transferId, now).value.0 == t;
  }

  /** A transfer never drives a balance below zero. */
  lemma TransferKeepsBalancesNonNegative(s: Store, me: Account, toEmail: string, amount: real, description: string,
                                         transferId: string, now: Instant)
    requires Transfer(s, me, toEmail, amount, description, transferId, now).Ok?
    requires NonNegativeBalances(s.users)
    ensures NonNegativeBalances(Transfer(s, me, toEmail, amount, description, transferId, now).value.0.users)
  {
    var si, ri := FindUser(s.users, me.id).value, FindUserByEmail(s.users, toEmail).value;
    var u1 := Credit(s.users, si, -amount);
    var u2 := Credit(u1, ri, amount);
    assert Transfer(s, me, toEmail, amount, description, transferId, now).value.0.users == u2;
    assert NonNegativeBalances(u1);
  }

  /** The sender loses exactly the amount, the recipient gains it, nobody
      else is touched, and the reply reports the sender's new balance and the
      recipient's address. */
  lemma TransferMovesAmount(s: Store, me: Account, toEmail: string, amount: real, description: string,
                            transferId: string, now: Instant)
    requires Transfer(s, me, toEmail, amount, description, transferId, now).Ok?
    requires CallerOnFile(s, me)
    ensures var (t, receipt) := Transfer(s, me, toEmail, amount, description, transferId, now).value;
            var si, ri := FindUser(s.users, me.id).value, FindUserByEmail(s.users, toEmail).value;
            && si != ri && |t.users| == |s.users|
            && t.users[si].balance == s.users[si].balance - amount
            && t.users[ri].balance == s.users[ri].balance + amount
            && (forall j :: 0 <= j < |s.users| && j != si && j != ri ==> t.users[j] == s.users[j])
            && receipt.balance == t.users[si].balance && receipt.recipientEmail == toEmail
            && receipt.transferId == transferId
  {
  }

  /** A transfer appends exactly two ledger entries: the sender's
      `transfer_out` and the recipient's `transfer_in`, for the same amount,
      both in category `transfer`, paid from the wallet and carrying the same
      transfer record. */
  lemma TransferRecordsBothSides(s: Store, me: Account, toEmail: string, amount: real, description: string,
                                 transferId: string, now: Instant)
    requires Transfer(s, me, toEmail, amount, description, transferId, now).Ok?
    ensures var t := Transfer(s, me, toEmail, amount, description, transferId, now).value.0;
            var to := s.users[FindUserByEmail(s.users, toEmail).value];
            && |t.entries| == |s.entries| + 2 && t.entries[..|s.entries|] == s.entries
            && var o, i := t.entries[|s.entries|], t.entries[|s.entries| + 1];
               && o.kind == TransferOut && o.user == me.id && i.kind == TransferIn && i.user == to.id
               && o.amount == amount == i.amount
               && o.category == "transfer" == i.category && o.paymentMethod == Wallet == i.paymentMethod
               && o.transfer == Some(TransferInfo(me.id, to.id, transferId)) == i.transfer
  {
    var t := Transfer(s, me, toEmail, amount, description, transferId, now).value.0;
    assert t.entries[..|s.entries|] == s.entries;
  }

  /** `POST /transfer`: `transferValidation` first (a 400 listing every
      failed field), then the handler on the sanitised body, whose
      description is trimmed. */
  function TransferRoute(s: Store, me: Account, b: TransferBody, transferId: string, now: Instant): (r: Reply<(Store, Receipt)>)
    ensures TransferErrors(b) != [] ==> r.Err? && r.error.status == BadRequest && r.error.errors == TransferErrors(b)
    ensures r.Ok? <==> TransferErrors(b) == [] && TransferAllowed(s, me, Field(b.toEmail), b.amount.value)
    ensures r.Ok? ==> r.value.1.transferId == transferId
  {
    match HandleValidationErrors(TransferErrors(b))
    case Some(e) => Err(e)
    case None => Transfer(s, me, Field(b.toEmail), b.amount.value, Trim(Field(b.description)), transferId, now)
  }

  /** Through the route, an amount below one cent is refused before any
      account is read, and the reply names the amount field. */
  lemma TransferRouteRefusesDust(s: Store, me: Account, b: TransferBody, transferId: string, now: Instant)
    requires b.amount.None? || b.amount.value < 0.01
    ensures var r := TransferRoute(s, me, b, transferId, now);
            r.Err? && r.error.status == BadRequest && Names(r.error.errors, "amount")
  {
    TransferErrorsNameFailures(b);
  }

  // ------------------------------------------------------------------ history

  /** The caller's wallet entries: `type` is `transfer_in` or `transfer_out`. */
  function IsTransferOf(user: UserId): Entry -> bool
  {
    (e: Entry) => e.user == user && (e.kind == TransferIn || e.kind == TransferOut)
  }

  /** `sort({ date: -1 })` orders by this key. */
  function DateKey(e: Entry): real
  {
    e.date.ms as real
  }

  /** The caller's transfers, newest first. */
  function TransfersOf(s: Store, user: UserId): (r: seq<Entry>)
    ensures SortedDesc(r, DateKey)
    ensures |r| == Count(s.entries, IsTransferOf(user))
    ensures forall e :: e in r <==> e in s.entries && IsTransferOf(user)(e)
  {
    var f := Filter(s.entries, IsTransferOf(user));
    var r := SortDesc(f, DateKey);
    assert forall e :: e in r <==> e in f by {
      forall e ensures e in r <==> e in f {
        assert e in r <==> e in multiset(r);
        assert e in f <==> e in multiset(f);
      }
    }
    assert forall e :: e in f <==> e in s.entries && IsTransferOf(user)(e) by {
      forall e | e in s.entries && IsTransferOf(user)(e) ensures e in f {
        var i :| 0 <= i < |s.entries| && s.entries[i] == e;
      }
      forall e | e in f ensures e in s.entries && IsTransferOf(user)(e) {
        var i :| 0 <= i < |f| && f[i] == e;
      }
    }
    r
  }

  const HistoryLimit: int := 20

  /** `GET /transactions`: one page of the caller's transfers, newest first,
      20 to a page unless the query says otherwise. */
  function History(s: Store, user: UserId, q: PageQuery): (r: Reply<(seq<Entry>, Pagination)>)
    ensures r.Ok? <==> Skip(q, HistoryLimit) >= 0
    ensures r.Err? ==> r.error == Fail(ServerError, "Server error fetching wallet transactions")
    ensures r.Ok? ==> r.value.1.total == Count(s.entries, IsTransferOf(user))
    ensures r.Ok? ==> forall i :: 0 <= i < |r.value.0| ==> r.value.0[i] in s.entries && IsTransferOf(user)(r.value.0[i])
    ensures r.Ok? ==> SortedDesc(r.value.0, DateKey)
  {
    var sorted := TransfersOf(s, user);
    var r := Paginate(sorted, q, HistoryLimit, "Server error fetching wallet transactions");
    if r.Ok? then
      assert forall i :: 0 <= i < |r.value.0| ==> r.value.0[i] in sorted;
      r
    else r
  }

  /** A first page at least as long as the caller's transfer count holds every
      one of them. */
  lemma HistoryHoldsEveryTransfer(s: Store, user: UserId, limit: int, e: Entry)
    requires limit >= Count(s.entries, IsTransferOf(user)) && limit > 0
    requires e in s.entries && IsTransferOf(user)(e)
    ensures var r := History(s, user, PageQuery(Some(1), Some(limit)));
            r.Ok? && e in r.value.0
  {
    var sorted := TransfersOf(s, user);
    var i :| 0 <= i < |sorted| && sorted[i] == e;
    var r := History(s, user, PageQuery(Some(1), Some(limit)));
    assert r.value.0 == Window(sorted, 0, limit);
    assert r.value.0[i] == e;
  }

  // ----------------------------------------------------------------- contacts

  datatype Contact = Contact(name: string, email: string, lastTransfer: int)

  /** The account `populate` finds for an id, if it still exists. */
  function Lookup(users: seq<Account>, id: UserId): Option<Account>
  {
    match FindUser(users, id)
    case None => None
    case Some(i) => Some(users[i])
  }

  /** The other party of a transfer entry: the recipient of an outgoing
      transfer, the sender of an incoming one. `None` when the entry has no
      transfer record or the account no longer exists. */
  function Counterpart(users: seq<Account>, e: Entry): Option<Account>
  {
    if e.transfer.None? then None
    else if e.kind == TransferOut then Lookup(users, e.transfer.value.toUser)
    else if e.kind == TransferIn then Lookup(users, e.transfer.value.fromUser)
    else None
  }

  /** Whether the entry's other party has this email. */
  function CounterpartIs(users: seq<Account>, email: string): Entry -> bool
  {
    (e: Entry) => Counterpart(users, e).Some? && Counterpart(users, e).value.email == email
  }

  function ContactFor(a: Account, e: Entry): Contact
  {
    Contact(FullName(a), a.email, e.date.ms)
  }

  /** Whether the list already has a contact with this email (`contactsMap.has`). */
  predicate Known(cs: seq<Contact>, email: string)
  {
    exists i :: 0 <= i < |cs| && cs[i].email == email
  }

  predicate DistinctEmails(cs: seq<Contact>)
  {
    forall i, j :: 0 <= i < j < |cs| ==> cs[i].email != cs[j].email
  }

  function LastKey(c: Contact): real
  {
    c.lastTransfer as real
  }

  /** One step of the `forEach`: a counterpart whose email is not yet in the
      map is added with the entry's date; otherwise nothing changes. */
  function AddContact(acc: seq<Contact>, users: seq<Account>, e: Entry): (r: seq<Contact>)
    ensures Counterpart(users, e).Some? ==> Known(r, Counterpart(users, e).value.email)
    ensures |acc| <= |r| <= |acc| + 1
    ensures forall i :: 0 <= i < |acc| ==> r[i] == acc[i]
    ensures |r| > |acc| ==> && Counterpart(users, e).Some? && !Known(acc, r[|acc|].email)
                            && r[|acc|] == ContactFor(Counterpart(users, e).value, e)
  {
    var c := Counterpart(users, e);
    if c.Some? && !Known(acc, c.value.email) then
      var r := acc + [ContactFor(c.value, e)];
      assert r[|acc|].email == c.value.email;
      r
    else acc
  }

  /** The `forEach` over the entries, as a left fold from the map `acc`. The
      map's insertion order is kept. */
  function CollectContacts(es: seq<Entry>, users: seq<Account>, acc: seq<Contact>): (r: seq<Contact>)
    ensures |acc| <= |r| <= |acc| + |es|
    ensures forall i :: 0 <= i < |acc| ==> r[i] == acc[i]
  {
    if |es| == 0 then acc
    else CollectContacts(es[1..], users, AddContact(acc, users, es[0]))
  }

  /** The fold never adds an email twice. */
  lemma {:induction false} CollectDistinct(es: seq<Entry>, users: seq<Account>, acc: seq<Contact>)
    requires DistinctEmails(acc)
    ensures DistinctEmails(CollectContacts(es, users, acc))
    decreases |es|
  {
    if |es| > 0 {
      var next := AddContact(acc, users, es[0]);
      assert DistinctEmails(next) by {
        if |next| > |acc| {
          forall i | 0 <= i < |acc| ensures next[i].email != next[|acc|].email { }
        }
      }
      CollectDistinct(es[1..], users, next);
    }
  }

  /** Every counterpart of every entry ends up in the fold's result. */
  lemma {:induction false} CollectCovers(es: seq<Entry>, users: seq<Account>, acc: seq<Contact>, j: nat)
    requires j < |es| && Counterpart(users, es[j]).Some?
    ensures Known(CollectContacts(es, users, acc), Counterpart(users, es[j]).value.email)
    decreases |es|
  {
    var next := AddContact(acc, users, es[0]);
    var r := CollectContacts(es, users, acc);
    if j == 0 {
      var m := Counterpart(users, es[0]).value.email;
      var i :| 0 <= i < |next| && next[i].email == m;
      assert r[i] == next[i];
    } else {
      assert es[1..][j - 1] == es[j];
      CollectCovers(es[1..], users, next, j - 1);
    }
  }

  /** A contact the fold adds comes from the first entry whose counterpart
      has its email, and carries that entry's date. */
  lemma {:induction false} CollectFirstSeen(es: seq<Entry>, users: seq<Account>, acc: seq<Contact>, i: nat)
    requires |acc| <= i < |CollectContacts(es, users, acc)|
    ensures var r := CollectContacts(es, users, acc);
            var k := FirstIndex(es, CounterpartIs(users, r[i].email));
            && !Known(acc, r[i].email) && k.Some?
            && r[i] == ContactFor(Counterpart(users, es[k.value]).value, es[k.value])
    decreases |es|
  {
    var r := CollectContacts(es, users, acc);
    var next := AddContact(acc, users, es[0]);
    var m := r[i].email;
    var p := CounterpartIs(users, m);
    if i < |next| {
      assert r[i] == next[i];
      assert p(es[0]);
    } else {
      CollectFirstSeen(es[1..], users, next, i);
      var k := FirstIndex(es[1..], p).value;
      assert !p(es[0]);
      assert es[1..][k] == es[k + 1];
    }
  }

  /** Entries newest first give contacts newest first. */
  predicate Above(acc: seq<Contact>, es: seq<Entry>)
  {
    forall i, j :: 0 <= i < |acc| && 0 <= j < |es| ==> acc[i].lastTransfer >= es[j].date.ms
  }

  lemma {:induction false} CollectSorted(es: seq<Entry>, users: seq<Account>, acc: seq<Contact>)
    requires SortedDesc(es, DateKey) && SortedDesc(acc, LastKey) && Above(acc, es)
    ensures SortedDesc(CollectContacts(es, users, acc), LastKey)
    decreases |es|
  {
    if |es| > 0 {
      var next := AddContact(acc, users, es[0]);
      assert SortedDesc(next, LastKey) by {
        if |next| > |acc| {
          assert next[|acc|].lastTransfer == es[0].date.ms;
        }
      }
      assert Above(next, es[1..]) by {
        forall i, j | 0 <= i < |next| && 0 <= j < |es[1..]| ensures next[i].lastTransfer >= es[1..][j].date.ms {
          assert es[1..][j] == es[j + 1];
          assert DateKey(es[0]) >= DateKey(es[j + 1]);
        }
      }
      CollectSorted(es[1..], users, next);
    }
  }

  /** Every distinct counterpart of the caller's transfers, in order of
      their latest transfer. */
  function Collected(s: Store, user: UserId): seq<Contact>
  {
    CollectContacts(TransfersOf(s, user), s.users, [])
  }

  /** `GET /contacts`: the distinct counterparts of the caller's transfers,
      most recent first, at most ten. The second sort finds them already in
      order and keeps them. */
  function Contacts(s: Store, user: UserId): (r: seq<Contact>)
    ensures |r| <= 10 && DistinctEmails(r) && SortedDesc(r, LastKey)
    ensures r == Collected(s, user)[..Min(10, |Collected(s, user)|)]
  {
    var all := Collected(s, user);
    CollectSorted(TransfersOf(s, user), s.users, []);
    CollectDistinct(TransfersOf(s, user), s.users, []);
    SortSortedIsIdentity(all, LastKey);
    var sorted := SortDesc(all, LastKey);
    sorted[..Min(10, |sorted|)]
  }

  /** A contact's date is that of the caller's latest transfer with that
      person. */
  lemma ContactsAreLatest(s: Store, user: UserId, i: nat, e: Entry)
    requires i < |Contacts(s, user)|
    requires e in s.entries && IsTransferOf(user)(e) && CounterpartIs(s.users, Contacts(s, user)[i].email)(e)
    ensures e.date.ms <= Contacts(s, user)[i].lastTransfer
  {
    var es := TransfersOf(s, user);
    var all := Collected(s, user);
    var j :| 0 <= j < |es| && es[j] == e;
    CollectFirstSeen(es, s.users, [], i);
    var k := FirstIndex(es, CounterpartIs(s.users, all[i].email)).value;
    assert k <= j;
    assert DateKey(es[k]) >= DateKey(es[j]);
  }

  /** A counterpart of the caller's transfers is missing from the list only
      when ten contacts at least as recent fill it. */
  lemma ContactsCoverCounterparts(s: Store, user: UserId, e: Entry)
    requires e in s.entries && IsTransferOf(user)(e) && Counterpart(s.users, e).Some?
    ensures || Known(Contacts(s, user), Counterpart(s.users, e).value.email)
            || (|Contacts(s, user)| == 10 && forall i :: 0 <= i < 10 ==> Contacts(s, user)[i].lastTransfer >= e.date.ms)
  {
    var es := TransfersOf(s, user);
    var all := Collected(s, user);
    var j :| 0 <= j < |es| && es[j] == e;
    CollectCovers(es, s.users, [], j);
    var m := Counterpart(s.users, e).value.email;
    var p :| 0 <= p < |all| && all[p].email == m;
    var r := Contacts(s, user);
    if p < 10 {
      assert r[p] == all[p];
    } else {
      ContactsAreLatestAll(s, user, p, e);
      CollectSorted(es, s.users, []);
      forall i | 0 <= i < 10 ensures r[i].lastTransfer >= e.date.ms {
        assert r[i] == all[i];
        assert LastKey(all[i]) >= LastKey(all[p]);
      }
    }
  }

  /** `ContactsAreLatest` before the cut to ten. */
  lemma ContactsAreLatestAll(s: Store, user: UserId, p: nat, e: Entry)
    requires p < |Collected(s, user)|
    requires e in s.entries && IsTransferOf(user)(e) && CounterpartIs(s.users, Collected(s, user)[p].email)(e)
    ensures e.date.ms <= Collected(s, user)[p].lastTransfer
  {
    var es := TransfersOf(s, user);
    var all := Collected(s, user);
    var j :| 0 <= j < |es| && es[j] == e;
    CollectFirstSeen(es, s.users, [], p);
    var k := FirstIndex(es, CounterpartIs(s.users, all[p].email)).value;
    assert k <= j;
    assert DateKey(es[k]) >= DateKey(es[j]);
  }
}

=== FILE: wrappers.dfy ===
/** Failure-compatible result types shared by every module of the model. */
module Wrappers {

  /** An optional value: a missing request field, a lookup that found nothing,
      a JavaScript `null`/`undefined`. */
  datatype Option<+T> = None | Some(value: T) {
    function GetOr(default: T): T {
      if Some? then value else default
    }
  }

  /** The outcome of an operation that may fail with an error of type `E`. */
  datatype Result<+T, +E> = Ok(value: T) | Err(error: E) {
    predicate IsFailure() {
      Err?
    }

    function PropagateFailure<U>(): Result<U, E>
      requires Err?
    {
      Err(error)
    }

    function Extract(): T
      requires Ok?
    {
      value
    }
  }
}
